=== FILE: README.md ===
# Direct manipulation plugin examples, modelled in Dafny

This project models the deterministic core of three Tekla Structures plugin examples and of the
direct manipulation features written for them:

- the **transition section plugin**. Four scalars (rectangle height and width, section length,
  circle radius) and two picked points lay out a rounded rectangle and a four-arc circle.
  `Run` turns them into four lofted plates and four triangular contour plates.
- its **features**:
  - the creation feature: a picking session with a preview;
  - the manipulation feature: three value boxes, plus up to two contexts per component. A
    rectangle context drags the width and height edges; a circle context drags the top radius.
    The contexts come from an iterator, so a context whose constructor throws ends the list.
- the **beam plugin**: the plugin itself, its creation feature (pick two points, preview a
  profile, commit a polygon) and its manipulation context (one handle per input point; the
  input is rebuilt from the handles).
- the **custom part** features: a creation feature, plus a manipulation context with point
  handles, line handles and distance manipulators.

Everything is a pure function over immutable values.

- **Points and vectors** are `Vec3` over `real`.
- **Curves** are segments and arcs. An arc is given by its start, end and centre.
- **Component input** is a sequence of input entries.
- **Attributes.** A component's stored numeric attributes are a map from names to numbers
  (`Component.numbers`). The attributes a feature reads from the plugin dialog while picking
  are a map from names to `Applied(text, number)`: the value's text and what parsing it as a
  number gives, if anything.
- **Effects.** What a handler does to the host is returned as an ordered list of `Effect`s:
  clear or draw graphics, select, set an attribute, modify, commit, commit or modify input.
- **Outcomes.** A handler's result is `Outcome(state, effects, completed)`, where `completed` is
  false when a host call throws part way through. Where the throw ends a whole computation,
  the result is `None`.
- **Subscriptions.** Event subscriptions are multisets of registrations: `+=` adds one and `-=`
  removes one if present.
- **The geometry library.** Vector length, normalisation, rounding and `DISTANCE_EPSILON` are a
  `Kernel` value passed as a parameter. `Lawful(k)` states the only laws the proofs use:
  - a length is non-negative and its square is the dot product;
  - rounding moves a number by at most one half;
  - epsilon lies strictly between 0 and 1. The upper bound matters to the base frame: the
    normalised cross product of the normal and the X axis has length 1, which is never below
    epsilon, so the fallback to the Z axis fires only when that cross product is zero.

The modules follow the source files:

- `geometry.dfy` and `polycurves.dfy`: vectors, projections, the polycurve builder, curve
  transformation;
- `host.dfy`: input items, components, effects, subscriptions;
- `wrappers.dfy`: `Option`;
- `transition_section_geometry.dfy`, `transition_section_plugin.dfy`, `data_fetcher.dfy`;
- `rectangle_context.dfy`, `circle_context.dfy`, `transition_section_manipulation.dfy`,
  `transition_section_creation.dfy`;
- `picking.dfy`: the picking-session logic the creation features share;
- `beam_plugin.dfy`, `beam_creation.dfy`, `beam_context.dfy`;
- `custom_part_creation.dfy`, `custom_part_context.dfy`.

## Model

| member | source | states |
|---|---|---|
| TransitionSectionGeometry.BaseCoordsys | 2025_DirectManipulationPlugins.Examples/ComplexTransitionSectionPlugin/TransitionSectionGeometry.cs:85-97 | The frame's origin is the centroid. When normal × X has (normalised) length below epsilon, the Y axis falls back to global Z. |
| TransitionSectionGeometry.BaseCoordsysOrthogonal | 2025_DirectManipulationPlugins.Examples/ComplexTransitionSectionPlugin/TransitionSectionGeometry.cs:85-97 | Both axes of the base frame are perpendicular to the normal and to each other. The Y axis is the unit of normal × X, or Z when that product vanishes. |
| TransitionSectionGeometry.BaseCoordsysUnit | 2025_DirectManipulationPlugins.Examples/ComplexTransitionSectionPlugin/TransitionSectionGeometry.cs:85-97 | For a non-zero normal, both axes are non-zero unit vectors, orthogonal, with a non-zero cross product. So the frame has a well-defined plane normal. |
| TransitionSectionGeometry.BaseFrameNormal | 2025_DirectManipulationPlugins.Examples/ComplexTransitionSectionPlugin/TransitionSectionGeometry.cs:85-97 | For a non-zero normal, axis X × axis Y of the base frame points the same way as the normal, so both have the same unit vector. |
| TransitionSectionGeometry.LocalPlaneToBasePlane | 2025_DirectManipulationPlugins.Examples/ComplexTransitionSectionPlugin/TransitionSectionGeometry.cs:183-203 | Every local point with z = 0 is mapped into the plane through the centroid perpendicular to the normal. |
| TransitionSectionGeometry.TransformToGlobal | 2025_DirectManipulationPlugins.Examples/ComplexTransitionSectionPlugin/TransitionSectionGeometry.cs:160-203 | Transforming keeps the number, order and kind of the curves (arcs stay arcs, segments stay segments) and maps their end points through the base frame. Any other curve kind makes it fail. |
| TransitionSectionGeometry.ChainStaysClosed | 2025_DirectManipulationPlugins.Examples/ComplexTransitionSectionPlugin/TransitionSectionGeometry.cs:183-203 | A closed chain of curves stays closed after the transformation. |
| TransitionSectionGeometry.CornerRadius | 2025_DirectManipulationPlugins.Examples/ComplexTransitionSectionPlugin/TransitionSectionGeometry.cs:106 | The corner radius is min(height, width) / 12: at most a twelfth of each dimension and exactly a twelfth of one of them. |
| TransitionSectionGeometry.StraightRuns | 2025_DirectManipulationPlugins.Examples/ComplexTransitionSectionPlugin/TransitionSectionGeometry.cs:106-111 | For positive dimensions, the corner radius and both straight runs are positive, and each run keeps at least five sixths of its side. |
| TransitionSectionGeometry.LocalRectangleIsExpected | 2025_DirectManipulationPlugins.Examples/ComplexTransitionSectionPlugin/TransitionSectionGeometry.cs:113-125 | For positive dimensions, the builder calls succeed and produce the expected rounded rectangle. |
| TransitionSectionGeometry.RectangleFirstEdge | 2025_DirectManipulationPlugins.Examples/ComplexTransitionSectionPlugin/TransitionSectionGeometry.cs:113-117 | The first curve is the right edge at x = W/2, from y = −YLength/2 to +YLength/2 at z = 0. Its length is YLength. |
| TransitionSectionGeometry.RectangleCornerPoints | 2025_DirectManipulationPlugins.Examples/ComplexTransitionSectionPlugin/TransitionSectionGeometry.cs:118-124 | The four tangent arcs end at (W/2−r, H/2), (−W/2, H/2−r), (−(W/2−r), −H/2) and (W/2, −(H/2−r)): one corner each, counter-clockwise from the top right. |
| TransitionSectionGeometry.RectangleKinds | 2025_DirectManipulationPlugins.Examples/ComplexTransitionSectionPlugin/TransitionSectionGeometry.cs:116-125 | The rectangle has exactly eight curves: segment, arc, segment, arc, and so on. |
| TransitionSectionGeometry.RectangleCloses | 2025_DirectManipulationPlugins.Examples/ComplexTransitionSectionPlugin/TransitionSectionGeometry.cs:113-124 | Each curve ends where the next begins, and the last arc ends at the start of the first segment. |
| TransitionSectionGeometry.RectangleArcRadius | 2025_DirectManipulationPlugins.Examples/ComplexTransitionSectionPlugin/TransitionSectionGeometry.cs:118-124 | Each corner arc starts and ends at distance r from its centre. |
| TransitionSectionGeometry.RectangleCallFollows | 2025_DirectManipulationPlugins.Examples/ComplexTransitionSectionPlugin/TransitionSectionGeometry.cs:116-125 | Each builder call, applied to the chain so far, appends the next curve of the expected rectangle. |
| TransitionSectionGeometry.LocalCircleIsExpected | 2025_DirectManipulationPlugins.Examples/ComplexTransitionSectionPlugin/TransitionSectionGeometry.cs:138-149 | For a positive radius, the builder calls produce the four expected quarter arcs. |
| TransitionSectionGeometry.CircleShape | 2025_DirectManipulationPlugins.Examples/ComplexTransitionSectionPlugin/TransitionSectionGeometry.cs:138-149 | The circle is four arcs about (0, 0, L). It starts at (R, 0, L), passes (−R, 0, L) and (0, −R, L), and closes back at its start. |
| TransitionSectionGeometry.CircleRadius | 2025_DirectManipulationPlugins.Examples/ComplexTransitionSectionPlugin/TransitionSectionGeometry.cs:138-149 | Every defining point of each quarter arc lies at distance R from the centre. |
| TransitionSectionGeometry.CircleCallFollows | 2025_DirectManipulationPlugins.Examples/ComplexTransitionSectionPlugin/TransitionSectionGeometry.cs:144-149 | Each tangent-arc call appends the next quarter arc. |
| TransitionSectionGeometry.MakeSection | 2025_DirectManipulationPlugins.Examples/ComplexTransitionSectionPlugin/TransitionSectionGeometry.cs:66-79 | A built section keeps the six parameters it was built from. |
| TransitionSectionGeometry.SectionShape | 2025_DirectManipulationPlugins.Examples/ComplexTransitionSectionPlugin/TransitionSectionGeometry.cs:66-79 | For positive dimensions, the constructor succeeds. The result is well shaped: an 8-curve closed segment/arc rectangle in the base plane, and a closed 4-arc circle. |
| TransitionSectionGeometry.SectionBuiltFrom | 2025_DirectManipulationPlugins.Examples/ComplexTransitionSectionPlugin/TransitionSectionGeometry.cs:77-78 | The section's two polycurves are the expected local rectangle and circle, transformed to global. |
| TransitionSectionGeometry.RectangleGlobal | 2025_DirectManipulationPlugins.Examples/ComplexTransitionSectionPlugin/TransitionSectionGeometry.cs:127 | The transformed rectangle keeps the segment/arc pattern, stays closed, and lies in the base plane. |
| TransitionSectionGeometry.CircleGlobal | 2025_DirectManipulationPlugins.Examples/ComplexTransitionSectionPlugin/TransitionSectionGeometry.cs:151 | The transformed circle is four arcs, each ending where the next begins. |
| Polycurves.AppendSegment | 2025_DirectManipulationPlugins.Examples/ComplexTransitionSectionPlugin/TransitionSectionGeometry.cs:117 | Append adds one segment, and the chain then ends at the segment's end. |
| Polycurves.AppendTangentArc | 2025_DirectManipulationPlugins.Examples/ComplexTransitionSectionPlugin/TransitionSectionGeometry.cs:118 | A tangent arc starts at the end of the chain and ends at the given point. The existing curves are kept. |
| Polycurves.TangentArcToChainEnd | 2025_DirectManipulationPlugins.Examples/ComplexTransitionSectionPlugin/TransitionSectionGeometry.cs:118 | A tangent arc to the point where the chain already ends is degenerate and fails. |
| TransitionSectionGeometry.ZeroWidthRectangleFails | 2025_DirectManipulationPlugins.Examples/ComplexTransitionSectionPlugin/TransitionSectionGeometry.cs:104-118 | A zero width gives a zero corner radius, so the first tangent arc aims at the end of the first side and the rectangle cannot be built. |
| Polycurves.AppendTangentSegment | 2025_DirectManipulationPlugins.Examples/ComplexTransitionSectionPlugin/TransitionSectionGeometry.cs:119 | A tangent segment starts at the end of the chain and keeps its heading. It fails on an empty chain. |
| Polycurves.QuarterTurn | 2025_DirectManipulationPlugins.Examples/ComplexTransitionSectionPlugin/TransitionSectionGeometry.cs:118-124 | Heading along an axis, a tangent arc to the point r ahead and r to the left is the quarter arc about the point r to the left. After it the heading turns left. |
| Polycurves.RunStepsFollows | 2025_DirectManipulationPlugins.Examples/ComplexTransitionSectionPlugin/TransitionSectionGeometry.cs:116-125 | A fluent chain of builder calls gives the last builder when each call gives the next. |
| Polycurves.TransformCurve | 2025_DirectManipulationPlugins.Examples/ComplexTransitionSectionPlugin/TransitionSectionGeometry.cs:160-176 | A transformed arc is an arc and a segment is a segment, with both end points mapped. Any other curve kind throws. |
| Polycurves.TransformCurves | 2025_DirectManipulationPlugins.Examples/ComplexTransitionSectionPlugin/TransitionSectionGeometry.cs:188 | Curves are transformed one by one, in order. The whole transform fails exactly when some curve is of another kind. |
| Polycurves.KeepArcsAndSegmentsIdentity | 2025_DirectManipulationPlugins.Examples/ComplexTransitionSectionPlugin/TransitionSectionGeometry.cs:191-201 | Rebuilding a polycurve from arcs and segments only gives back the same curves. |
| Polycurves.AlternatingChain | 2020_DirectManipulationPlugins.Examples/ComplexTransitionSectionPlugin/TransitionSectionPlugin.cs:139 | In a segment/arc alternating chain, `OfType<Arc>` yields the odd curves and `OfType<LineSegment>` the even ones, half each. |
| Geometry.ProjectionIsPerpendicular | 2024_DirectManipulationPlugins.Examples/ComplexTransitionSectionPluginFeatures/ManipulationContexts/RectangleManipulationContext.cs:292 | The offset from a point to its projection on a line is perpendicular to the line. |
| Geometry.ProjectionOfShiftedLine | 2024_DirectManipulationPlugins.Examples/ComplexTransitionSectionPluginFeatures/ManipulationContexts/RectangleManipulationContext.cs:297-298 | Shifting a line perpendicular to itself shifts a point's projection by the same vector. |
| Geometry.NormalIsUnit | 2025_DirectManipulationPlugins.Examples/ComplexTransitionSectionPlugin/TransitionSectionGeometry.cs:88 | Normalising a non-zero vector gives a non-zero unit vector. |
| Geometry.LengthZeroIffZero | 2020_DirectManipulationPlugins.Examples/ComplexTransitionSectionPluginFeatures/ManipulationContexts/CircleManipulationContext.cs:128-129 | A vector's length is zero exactly for the zero vector. |
| Geometry.LengthOfScaled | 2020_DirectManipulationPlugins.Examples/ComplexTransitionSectionPluginFeatures/ManipulationContexts/CircleManipulationContext.cs:136 | Scaling a vector scales its length by the factor's absolute value. |
| Geometry.ScaledNormalLength | 2020_DirectManipulationPlugins.Examples/ComplexTransitionSectionPluginFeatures/ManipulationContexts/CircleManipulationContext.cs:136-138 | c times the unit of a non-zero vector has length abs(c). |
| Geometry.DistanceToOffsetLine | 2024_DirectManipulationPlugins.Examples/ComplexTransitionSectionPluginFeatures/ManipulationContexts/RectangleManipulationContext.cs:204 | A line through o + a·u in a direction perpendicular to the unit u passes at distance a from o. |
| Geometry.ProjectionInPlane | 2020_DirectManipulationPlugins.Examples/ComplexTransitionSectionPluginFeatures/ManipulationContexts/CircleManipulationContext.cs:126 | Projecting a point onto a plane gives a point whose offset from the plane's origin is perpendicular to the normal. |
| TransitionSectionPlugin.DataValues | 2020_DirectManipulationPlugins.Examples/ComplexTransitionSectionPlugin/TransitionSectionPlugin.cs:211-237 | Each value is replaced by its default only when it holds the default marker: "PL10", "Steel_Undefined", "PAINT", 3000, 6000, 1000. Otherwise the stored value is kept. |
| TransitionSectionPlugin.StoredValuesKept | 2020_DirectManipulationPlugins.Examples/ComplexTransitionSectionPlugin/TransitionSectionPlugin.cs:211-237 | Values stored without default markers are read back unchanged. |
| TransitionSectionPlugin.DimensionsPositive | 2020_DirectManipulationPlugins.Examples/ComplexTransitionSectionPlugin/TransitionSectionPlugin.cs:229-236 | Positive stored dimensions, or defaults, give positive dimensions. |
| TransitionSectionPlugin.ArcPairs | 2020_DirectManipulationPlugins.Examples/ComplexTransitionSectionPlugin/TransitionSectionPlugin.cs:139-141 | The zip pairs arc i of the rectangle with curve i of the circle (null when that curve is not an arc). Its length is the shorter of the two counts. |
| TransitionSectionPlugin.TrianglesBeforeFailure | 2020_DirectManipulationPlugins.Examples/ComplexTransitionSectionPlugin/TransitionSectionPlugin.cs:149-156 | The triangle loop gets through exactly the pairs before the first null top. That top's `EndPoint` throws and ends the loop. |
| TransitionSectionPlugin.NextIndex | 2020_DirectManipulationPlugins.Examples/ComplexTransitionSectionPlugin/TransitionSectionPlugin.cs:151 | The next index stays in range and wraps around: (i + 1) mod n. |
| TransitionSectionPlugin.SectionParts | 2020_DirectManipulationPlugins.Examples/ComplexTransitionSectionPlugin/TransitionSectionPlugin.cs:134-157 | All lofted plates come first, one per pair in order. The triangular plates follow, pair i joined to pair (i+1) mod n, with the contour [bottom_i end, bottom_next start, top_i end]. |
| TransitionSectionPlugin.PlatesOfWellShaped | 2020_DirectManipulationPlugins.Examples/ComplexTransitionSectionPlugin/TransitionSectionPlugin.cs:143-194 | For a well-shaped section there are exactly 8 plates. Plate i lofts rectangle arc 2i+1 to circle arc i. Triangle i spans the straight edge after that corner, up to circle arc i's end. |
| TransitionSectionPlugin.PairsOfWellShaped | 2020_DirectManipulationPlugins.Examples/ComplexTransitionSectionPlugin/TransitionSectionPlugin.cs:139-141 | A well-shaped section gives 4 pairs, every top an arc, so all 4 triangles are built. |
| TransitionSectionPlugin.TriangleSpansEdge | 2020_DirectManipulationPlugins.Examples/ComplexTransitionSectionPlugin/TransitionSectionPlugin.cs:188-189 | The triangle's first two points are the two ends of the straight edge between arc i and arc i+1, wrapping around. |
| TransitionSectionPlugin.Run | 2020_DirectManipulationPlugins.Examples/ComplexTransitionSectionPlugin/TransitionSectionPlugin.cs:93-110 | Run always returns true. It inserts nothing when the first definition is missing, is not a list, or has fewer than two points. With two or more points it builds the section at p0, with length dist(p0, p1), normal p1 − p0 and the dialog values. It inserts that section's plates, or nothing when the geometry cannot be built. |
| TransitionSectionPlugin.RunSection | 2020_DirectManipulationPlugins.Examples/ComplexTransitionSectionPlugin/TransitionSectionPlugin.cs:97-102 | With positive or default dimensions and two listed points, Run builds a well-shaped section and inserts exactly its plates. The section keeps the dialog's height, width and radius. Its length is dist(p0, p1), its centroid p0 and its normal p1 − p0. |
| TransitionSectionPlugin.RunInsertsFullTransition | 2020_DirectManipulationPlugins.Examples/ComplexTransitionSectionPlugin/TransitionSectionPlugin.cs:93-157 | Under the same conditions Run inserts eight plates: four lofted plates, then four contour plates. |
| DataFetcher.Radius | 2020_DirectManipulationPlugins.Examples/ComplexTransitionSectionPluginFeatures/DataFetcher.cs:22-28 | The CircleRadius attribute, or 1000 when it is absent. |
| DataFetcher.BaseWidth | 2020_DirectManipulationPlugins.Examples/ComplexTransitionSectionPluginFeatures/DataFetcher.cs:35-41 | The RectangleWidth attribute, or 3000 when it is absent. |
| DataFetcher.BaseHeight | 2020_DirectManipulationPlugins.Examples/ComplexTransitionSectionPluginFeatures/DataFetcher.cs:48-54 | The RectangleHeight attribute, or 6000 when it is absent. |
| DataFetcher.FetchAfterWrite | 2020_DirectManipulationPlugins.Examples/ComplexTransitionSectionPluginFeatures/DataFetcher.cs:22-54 | Writing one attribute makes its getter return the written value and leaves the other getters as they were. |
| DataFetcher.DefinitionPoints | 2020_DirectManipulationPlugins.Examples/ComplexTransitionSectionPluginFeatures/DataFetcher.cs:61-90 | Null input gives no points. Otherwise the result is defined exactly when every entry is an InputItem: the `foreach` cast throws on anything else. |
| DataFetcher.FlattenAppend | 2020_DirectManipulationPlugins.Examples/ComplexTransitionSectionPluginFeatures/DataFetcher.cs:71-87 | Flattening is a concatenation: the points of a + b are a's points followed by b's. |
| DataFetcher.PointlessItemsSkipped | 2020_DirectManipulationPlugins.Examples/ComplexTransitionSectionPluginFeatures/DataFetcher.cs:73-86 | Object items, and 2-point or polygon items whose data is not a list, contribute no points. |
| DataFetcher.SingleItem | 2020_DirectManipulationPlugins.Examples/ComplexTransitionSectionPluginFeatures/DataFetcher.cs:75-85 | A 1-point item gives its point; 2-point and polygon items give their lists. |
| DataFetcher.PolygonInputPoints | 2020_DirectManipulationPlugins.Examples/ComplexTransitionSectionPluginFeatures/DataFetcher.cs:83-84 | An input of one polygon flattens to the polygon's points. |
| DataFetcher.SectionLength | 2020_DirectManipulationPlugins.Examples/ComplexTransitionSectionPluginFeatures/DataFetcher.cs:97-106 | The length is dist(p0, p1) when there are at least two points (later points are ignored), and 1000 otherwise. |
| DataFetcher.SectionCoordsys | 2020_DirectManipulationPlugins.Examples/ComplexTransitionSectionPluginFeatures/DataFetcher.cs:113-122 | With at least two points, the frame is the base frame built at p0 with normal p1 − p0; with fewer, the default frame. It is None exactly when reading the input throws. |
| DataFetcher.SectionFrameAcrossPicks | 2020_DirectManipulationPlugins.Examples/ComplexTransitionSectionPluginFeatures/DataFetcher.cs:113-122 | With two distinct first points, the frame sits at p0, its axes are unit vectors perpendicular to p1 − p0 and to each other, and axis X × axis Y points from p0 towards p1. |
| DataFetcher.Fetch | 2020_DirectManipulationPlugins.Examples/ComplexTransitionSectionPluginFeatures/DataFetcher.cs:22-122 | A component's section data combines the three attributes with the length and frame from its input. |
| DataFetcher.CommittedSectionReadsBack | 2020_DirectManipulationPlugins.Examples/ComplexTransitionSectionPluginFeatures/DataFetcher.cs:97-122 | For a committed two-point polygon, the length is dist(p0, p1) and the frame is the base frame at p0 with normal p1 − p0. |
| RectangleContext.GetRectangle | 2024_DirectManipulationPlugins.Examples/ComplexTransitionSectionPluginFeatures/ManipulationContexts/RectangleManipulationContext.cs:306-317 | The rectangle's line segments, in order. Reading the component must succeed. |
| RectangleContext.SidesAtHalfDimensions | 2024_DirectManipulationPlugins.Examples/ComplexTransitionSectionPluginFeatures/ManipulationContexts/RectangleManipulationContext.cs:306-317 | For positive dimensions there are four sides. The right side passes at width/2 from the centroid and the top side at height/2. |
| RectangleContext.SidesOfData | 2024_DirectManipulationPlugins.Examples/ComplexTransitionSectionPluginFeatures/ManipulationContexts/RectangleManipulationContext.cs:306-317 | The first two handle lines are the right and top sides of the placed rectangle. |
| RectangleContext.SidesOfWellShaped | 2024_DirectManipulationPlugins.Examples/ComplexTransitionSectionPluginFeatures/ManipulationContexts/RectangleManipulationContext.cs:316 | Side j is rectangle curve 2j. It ends where the arc after it begins, and that arc ends where side j+1 (mod 4) begins. |
| RectangleContext.CreateHandles | 2024_DirectManipulationPlugins.Examples/ComplexTransitionSectionPluginFeatures/ManipulationContexts/RectangleManipulationContext.cs:84-93 | There are four handles, in the order right, top, left and bottom. The constructor throws when the rectangle has fewer than four sides. |
| RectangleContext.ZeroWidthHasNoHandles | 2024_DirectManipulationPlugins.Examples/ComplexTransitionSectionPluginFeatures/ManipulationContexts/RectangleManipulationContext.cs:84-93 | With a stored width of zero (and a height that is not negative), the constructor finds no rectangle and throws. |
| RectangleContext.UpdateContext | 2024_DirectManipulationPlugins.Examples/ComplexTransitionSectionPluginFeatures/ManipulationContexts/RectangleManipulationContext.cs:57-68 | The component is selected, then the handles are reset to the component's current sides. |
| RectangleContext.PlaceAtDistance | 2024_DirectManipulationPlugins.Examples/ComplexTransitionSectionPluginFeatures/ManipulationContexts/RectangleManipulationContext.cs:290-299 | The placed segment is parallel to the original and has the same length: both ends move by one vector. |
| RectangleContext.PlacedAtDistance | 2024_DirectManipulationPlugins.Examples/ComplexTransitionSectionPluginFeatures/ManipulationContexts/RectangleManipulationContext.cs:290-299 | The new perpendicular offset is the desired distance times the unit of the old offset, so the line passes at abs(distance). A line through the reference point stays where it is. |
| RectangleContext.MovePair | 2024_DirectManipulationPlugins.Examples/ComplexTransitionSectionPluginFeatures/ManipulationContexts/RectangleManipulationContext.cs:206-231 | A width drag moves only the left and right handles; a height drag moves only the top and bottom. |
| RectangleContext.DragOngoing | 2024_DirectManipulationPlugins.Examples/ComplexTransitionSectionPluginFeatures/ManipulationContexts/RectangleManipulationContext.cs:194-235 | A sender that is not a line handle does nothing. Otherwise both handles of the dragged axis go to the sender's distance from the centroid, the graphics are cleared first. |
| RectangleContext.DragOngoingRedraws | 2024_DirectManipulationPlugins.Examples/ComplexTransitionSectionPluginFeatures/ManipulationContexts/RectangleManipulationContext.cs:206-235 | For a line sender with a readable centroid, after the clear the rectangle is redrawn with the dragged pair at twice the sender's distance and the other pair at its stored size. The handler completes exactly when that rectangle can be built, and the drawn curves are the only other effects. |
| RectangleContext.DrawRectangle | 2024_DirectManipulationPlugins.Examples/ComplexTransitionSectionPluginFeatures/ManipulationContexts/RectangleManipulationContext.cs:261-281 | The preview draws at most one item per curve of the section built with the given width and height. |
| RectangleContext.DragEnded | 2024_DirectManipulationPlugins.Examples/ComplexTransitionSectionPluginFeatures/ManipulationContexts/RectangleManipulationContext.cs:242-254 | It writes width = 2·dist(centroid, right line) and height = 2·dist(centroid, top line), then Modify, then CommitChanges. There is no epsilon guard. |
| RectangleContext.WidthDragThenEnd | 2024_DirectManipulationPlugins.Examples/ComplexTransitionSectionPluginFeatures/ManipulationContexts/RectangleManipulationContext.cs:194-254 | After a width drag, the drag end stores twice the sender's distance as the width and keeps the top handle's height. |
| RectangleContext.HeightDragThenEnd | 2024_DirectManipulationPlugins.Examples/ComplexTransitionSectionPluginFeatures/ManipulationContexts/RectangleManipulationContext.cs:218-254 | After a height drag, the drag end stores twice the sender's distance as the height and keeps the right handle's width. |
| RectangleContext.HandlesAtHalfDimensions | 2024_DirectManipulationPlugins.Examples/ComplexTransitionSectionPluginFeatures/ManipulationContexts/RectangleManipulationContext.cs:84-93 | For positive stored dimensions in a readable frame, the handles exist. The right handle stands half the stored width from the centroid, and the top handle half the stored height. |
| RectangleContext.UnmovedHandlesWriteBack | 2024_DirectManipulationPlugins.Examples/ComplexTransitionSectionPluginFeatures/ManipulationContexts/RectangleManipulationContext.cs:84-254 | Ending a drag on freshly created handles writes back the stored width and height. |
| RectangleContext.SideRegistrations | 2024_DirectManipulationPlugins.Examples/ComplexTransitionSectionPluginFeatures/ManipulationContexts/RectangleManipulationContext.cs:105-134 | Each handle gets start, ongoing and end handlers. Left and right drive the width; top and bottom drive the height. |
| RectangleContext.RegistrationCount | 2024_DirectManipulationPlugins.Examples/ComplexTransitionSectionPluginFeatures/ManipulationContexts/RectangleManipulationContext.cs:98-135 | Attach stops at the first missing handle. The registrations are every expected handler, once, on exactly the handles reached: a prefix of right, top, left, bottom. |
| RectangleContext.AttachThenDetach | 2024_DirectManipulationPlugins.Examples/ComplexTransitionSectionPluginFeatures/ManipulationContexts/RectangleManipulationContext.cs:71-177 | Attaching adds exactly the reached handles' registrations. Detaching with the same handles present removes exactly those. |
| CircleContext.GetCircle | 2020_DirectManipulationPlugins.Examples/ComplexTransitionSectionPluginFeatures/ManipulationContexts/CircleManipulationContext.cs:185-195 | The circle has the stored radius. It fails exactly when reading the input fails. |
| CircleContext.CommittedCircleCentre | 2020_DirectManipulationPlugins.Examples/ComplexTransitionSectionPluginFeatures/ManipulationContexts/CircleManipulationContext.cs:185-195 | For a section committed from two distinct points, the circle is centred on the second point and has the stored radius: the section length along the frame's unit normal leads from the first point to the second. |
| CircleContext.Create | 2020_DirectManipulationPlugins.Examples/ComplexTransitionSectionPluginFeatures/ManipulationContexts/CircleManipulationContext.cs:37-70 | The handle starts at the circle's start point and is not marked invalid. |
| CircleContext.UpdateContext | 2020_DirectManipulationPlugins.Examples/ComplexTransitionSectionPluginFeatures/ManipulationContexts/CircleManipulationContext.cs:46-53 | It selects the component, re-reads the circle, moves the handle to the start point, and draws the radial line there. |
| CircleContext.RadialLine | 2020_DirectManipulationPlugins.Examples/ComplexTransitionSectionPluginFeatures/ManipulationContexts/CircleManipulationContext.cs:175-179 | It draws a line from the centre to the end point, and a radius label at the midpoint. |
| CircleContext.DragOngoing | 2020_DirectManipulationPlugins.Examples/ComplexTransitionSectionPluginFeatures/ManipulationContexts/CircleManipulationContext.cs:118-145 | It always clears first. Below epsilon, the handle is marked invalid and its point is left alone. Otherwise the handle moves to the rounded point, and the full circle and radial line are drawn at the rounded radius. |
| CircleContext.SnappedHandle | 2020_DirectManipulationPlugins.Examples/ComplexTransitionSectionPluginFeatures/ManipulationContexts/CircleManipulationContext.cs:126-139 | The rounded radius is non-negative and within 1/2 of the raw one. The moved handle lies in the circle's plane, at exactly the rounded radius from the centre. |
| CircleContext.DragEnded | 2020_DirectManipulationPlugins.Examples/ComplexTransitionSectionPluginFeatures/ManipulationContexts/CircleManipulationContext.cs:152-168 | The radius is the handle-to-centre distance. Below epsilon, or when the sender is not a point handle, nothing is written. Otherwise CircleRadius is set, then Modify, then CommitChanges; the other attributes and the input are kept. |
| CircleContext.DragThenEndStoresRounded | 2020_DirectManipulationPlugins.Examples/ComplexTransitionSectionPluginFeatures/ManipulationContexts/CircleManipulationContext.cs:118-168 | A drag followed by its end stores the rounded radius, or nothing when that radius is below epsilon. |
| CircleContext.UnmovedHandleWritesBack | 2020_DirectManipulationPlugins.Examples/ComplexTransitionSectionPluginFeatures/ManipulationContexts/CircleManipulationContext.cs:37-168 | Ending a drag of an untouched handle writes back the stored radius. |
| CircleContext.StartPointDistance | 2020_DirectManipulationPlugins.Examples/ComplexTransitionSectionPluginFeatures/ManipulationContexts/CircleManipulationContext.cs:194 | The circle's start point lies at abs(radius) from the centre. |
| CircleContext.HandlerRegistrations | 2020_DirectManipulationPlugins.Examples/ComplexTransitionSectionPluginFeatures/ManipulationContexts/CircleManipulationContext.cs:75-85 | With a handle, three handlers are registered, the ongoing one in the middle. Without one, none are. |
| CircleContext.DisposeDetachesAttached | 2020_DirectManipulationPlugins.Examples/ComplexTransitionSectionPluginFeatures/ManipulationContexts/CircleManipulationContext.cs:56-100 | Dispose removes exactly what construction attached. |
| TransitionSectionManipulation.BoxKey | 2021_DirectManipulationPlugins.Examples/ComplexTransitionSectionPluginFeatures/TransitionSectionManipulationFeature.cs:63-91 | The radius box writes CircleRadius, the width box RectangleWidth, and the height box RectangleHeight. |
| TransitionSectionManipulation.CurrentValue | 2021_DirectManipulationPlugins.Examples/ComplexTransitionSectionPluginFeatures/TransitionSectionManipulationFeature.cs:113-126 | A value falls back to its default unless both Select and GetAttribute succeed. |
| TransitionSectionManipulation.CurrentValues | 2021_DirectManipulationPlugins.Examples/ComplexTransitionSectionPluginFeatures/TransitionSectionManipulationFeature.cs:111-131 | Height, width and radius fall back to 6000, 3000 and 1000 independently. The boxes show exactly the fetched values. |
| TransitionSectionManipulation.Refresh | 2021_DirectManipulationPlugins.Examples/ComplexTransitionSectionPluginFeatures/TransitionSectionManipulationFeature.cs:95-98 | The first selected component's values are shown. With no components, `First` throws. |
| TransitionSectionManipulation.BoxValue | 2021_DirectManipulationPlugins.Examples/ComplexTransitionSectionPluginFeatures/TransitionSectionManipulationFeature.cs:67 | A box hands over its value. 0.0 stands in only when the box reference itself is null (`box?.Value ?? 0.0`); a box's value is a plain number and is never absent. |
| TransitionSectionManipulation.ModifyComponent | 2021_DirectManipulationPlugins.Examples/ComplexTransitionSectionPluginFeatures/TransitionSectionManipulationFeature.cs:137-147 | A null, unsaved or unselectable component is left alone. Otherwise only the given key is set, then Modify, then CommitChanges; the other attributes are kept. |
| TransitionSectionManipulation.WritesPerModifiable | 2021_DirectManipulationPlugins.Examples/ComplexTransitionSectionPluginFeatures/TransitionSectionManipulationFeature.cs:65-68 | Writing to the selection costs three effects per component that passes the guard, and none for any other. |
| TransitionSectionManipulation.BoxChanged | 2021_DirectManipulationPlugins.Examples/ComplexTransitionSectionPluginFeatures/TransitionSectionManipulationFeature.cs:63-91 | Each box writes its own key and value to every selected component, in order. Components that fail the guard are unchanged. |
| TransitionSectionManipulation.WrittenValueShows | 2021_DirectManipulationPlugins.Examples/ComplexTransitionSectionPluginFeatures/TransitionSectionManipulationFeature.cs:111-147 | After a box writes a value, reading the component back shows that value in that box. The other boxes are unchanged. |
| TransitionSectionManipulation.Contexts | 2021_DirectManipulationPlugins.Examples/ComplexTransitionSectionPluginFeatures/TransitionSectionManipulationFeature.cs:101-105 | The rectangle context comes first, then the circle context. A constructor that throws ends the iteration: without a rectangle there is no context at all, and without a circle only the rectangle context is attached. The iteration completes exactly when both are built. |
| TransitionSectionManipulation.CircleOnlyAfterRectangle | 2021_DirectManipulationPlugins.Examples/ComplexTransitionSectionPluginFeatures/TransitionSectionManipulationFeature.cs:101-105 | A circle context appears only in second place, after a rectangle context, and only when both constructors succeed. |
| TransitionSectionManipulation.ZeroWidthGetsNoContext | 2021_DirectManipulationPlugins.Examples/ComplexTransitionSectionPluginFeatures/TransitionSectionManipulationFeature.cs:101-105 | A component with a stored width of zero gets no context at all, even when its input reads and its circle could be built. |
| TransitionSectionManipulation.BuildableGetsBothContexts | 2021_DirectManipulationPlugins.Examples/ComplexTransitionSectionPluginFeatures/TransitionSectionManipulationFeature.cs:101-105 | A component with positive dimensions and a readable frame gets exactly the two contexts, with their handles, and the iteration completes. |
| Picking.Pick | DirectManipulationPlugins.Examples_2020/ComplexTransitionSectionPluginFeatures/TransitionSectionCreationFeature.cs:169-177 | A valid pick appends its hit point; an invalid one changes nothing. The beam and custom part features pick the same way. |
| Picking.Undo | DirectManipulationPlugins.Examples_2020/ComplexTransitionSectionPluginFeatures/TransitionSectionCreationFeature.cs:214-220 | Undo removes the last point when there is one and does nothing on an empty list. The beam feature guards the same way. |
| Picking.PickThenUndo | DirectManipulationPlugins.Examples_2020/ComplexTransitionSectionPluginFeatures/TransitionSectionCreationFeature.cs:169-220 | A valid pick followed by undo restores the list. |
| Picking.Validate | DirectManipulationPlugins.Examples_2020/ComplexTransitionSectionPluginFeatures/TransitionSectionCreationFeature.cs:184-190 | ContinueSession is set true when count < max(Minimum, 2), and is never set false. |
| Picking.AtMostTwoContinuesUntilTwo | 2022_DirectManipulationPlugins.Examples/BasicPluginFeatures/BeamPluginCreationFeature.cs:46-164 | With the range AtMost(2), the session continues exactly until two points are picked. |
| Picking.PicksAppendValidHits | 2022_DirectManipulationPlugins.Examples/BasicPluginFeatures/BeamPluginCreationFeature.cs:137-145 | A run of picks appends the valid hits, in order. |
| Picking.RefreshForgets | 2022_DirectManipulationPlugins.Examples/BasicPluginFeatures/BeamPluginCreationFeature.cs:62-65 | After a refresh, the list depends only on what happens after it. |
| Picking.LengthFactor | 2022_DirectManipulationPlugins.Examples/BasicPluginFeatures/BeamPluginCreationFeature.cs:113-123 | The factor is 2.0 without a LengthFactor attribute. With one, it is the parsed number, or 0.0 when the text does not parse. |
| Picking.ProfileName | 2022_DirectManipulationPlugins.Examples/BasicPluginFeatures/BeamPluginCreationFeature.cs:112-118 | A set Profile attribute's text is used; without one, the default profile. |
| Picking.ProfilePreview | 2022_DirectManipulationPlugins.Examples/BasicPluginFeatures/BeamPluginCreationFeature.cs:108-130 | It always clears first. With a picked point it draws one profile from the last point to last + factor·(hit − last). |
| Picking.PreviewAroundCursor | 2022_DirectManipulationPlugins.Examples/BasicPluginFeatures/BeamPluginCreationFeature.cs:123-128 | With the default factor the cursor is the midpoint of the previewed beam; with factor 1 the beam ends at the cursor. |
| TransitionSectionCreation.Preview | DirectManipulationPlugins.Examples_2020/ComplexTransitionSectionPluginFeatures/TransitionSectionCreationFeature.cs:135-162 | It always clears. It draws nothing with no picked point, or when a dimension or the section length is below epsilon. A drawing uses the last pick and the hit. |
| TransitionSectionCreation.PreviewOfMeasurable | DirectManipulationPlugins.Examples_2020/ComplexTransitionSectionPluginFeatures/TransitionSectionCreationFeature.cs:143-161 | With measurable values, the preview is the well-shaped section with centroid at the last pick, length dist(hit, centroid) and normal hit − centroid. |
| TransitionSectionCreation.DrawnWellShaped | DirectManipulationPlugins.Examples_2020/ComplexTransitionSectionPluginFeatures/TransitionSectionCreationFeature.cs:226-240 | A well-shaped section draws 8 + 4 curves, then two cone lines per corner, from arc starts and ends to the circle's. |
| TransitionSectionCreation.ConeLines | DirectManipulationPlugins.Examples_2020/ComplexTransitionSectionPluginFeatures/TransitionSectionCreationFeature.cs:231-239 | Two lines per zipped pair, from start to start and end to end, up to the first null top. |
| TransitionSectionCreation.DrawSection | DirectManipulationPlugins.Examples_2020/ComplexTransitionSectionPluginFeatures/TransitionSectionCreationFeature.cs:226-240 | Drawing completes exactly when every zipped top is an arc. |
| TransitionSectionCreation.PreviewMatchesRun | DirectManipulationPlugins.Examples_2020/ComplexTransitionSectionPluginFeatures/TransitionSectionCreationFeature.cs:143-161 | The previewed section is the one the plugin's Run builds and inserts from the committed points and the box values. |
| TransitionSectionCreation.SessionEnd | DirectManipulationPlugins.Examples_2020/ComplexTransitionSectionPluginFeatures/TransitionSectionCreationFeature.cs:197-207 | It writes width, height and radius from the boxes, then commits one polygon of all picked points in pick order. |
| TransitionSectionCreation.SessionEndReadsBack | DirectManipulationPlugins.Examples_2020/ComplexTransitionSectionPluginFeatures/TransitionSectionCreationFeature.cs:197-207 | The committed component reads back the box values and the picked points. |
| TransitionSectionCreation.AttachHandlers | DirectManipulationPlugins.Examples_2020/ComplexTransitionSectionPluginFeatures/TransitionSectionCreationFeature.cs:99-111 | Attach registers five handlers, one per event. PickSessionInterrupted is not handled. |
| TransitionSectionCreation.DetachHandlersAsWritten | DirectManipulationPlugins.Examples_2020/ComplexTransitionSectionPluginFeatures/TransitionSectionCreationFeature.cs:116-128 | Detach as written; see Findings. |
| TransitionSectionCreation.AttachThenDetachAsWritten | DirectManipulationPlugins.Examples_2020/ComplexTransitionSectionPluginFeatures/TransitionSectionCreationFeature.cs:106-127 | After attach and then detach as written, PickSessionEnded has two more subscriptions and everything else is restored. |
| TransitionSectionCreation.DetachHandlers | DirectManipulationPlugins.Examples_2020/ComplexTransitionSectionPluginFeatures/TransitionSectionCreationFeature.cs:116-128 | The corrected detach only ever removes registrations. |
| TransitionSectionCreation.AttachThenDetach | DirectManipulationPlugins.Examples_2020/ComplexTransitionSectionPluginFeatures/TransitionSectionCreationFeature.cs:99-128 | With the corrected detach, detaching undoes attaching exactly. |
| BeamCreation.Preview | 2022_DirectManipulationPlugins.Examples/BasicPluginFeatures/BeamPluginCreationFeature.cs:108-130 | It always clears. With a picked point and no Profile attribute, it draws the default HEA300 profile. |
| BeamCreation.SessionEnd | 2022_DirectManipulationPlugins.Examples/BasicPluginFeatures/BeamPluginCreationFeature.cs:172-177 | The session end commits one input. |
| BeamCreation.PolygonDefinition | 2022_DirectManipulationPlugins.Examples/BasicPluginFeatures/BeamPluginCreationFeature.cs:172-177 | The committed polygon reaches the plugin as a list of its points, in order. |
| BeamCreation.PreviewShowsCommittedBeam | 2022_DirectManipulationPlugins.Examples/BasicPluginFeatures/BeamPluginCreationFeature.cs:108-177 | Picking two points and ending the session commits them. With the plugin's factor and profile, Run then inserts exactly the beam the preview showed. |
| BeamCreation.PreviewMissesBeamAtZeroFactor | 2022_DirectManipulationPlugins.Examples/BasicPluginFeatures/BeamPluginCreationFeature.cs:113-128 | As written, with factor 0 in both places and two distinct points, the preview's profile ends at the first point while Run's beam ends at the second. |
| BeamCreation.PreviewLikeRun | 2022_DirectManipulationPlugins.Examples/BasicPluginFeatures/BeamPluginCreationFeature.cs:108-130 | Corrected preview: it draws to BeamPlugin's end point. It equals the preview as written for a positive factor, and ends at the cursor otherwise. |
| BeamCreation.PreviewLikeRunShowsCommittedBeam | 2022_DirectManipulationPlugins.Examples/BasicPluginFeatures/BeamPluginCreationFeature.cs:108-177 | With the corrected preview and the plugin's factor and profile, the preview shows exactly the inserted beam for every factor. |
| BeamCreation.AttachHandlers | 2022_DirectManipulationPlugins.Examples/BasicPluginFeatures/BeamPluginCreationFeature.cs:70-83 | Attach adds one registration on each of the six events. |
| BeamCreation.DetachHandlers | 2022_DirectManipulationPlugins.Examples/BasicPluginFeatures/BeamPluginCreationFeature.cs:88-101 | Detach removes one registration from each of the six events. |
| BeamCreation.AttachDetachInverse | 2022_DirectManipulationPlugins.Examples/BasicPluginFeatures/BeamPluginCreationFeature.cs:70-101 | Detach undoes attach. Attach undoes detach on a tool with every event handled. |
| BeamPlugin.ValuesFromDialog | DirectManipulationPlugins.Examples_2020/BasicPlugin/BeamPlugin.cs:122-135 | The factor defaults to 2.0 and the profile to HEA300 when they hold the default marker. Otherwise the stored values are kept. |
| BeamPlugin.EndPoint | DirectManipulationPlugins.Examples_2020/BasicPlugin/BeamPlugin.cs:84-89 | With factor > 0 the end is p1 + factor·(p2 − p1); otherwise p2 is used as is. |
| BeamPlugin.EndPointAlongPicks | DirectManipulationPlugins.Examples_2020/BasicPlugin/BeamPlugin.cs:84-89 | The beam keeps the direction from p1 to p2. Factor 1, or any non-positive factor, leaves p2 unchanged. |
| BeamPlugin.CreateBeam | DirectManipulationPlugins.Examples_2020/BasicPlugin/BeamPlugin.cs:142-151 | A beam from p1 to p2 with the current profile and finish PAINT. |
| BeamPlugin.ListedPoints | DirectManipulationPlugins.Examples_2020/BasicPlugin/BeamPlugin.cs:81-84 | Run reads two points only from a first definition that is a list whose first two entries are points. |
| BeamPlugin.RunAsWritten | DirectManipulationPlugins.Examples_2020/BasicPlugin/BeamPlugin.cs:75-99 | As written: Run returns true even when it throws, and inserts one beam exactly when it can read the listed points. |
| BeamPlugin.DefineInput | DirectManipulationPlugins.Examples_2020/BasicPlugin/BeamPlugin.cs:102-117 | DefineInput gives two single-point definitions. |
| BeamPlugin.DefinedInputInsertsNothing | DirectManipulationPlugins.Examples_2020/BasicPlugin/BeamPlugin.cs:81-117 | Run as written inserts nothing for the input DefineInput produces. |
| BeamPlugin.InputPoints | DirectManipulationPlugins.Examples_2020/BasicPlugin/BeamPlugin.cs:81-114 | The corrected reading accepts the list shape as before, and also the two single-point definitions. |
| BeamPlugin.Run | DirectManipulationPlugins.Examples_2020/BasicPlugin/BeamPlugin.cs:75-99 | Corrected Run: it always returns true, and inserts one beam from p1 to EndPoint(p1, p2, factor) exactly when the points can be read. |
| BeamPlugin.RunExtendsRunAsWritten | DirectManipulationPlugins.Examples_2020/BasicPlugin/BeamPlugin.cs:75-117 | The corrected Run inserts the beam for the picker's input, and agrees with Run as written wherever that can read its points. |
| BeamContext.CurrentInput | 2020_DirectManipulationPlugins.Examples/BasicPluginFeatures/BeamPluginManipulationContext.cs:96-134 | Null input gives no points. |
| BeamContext.CollectAgreesWithFetcher | 2020_DirectManipulationPlugins.Examples/BasicPluginFeatures/BeamPluginManipulationContext.cs:106-131 | On inputs of items only, the context flattens exactly as DataFetcher does. |
| BeamContext.CollectAppend | 2020_DirectManipulationPlugins.Examples/BasicPluginFeatures/BeamPluginManipulationContext.cs:106-131 | Flattening is a concatenation over the entries. |
| BeamContext.NonItemSkipped | 2020_DirectManipulationPlugins.Examples/BasicPluginFeatures/BeamPluginManipulationContext.cs:108-112 | An entry that is not an InputItem is skipped. |
| BeamContext.CreatePointHandles | 2020_DirectManipulationPlugins.Examples/BasicPluginFeatures/BeamPluginManipulationContext.cs:60-72 | One handle per flattened input point, in order. |
| BeamContext.UpdatePointHandles | 2020_DirectManipulationPlugins.Examples/BasicPluginFeatures/BeamPluginManipulationContext.cs:79-89 | Handle i is set to input point i. Indexing past the handles throws, after the earlier handles have been set. |
| BeamContext.RebuildDefinedIff | 2020_DirectManipulationPlugins.Examples/BasicPluginFeatures/BeamPluginManipulationContext.cs:168-176 | The rebuild throws exactly when the 1-point and 2-point items ask for more points than there are. |
| BeamContext.RebuildKeepsItems | 2020_DirectManipulationPlugins.Examples/BasicPluginFeatures/BeamPluginManipulationContext.cs:149-191 | The rebuild keeps the items in place and keeps their kinds. Object items are copied through; a polygon receives the whole point list. |
| BeamContext.ModifyInput | 2020_DirectManipulationPlugins.Examples/BasicPluginFeatures/BeamPluginManipulationContext.cs:140-194 | It always clears first and submits nothing for null input. Otherwise it submits the rebuilt input, unless the rebuild throws. |
| BeamContext.RebuildPointItems | 2020_DirectManipulationPlugins.Examples/BasicPluginFeatures/BeamPluginManipulationContext.cs:168-176 | For 1-point items and 2-point items holding two points, rebuilding from the flattened points reproduces the items. |
| BeamContext.UnmovedPointItemsRoundTrip | 2020_DirectManipulationPlugins.Examples/BasicPluginFeatures/BeamPluginManipulationContext.cs:96-213 | Ending a drag on untouched handles submits the input it started from. |
| BeamContext.RebuildPolygonItems | 2020_DirectManipulationPlugins.Examples/BasicPluginFeatures/BeamPluginManipulationContext.cs:178-186 | A polygon item holding exactly the points, among object items, is rebuilt unchanged. |
| BeamContext.UnmovedPolygonRoundTrip | 2020_DirectManipulationPlugins.Examples/BasicPluginFeatures/BeamPluginManipulationContext.cs:96-213 | A single polygon among object items round-trips through the handles unchanged. |
| BeamContext.HandleRegistrations | 2020_DirectManipulationPlugins.Examples/BasicPluginFeatures/BeamPluginManipulationContext.cs:218-225 | Each handle gets a drag-ongoing and a drag-ended handler, in handle order. |
| BeamContext.DisposeDetachesAttached | 2020_DirectManipulationPlugins.Examples/BasicPluginFeatures/BeamPluginManipulationContext.cs:48-237 | Dispose removes exactly what construction attached. |
| CustomPartContext.LineHandles | 2024_DirectManipulationPlugins.Examples/CustomPartPluginFeatures/CustomPartPluginManipulationContext.cs:299-312 | N points give N − 1 line handles, handle i spanning points[i] to points[i+1]. |
| CustomPartContext.LinesChainPoints | 2024_DirectManipulationPlugins.Examples/CustomPartPluginFeatures/CustomPartPluginManipulationContext.cs:299-312 | The line handles' starts plus the last end give back the points. |
| CustomPartContext.Create | 2024_DirectManipulationPlugins.Examples/CustomPartPluginFeatures/CustomPartPluginManipulationContext.cs:46-264 | One point handle per input point, and one line handle per consecutive pair. There is one manipulator per line handle, on the same segment. |
| CustomPartContext.UpdateContext | 2024_DirectManipulationPlugins.Examples/CustomPartPluginFeatures/CustomPartPluginManipulationContext.cs:75-330 | Point handles and line handles are overwritten by index, then manipulator i takes line i. It throws where there are fewer handles than inputs. |
| CustomPartContext.UpdateAfterCreate | 2024_DirectManipulationPlugins.Examples/CustomPartPluginFeatures/CustomPartPluginManipulationContext.cs:75-80 | Updating a context to input of the same size gives the context that input would create. |
| CustomPartContext.ChainPoints | 2024_DirectManipulationPlugins.Examples/CustomPartPluginFeatures/CustomPartPluginManipulationContext.cs:346-357 | There are #manipulators + 1 points: manipulator k's start, with position i+1 replaced by the moved end when i is not last, and the given last end. |
| CustomPartContext.LineHandlePoints | 2024_DirectManipulationPlugins.Examples/CustomPartPluginFeatures/CustomPartPluginManipulationContext.cs:346-357 | For line handle i: the manipulators' starts, with point i+1 taken from the handle's current end when i is not the last manipulator, closed by the last line handle's end. There are #manipulators + 1 points, and none when i has no manipulator. |
| CustomPartContext.LineDragMovesEnd | 2024_DirectManipulationPlugins.Examples/CustomPartPluginFeatures/CustomPartPluginManipulationContext.cs:143-357 | Dragging line handle i moves exactly point i+1 to the dragged end. |
| CustomPartContext.LineDragLeavesStartBehind | 2024_DirectManipulationPlugins.Examples/CustomPartPluginFeatures/CustomPartPluginManipulationContext.cs:346-357 | As written, after a line handle is dragged to a new start, the submitted chain keeps the old point i. |
| CustomPartContext.LineHandlePointsMovingBothEnds | 2024_DirectManipulationPlugins.Examples/CustomPartPluginFeatures/CustomPartPluginManipulationContext.cs:346-357 | Corrected: as LineHandlePoints, but point i is also taken over, from the dragged line's start. Every other point is the manipulator's start. |
| CustomPartContext.LineDragMovesSegment | 2024_DirectManipulationPlugins.Examples/CustomPartPluginFeatures/CustomPartPluginManipulationContext.cs:143-156 | Corrected: taking over both ends, a line drag moves exactly points i and i+1 to the dragged line's ends, as a measure change does. |
| CustomPartContext.MeasureMovesSegment | 2024_DirectManipulationPlugins.Examples/CustomPartPluginFeatures/CustomPartPluginManipulationContext.cs:173-190 | A measure change of manipulator i moves points i and i+1 to its segment's ends. |
| CustomPartContext.MeasuredPoints | 2024_DirectManipulationPlugins.Examples/CustomPartPluginFeatures/CustomPartPluginManipulationContext.cs:173-190 | A sender that is not a distance manipulator gives nothing. Otherwise: the manipulators' starts, with point i+1 taken from manipulator i's end when i is not last, closed by the last manipulator's end. |
| CustomPartContext.PreviewProfile | 2024_DirectManipulationPlugins.Examples/CustomPartPluginFeatures/CustomPartPluginManipulationContext.cs:199-205 | The profile is HEA200 unless the Profile attribute is non-empty. |
| CustomPartContext.DrawGraphics | 2024_DirectManipulationPlugins.Examples/CustomPartPluginFeatures/CustomPartPluginManipulationContext.cs:196-212 | It clears, then draws count − 1 profiles between consecutive points. |
| CustomPartContext.PreviewAlongLineHandles | 2024_DirectManipulationPlugins.Examples/CustomPartPluginFeatures/CustomPartPluginManipulationContext.cs:196-312 | The preview draws one profile along each line handle. |
| CustomPartContext.ModifyInput | 2024_DirectManipulationPlugins.Examples/CustomPartPluginFeatures/CustomPartPluginManipulationContext.cs:363-379 | It only clears for null input. Otherwise it submits a polygon of the given points in order. |
| CustomPartContext.Handle | 2024_DirectManipulationPlugins.Examples/CustomPartPluginFeatures/CustomPartPluginManipulationContext.cs:123-190 | A point drag end submits the point handles. Ongoing drags and measure changes redraw. A measure change from a sender that is not a manipulator does nothing. |
| CustomPartContext.LineDragEndedSubmits | 2024_DirectManipulationPlugins.Examples/CustomPartPluginFeatures/CustomPartPluginManipulationContext.cs:153-156 | Ending a drag of line handle i submits the points with point i+1 moved. |
| CustomPartContext.Registrations | 2024_DirectManipulationPlugins.Examples/CustomPartPluginFeatures/CustomPartPluginManipulationContext.cs:52-69 | Two registrations per point handle, line handle and manipulator. |
| CustomPartContext.Dispose | 2024_DirectManipulationPlugins.Examples/CustomPartPluginFeatures/CustomPartPluginManipulationContext.cs:83-116 | Dispose without `disposing` detaches nothing; otherwise it only ever detaches. |
| CustomPartContext.DisposeDetachesAttached | 2024_DirectManipulationPlugins.Examples/CustomPartPluginFeatures/CustomPartPluginManipulationContext.cs:46-116 | Dispose removes exactly what construction attached. |
| CustomPartCreation.PickAsWritten | 2022_DirectManipulationPlugins.Examples/CustomPartPluginFeatures/CustomPartPluginCreationFeature.cs:128-136 | A valid pick goes to pickedPoints only. |
| CustomPartCreation.RefreshAsWritten | 2022_DirectManipulationPlugins.Examples/CustomPartPluginFeatures/CustomPartPluginCreationFeature.cs:74-77 | Refresh clears pickedObjects and keeps pickedPoints. |
| CustomPartCreation.UndoAsWritten | 2022_DirectManipulationPlugins.Examples/CustomPartPluginFeatures/CustomPartPluginCreationFeature.cs:217-220 | Undo has no guard and throws exactly when pickedObjects is empty. |
| CustomPartCreation.PickedObjectsNeverGrow | 2022_DirectManipulationPlugins.Examples/CustomPartPluginFeatures/CustomPartPluginCreationFeature.cs:76-219 | Whatever happens, pickedObjects stays a prefix of what it was. |
| CustomPartCreation.SessionEndAsWritten | 2022_DirectManipulationPlugins.Examples/CustomPartPluginFeatures/CustomPartPluginCreationFeature.cs:192-200 | It clears the graphics, and commits only when pickedObjects holds exactly two entries. |
| CustomPartCreation.NeverCommits | 2022_DirectManipulationPlugins.Examples/CustomPartPluginFeatures/CustomPartPluginCreationFeature.cs:51-220 | From the initial state, no run of session events ends in a commit. |
| CustomPartCreation.TwoPicksCommitNothing | 2022_DirectManipulationPlugins.Examples/CustomPartPluginFeatures/CustomPartPluginCreationFeature.cs:128-200 | Two valid picks leave both in pickedPoints and pickedObjects empty, so the session end only clears. |
| CustomPartCreation.SessionEnd | 2022_DirectManipulationPlugins.Examples/CustomPartPluginFeatures/CustomPartPluginCreationFeature.cs:192-200 | Corrected: it commits the picked list exactly when it holds two points. |
| CustomPartCreation.PicksThenSessionEndCommit | 2022_DirectManipulationPlugins.Examples/CustomPartPluginFeatures/CustomPartPluginCreationFeature.cs:128-200 | With one list, a session of valid picks commits exactly when two were picked, in pick order. |
| CustomPartCreation.ValidateInput | 2022_DirectManipulationPlugins.Examples/CustomPartPluginFeatures/CustomPartPluginCreationFeature.cs:143-156 | The input range is never assigned, so reading its minimum throws. With a range, the session continues while count < max(Minimum, 2). |
| CustomPartCreation.Preview | 2022_DirectManipulationPlugins.Examples/CustomPartPluginFeatures/CustomPartPluginCreationFeature.cs:163-185 | It always clears. With a picked point it draws one profile from the last point. |
| CustomPartCreation.AttachDetachInverse | 2022_DirectManipulationPlugins.Examples/CustomPartPluginFeatures/CustomPartPluginCreationFeature.cs:82-113 | Attach and detach cover the same six events, and detach undoes attach. |
| Host.ItemPoints | 2020_DirectManipulationPlugins.Examples/ComplexTransitionSectionPluginFeatures/DataFetcher.cs:75-85 | The points each item kind contributes: one, its list (none for null data), or none. |
| Host.GetAfterSet | 2020_DirectManipulationPlugins.Examples/ComplexTransitionSectionPluginFeatures/DataFetcher.cs:25 | An attribute read after a write gives the written value; other attributes are unaffected. |
| Host.Overwrite | 2024_DirectManipulationPlugins.Examples/CustomPartPluginFeatures/CustomPartPluginManipulationContext.cs:282-292 | Handle i takes value i. More values than handles throws, after the earlier handles are set. |
| Host.UnsubscribeAfterSubscribe | 2020_DirectManipulationPlugins.Examples/BasicPluginFeatures/BeamPluginManipulationContext.cs:218-237 | `-=` of the same handlers undoes `+=`. |

## Left out

- Graphics, selection, Modify, commits and inserts are not performed. They are recorded as
  `Effect`s in order.
- The host's geometry library is not computed:
  - square roots, normalisation, rounding and `DISTANCE_EPSILON` are the `Kernel` parameter,
    constrained only by `Lawful`;
  - `Math.Round`'s ties-to-even is not modelled, only "within one half";
  - doubles are `real`, so overflow and rounding error are not modelled.
- The polycurve builder's tangent arc is modelled concretely, for chains in planes parallel to
  local XY. The centre comes from the tangent condition, and a degenerate arc fails. Arcs are
  start, end and centre: the host's rebuild from start, end and middle point is taken to keep
  the arc.
- The default-value marker (`IsDefaultValue`) is `None`, so a stored value equal to the marker
  cannot be told apart.
- Windows Forms, toolbar labels, tooltips, the custom part toolbar demo and contextual toolbar
  buttons are left out, as are `Initialize`/`StartPickingSession`, `Console`/`Debug` logging and
  `PickSessionInterrupted`'s log line. None of them has logic.
- `DefineInput`'s pickers are left out. For the beam plugin only the shape of the definitions it
  returns is modelled.
- The drawn profiles' offset vectors and rotation, and the full-turn preview arc's start
  direction and tangent, are not modelled.
- In the custom part creation feature, `DefaultProfileName` and the input range are parameters.
- The host's conversion of a committed polygon into the `InputDefinition` that `Run` receives is
  taken to be a list of the polygon's points (`BeamCreation.PolygonDefinition`).
- The custom part context's manipulators are modelled as copies of their line handles' segments
  at creation.
- The rectangle's and the circle's drag-start handlers only select the component. They have
  no members of their own; the `Select` they log is not modelled.
- Input item data is assumed well typed: a 1-point item holds a point, and 2-point and polygon
  lists hold only points. The host's `as Point` would otherwise add a null point that throws
  later, and `Cast<Point>()` would throw at once; neither path is modelled.
- Senders are indices into the context's own handle lists.
- Handlers are not interleaved: the host calls them one at a time, and there is no concurrency.
- TransitionSectionManipulation.ModifyComponent: does not record the `Select` call in its guard
  as an effect; only the writes are logged.
- RectangleContext.DrawRectangle: states only that at most one item is drawn per curve of the
  section, not which graphics call each curve becomes.
- CircleContext.GetCircle: states the radius and when it fails. Its centre is stated only for a
  section committed from two points (CircleContext.CommittedCircleCentre).
- BeamContext.CurrentInput: states only the null-input case; the flattening is stated through
  BeamContext.CollectAgreesWithFetcher and the round-trip lemmas.
- BeamContext.DragEnded: has no contract of its own. It is BeamContext.ModifyInput applied to
  the handles, and it is stated through the round-trip lemmas. The drag-ongoing handler does
  nothing.
- BeamCreation.SessionEnd: states that one input is committed; its points are stated through
  BeamCreation.PreviewShowsCommittedBeam.

## Findings

| source | as written | input that shows it | evidently intended | confidence | as-written member | corrected member |
|---|---|---|---|---|---|---|
| DirectManipulationPlugins.Examples_2020/ComplexTransitionSectionPluginFeatures/TransitionSectionCreationFeature.cs:126 | `DetachHandlers` uses `+=` for PickSessionEnded, so detaching adds a subscription instead of removing one | attach followed by detach, from any subscriptions: PickSessionEnded is left with two more handlers | `-=`, as on the other four events | high; not executed | TransitionSectionCreation.DetachHandlersAsWritten, TransitionSectionCreation.AttachThenDetachAsWritten | TransitionSectionCreation.DetachHandlers, TransitionSectionCreation.AttachThenDetach |
| 2022_DirectManipulationPlugins.Examples/CustomPartPluginFeatures/CustomPartPluginCreationFeature.cs:135-195 | valid picks go to `pickedPoints`, but the session end commits from `pickedObjects`, which nothing appends to | two valid picks and a session end: nothing is committed | one list, appended by picks and committed at the end, as in the beam feature | high; not executed | CustomPartCreation.NeverCommits, CustomPartCreation.TwoPicksCommitNothing | CustomPartCreation.SessionEnd, CustomPartCreation.PicksThenSessionEndCommit |
| DirectManipulationPlugins.Examples_2020/BasicPlugin/BeamPlugin.cs:81 | `Run` casts the first definition to `ArrayList`, but `DefineInput` returns two single-point definitions | the input DefineInput(p1, p2) produces: the cast throws, and Run inserts nothing | read the two single-point definitions as well | medium (depends on the host passing DefineInput's definitions through unchanged); not executed | BeamPlugin.RunAsWritten, BeamPlugin.DefinedInputInsertsNothing | BeamPlugin.Run, BeamPlugin.RunExtendsRunAsWritten |
| 2024_DirectManipulationPlugins.Examples/CustomPartPluginFeatures/CustomPartPluginManipulationContext.cs:346-357 | `GetLineHandlePoints` takes every point from the manipulators' old starts and replaces only point i+1 with the dragged line's end | drag line handle i of a fresh part so that its start moves: the submitted chain keeps the old point i | a line drag moves both ends of the line, as a measure change of the same segment does | medium; not executed | CustomPartContext.LineHandlePoints, CustomPartContext.LineDragMovesEnd, CustomPartContext.LineDragLeavesStartBehind | CustomPartContext.LineHandlePointsMovingBothEnds, CustomPartContext.LineDragMovesSegment |
| 2022_DirectManipulationPlugins.Examples/BasicPluginFeatures/BeamPluginCreationFeature.cs:113-128 | the preview stretches the way to the cursor by the factor, whatever its sign, while `Run` (DirectManipulationPlugins.Examples_2020/BasicPlugin/BeamPlugin.cs) uses the second point as it is when the factor is not positive | LengthFactor 0 in both the applied attributes and the plugin data, two distinct picks: the preview ends at the first pick, the beam at the second | the preview places the end as Run does | medium; not executed | BeamCreation.PreviewMissesBeamAtZeroFactor | BeamCreation.PreviewLikeRun, BeamCreation.PreviewLikeRunShowsCommittedBeam |

=== FILE: beam_context.dfy ===
/**
  BasicPluginFeatures.BeamPluginManipulationContext: one point handle per input point of the
  beam component. Ending a drag rebuilds the component's input item by item from the handle
  points, consuming them with a running index.
*/
module BeamContext {
  import opened Wrappers
  import opened Geometry
  import opened Host
  import opened DataFetcher

  /** GetCurrentInput: the points of the input's items in order; entries that are not items are skipped. */
  function CurrentInput(input: Option<seq<InputEntry>>): (ps: seq<Vec3>)
    ensures input.None? ==> ps == []
  {
    match input
    case None => []
    case Some(entries) => Collect(entries)
  }

  function Collect(entries: seq<InputEntry>): seq<Vec3> {
    if |entries| == 0 then []
    else
      var head := if entries[0].Item? then ItemPoints(entries[0].item) else [];
      head + Collect(entries[1..])
  }

  /**
    On an input of items only, the context reads the same points as the transition section
    fetcher; where that fetcher throws on an entry that is not an item, the context skips it.
  */
  lemma {:induction false} CollectAgreesWithFetcher(entries: seq<InputEntry>)
    requires forall i | 0 <= i < |entries| :: entries[i].Item?
    ensures FlattenItems(entries) == Some(Collect(entries))
  {
    if |entries| > 0 {
      var rest := entries[1..];
      assert forall i | 0 <= i < |rest| :: rest[i] == entries[i + 1];
      CollectAgreesWithFetcher(rest);
    }
  }

  lemma {:induction false} CollectAppend(a: seq<InputEntry>, b: seq<InputEntry>)
    ensures Collect(a + b) == Collect(a) + Collect(b)
  {
    if |a| == 0 {
      assert a + b == b;
    } else {
      assert (a + b)[0] == a[0];
      assert (a + b)[1..] == a[1..] + b;
      CollectAppend(a[1..], b);
      var head := if a[0].Item? then ItemPoints(a[0].item) else [];
      assert head + (Collect(a[1..]) + Collect(b)) == (head + Collect(a[1..])) + Collect(b);
    }
  }

  /** An entry that is not an item contributes nothing to the handle points. */
  lemma NonItemSkipped(a: seq<InputEntry>, b: seq<InputEntry>)
    ensures Collect(a + [NotAnItem] + b) == Collect(a + b)
  {
    CollectAppend(a + [NotAnItem], b);
    CollectAppend(a, [NotAnItem]);
    CollectAppend(a, b);
    assert [NotAnItem][1..] == [];
    assert Collect(a) + [] == Collect(a);
  }

  /** CreatePointHandles: a handle at each current input point, in order. */
  function CreatePointHandles(input: Option<seq<InputEntry>>): (hs: seq<Vec3>)
    ensures |hs| == |CurrentInput(input)|
    ensures forall i | 0 <= i < |hs| :: hs[i] == CurrentInput(input)[i]
  {
    CurrentInput(input)
  }

  /**
    UpdatePointHandles: handle i is moved to input point i. With more points than handles the
    indexing throws once the handles run out, after moving every handle.
  */
  method UpdatePointHandles(points: seq<Vec3>, handles: seq<Vec3>) returns (r: Outcome<seq<Vec3>>)
    ensures r.completed <==> |points| <= |handles|
    ensures r.effects == [] && |r.state| == |handles|
    ensures forall i | 0 <= i < |handles| :: r.state[i] == if i < |points| then points[i] else handles[i]
  {
    var moved := handles;
    var index := 0;
    while index < |points|
      invariant 0 <= index <= |points|
      invariant |moved| == |handles|
      invariant index <= |handles|
      invariant forall i | 0 <= i < |handles| :: moved[i] == if i < index then points[i] else handles[i]
    {
      if index >= |handles| {
        return Outcome(moved, [], false);
      }
      moved := moved[index := points[index]];
      index := index + 1;
    }
    return Outcome(moved, [], true);
  }

  /**
    The rebuilt input of ModifyInput: object items are copied as they are; a one-point item
    takes the next point and a two-point item the next two, whatever they held before; a
    polygon item takes the whole point list; entries that are not items are dropped. None when
    the running index runs past the points (the indexing throws).
  */
  function Rebuild(entries: seq<InputEntry>, points: seq<Vec3>, index: nat): (r: Option<seq<InputEntry>>)
    decreases |entries|
  {
    if |entries| == 0 then Some([])
    else
      match entries[0]
      case NotAnItem => Rebuild(entries[1..], points, index)
      case Item(item) =>
        match item
        case OneObject(_) =>
          var rest :- Rebuild(entries[1..], points, index);
          Some([entries[0]] + rest)
        case NObjects(_) =>
          var rest :- Rebuild(entries[1..], points, index);
          Some([entries[0]] + rest)
        case OnePoint(_) =>
          if index >= |points| then None
          else
            var rest :- Rebuild(entries[1..], points, index + 1);
            Some([Item(OnePoint(points[index]))] + rest)
        case TwoPoints(_) =>
          if index + 1 >= |points| then None
          else
            var rest :- Rebuild(entries[1..], points, index + 2);
            Some([Item(TwoPoints(Some([points[index], points[index + 1]])))] + rest)
        case PolygonItem(_) =>
          var rest :- Rebuild(entries[1..], points, index);
          Some([Item(PolygonItem(Some(points)))] + rest)
  }

  /** The points the running index consumes for the items: one per one-point item, two per two-point item. */
  function Slots(entries: seq<InputEntry>): nat {
    if |entries| == 0 then 0
    else
      var here := if entries[0].Item? && entries[0].item.OnePoint? then 1
        else if entries[0].Item? && entries[0].item.TwoPoints? then 2
        else 0;
      here + Slots(entries[1..])
  }

  /** The rebuild throws exactly when the point items ask for more points than there are. */
  lemma {:induction false} RebuildDefinedIff(entries: seq<InputEntry>, points: seq<Vec3>, index: nat)
    requires index <= |points|
    ensures Rebuild(entries, points, index).Some? <==> index + Slots(entries) <= |points|
    decreases |entries|
  {
    if |entries| > 0 {
      var rest := entries[1..];
      match entries[0]
      case NotAnItem =>
        RebuildDefinedIff(rest, points, index);
      case Item(item) =>
        match item
        case OnePoint(_) =>
          assert Slots(entries) == 1 + Slots(rest);
          if index < |points| {
            RebuildDefinedIff(rest, points, index + 1);
          }
        case TwoPoints(_) =>
          assert Slots(entries) == 2 + Slots(rest);
          if index + 1 < |points| {
            RebuildDefinedIff(rest, points, index + 2);
          }
        case _ =>
          RebuildDefinedIff(rest, points, index);
    }
  }

  /**
    The rebuilt input keeps the items in place and of their kind: objects are copied, and every
    polygon holds the whole point list, whatever it held before.
  */
  lemma {:induction false} RebuildKeepsItems(entries: seq<InputEntry>, points: seq<Vec3>, index: nat)
    requires forall i | 0 <= i < |entries| :: entries[i].Item?
    requires Rebuild(entries, points, index).Some?
    ensures var r := Rebuild(entries, points, index).value;
      && |r| == |entries|
      && forall i | 0 <= i < |entries| ::
           && r[i].Item?
           && (entries[i].item.OnePoint? <==> r[i].item.OnePoint?)
           && (entries[i].item.TwoPoints? <==> r[i].item.TwoPoints?)
           && (entries[i].item.PolygonItem? ==> r[i] == Item(PolygonItem(Some(points))))
           && (entries[i].item.OneObject? || entries[i].item.NObjects? ==> r[i] == entries[i])
    decreases |entries|
  {
    if |entries| > 0 {
      var rest := entries[1..];
      assert forall i | 0 <= i < |rest| :: rest[i] == entries[i + 1];
      var next := if entries[0].item.OnePoint? then index + 1
        else if entries[0].item.TwoPoints? then index + 2 else index;
      RebuildKeepsItems(rest, points, next);
      var r := Rebuild(entries, points, index).value;
      var tail := Rebuild(rest, points, next).value;
      assert r[1..] == tail;
    }
  }

  /**
    ModifyInput: clear the graphics; with no original input stop there; otherwise submit the
    rebuilt input, or throw when the points run out.
  */
  function ModifyInput(points: seq<Vec3>, original: Option<seq<InputEntry>>): (r: Outcome<()>)
    ensures |r.effects| >= 1 && r.effects[0] == ClearGraphics
    ensures original.None? ==> r == Outcome((), [ClearGraphics], true)
    ensures original.Some? ==>
      var rebuilt := Rebuild(original.value, points, 0);
      && (r.completed <==> rebuilt.Some?)
      && (rebuilt.Some? ==> r.effects == [ClearGraphics, Host.ModifyInput(rebuilt.value)])
      && (rebuilt.None? ==> r.effects == [ClearGraphics])
  {
    match original
    case None => Outcome((), [ClearGraphics], true)
    case Some(entries) =>
      match Rebuild(entries, points, 0)
      case None => Outcome((), [ClearGraphics], false)
      case Some(rebuilt) => Outcome((), [ClearGraphics, Host.ModifyInput(rebuilt)], true)
  }

  /**
    The inputs the rebuild gives back unchanged when nothing moved: items only, every point item
    a one-point item or a two-point item holding exactly two points.
  */
  predicate PointItemsOnly(entries: seq<InputEntry>) {
    forall i | 0 <= i < |entries| ::
      && entries[i].Item?
      && !entries[i].item.PolygonItem?
      && (entries[i].item.TwoPoints? ==>
            entries[i].item.points.Some? && |entries[i].item.points.value| == 2)
  }

  /**
    Rebuilding such an input from any point list that holds its points from the running index on
    gives the input back.
  */
  lemma {:induction false} RebuildPointItems(entries: seq<InputEntry>, points: seq<Vec3>, index: nat)
    requires PointItemsOnly(entries)
    requires index + |Collect(entries)| <= |points|
    requires forall j | 0 <= j < |Collect(entries)| :: points[index + j] == Collect(entries)[j]
    ensures Rebuild(entries, points, index) == Some(entries)
    decreases |entries|
  {
    if |entries| > 0 {
      var rest := entries[1..];
      assert PointItemsOnly(rest) by {
        assert forall i | 0 <= i < |rest| :: rest[i] == entries[i + 1];
      }
      var head := ItemPoints(entries[0].item);
      var all := Collect(entries);
      assert all == head + Collect(rest);
      var n := |head|;
      forall j | 0 <= j < |Collect(rest)| ensures points[index + n + j] == Collect(rest)[j] {
        assert all[n + j] == Collect(rest)[j];
      }
      RebuildPointItems(rest, points, index + n);
      if entries[0].item.OnePoint? {
        assert points[index + 0] == all[0];
      } else if entries[0].item.TwoPoints? {
        assert points[index + 0] == all[0];
        assert points[index + 1] == all[1];
        assert [points[index], points[index + 1]] == head;
      }
      assert [entries[0]] + rest == entries;
    }
  }

  /** Ending a drag on handles nobody moved submits an input of point items exactly as it was. */
  lemma UnmovedPointItemsRoundTrip(entries: seq<InputEntry>)
    requires PointItemsOnly(entries)
    ensures DragEnded(CreatePointHandles(Some(entries)), Some(entries))
      == Outcome((), [ClearGraphics, Host.ModifyInput(entries)], true)
  {
    var ps := Collect(entries);
    assert forall j | 0 <= j < |ps| :: ps[0 + j] == ps[j];
    RebuildPointItems(entries, ps, 0);
  }

  /** Items that carry no points of their own: model objects. */
  predicate ObjectItems(entries: seq<InputEntry>) {
    forall i | 0 <= i < |entries| :: entries[i].Item? && (entries[i].item.OneObject? || entries[i].item.NObjects?)
  }

  /** Object items and polygon items holding the given points are rebuilt as they were. */
  lemma {:induction false} RebuildPolygonItems(entries: seq<InputEntry>, points: seq<Vec3>, index: nat)
    requires forall i | 0 <= i < |entries| ::
      entries[i].Item? && (entries[i].item.OneObject? || entries[i].item.NObjects?
                           || entries[i].item == PolygonItem(Some(points)))
    ensures Rebuild(entries, points, index) == Some(entries)
    decreases |entries|
  {
    if |entries| > 0 {
      var rest := entries[1..];
      assert forall i | 0 <= i < |rest| :: rest[i] == entries[i + 1];
      RebuildPolygonItems(rest, points, index);
      assert [entries[0]] + rest == entries;
    }
  }

  lemma {:induction false} ObjectItemsHaveNoPoints(entries: seq<InputEntry>)
    requires ObjectItems(entries)
    ensures Collect(entries) == []
  {
    if |entries| > 0 {
      var rest := entries[1..];
      assert forall i | 0 <= i < |rest| :: rest[i] == entries[i + 1];
      ObjectItemsHaveNoPoints(rest);
    }
  }

  /**
    An input with a single polygon among model objects reads as the polygon's points, and
    ending a drag on the unmoved handles submits it exactly as it was.
  */
  lemma UnmovedPolygonRoundTrip(a: seq<InputEntry>, ps: seq<Vec3>, b: seq<InputEntry>)
    requires ObjectItems(a) && ObjectItems(b)
    ensures var entries := a + [Item(PolygonItem(Some(ps)))] + b;
      && CurrentInput(Some(entries)) == ps
      && DragEnded(CreatePointHandles(Some(entries)), Some(entries))
           == Outcome((), [ClearGraphics, Host.ModifyInput(entries)], true)
  {
    var poly := [Item(PolygonItem(Some(ps)))];
    var entries := a + poly + b;
    CollectAppend(a + poly, b);
    CollectAppend(a, poly);
    ObjectItemsHaveNoPoints(a);
    ObjectItemsHaveNoPoints(b);
    assert poly[1..] == [];
    assert Collect(poly) == ps + [];
    assert Collect(entries) == ps;
    RebuildPolygonItems(entries, ps, 0);
  }

  /** OnPointHandleDragEnded: the input rebuilt from every handle's point, in handle order. */
  function DragEnded(handles: seq<Vec3>, original: Option<seq<InputEntry>>): Outcome<()> {
    ModifyInput(handles, original)
  }

  /** OnPointHandleDragOngoing does nothing. */
  function DragOngoing(): seq<Effect> {
    []
  }

  /** The registrations on point handle `handle`: its drag-ongoing and drag-ended handlers. */
  datatype DragEvent = Ongoing | Ended
  datatype Registration = Registration(handle: nat, event: DragEvent)

  function HandleRegistrations(count: nat): (regs: seq<Registration>)
    ensures |regs| == 2 * count
    ensures forall i | 0 <= i < count ::
      regs[2 * i] == Registration(i, Ongoing) && regs[2 * i + 1] == Registration(i, Ended)
  {
    if count == 0 then []
    else
      var before := HandleRegistrations(count - 1);
      before + [Registration(count - 1, Ongoing), Registration(count - 1, Ended)]
  }

  /** Dispose detaches exactly what construction attached to the handles. */
  lemma DisposeDetachesAttached(subs: multiset<Registration>, count: nat)
    ensures Unsubscribe(Subscribe(subs, HandleRegistrations(count)), HandleRegistrations(count)) == subs
  {
    UnsubscribeAfterSubscribe(subs, HandleRegistrations(count));
  }
}

=== FILE: beam_creation.dfy ===
/**
  BasicPluginFeatures.BeamPluginCreationFeature: a picking session for at most two points, a
  profile preview from the last picked point towards the cursor, and the picked points
  committed as one polygon when the session ends.
*/
module BeamCreation {
  import opened Wrappers
  import opened Geometry
  import opened Host
  import opened Picking
  import opened BeamPlugin

  /** OnPreviewRequested, with BeamPlugin's default profile. */
  function Preview(points: seq<Vec3>, hit: Vec3, attrs: map<string, Applied>): (es: seq<Effect>)
    ensures |es| >= 1 && es[0] == ClearGraphics && (|points| == 0 <==> es == [ClearGraphics])
    ensures |points| > 0 && "Profile" !in attrs ==> es[1].DrawProfile? && es[1].profile == "HEA300"
  {
    ProfilePreview(points, hit, attrs, DefaultProfileName)
  }

  /** OnPickEnded: the picked points, in order, committed as one polygon. */
  function SessionEnd(points: seq<Vec3>): (es: seq<Effect>)
    ensures |es| == 1 && es[0].CommitInput?
  {
    [CommitInput(PolygonInput(points))]
  }

  /** The definition the plugin's Run receives for a committed polygon: its points as a list. */
  function PolygonDefinition(points: seq<Vec3>): (d: InputDefinition)
    ensures d.ListInput? && |d.objects| == |points|
    ensures forall i | 0 <= i < |points| :: d.objects[i] == PointObject(points[i])
  {
    ListInput(seq(|points|, i requires 0 <= i < |points| => PointObject(points[i])))
  }

  /**
    Picking two points and ending the session commits them; the plugin then inserts the beam the
    preview showed after the first pick with the cursor on the second, when the preview's factor
    and profile are the plugin's.
  */
  lemma PreviewShowsCommittedBeam(p1: Vec3, p2: Vec3, attrs: map<string, Applied>, d: StructuresData)
    requires LengthFactor(attrs) == ValuesFromDialog(d).lengthFactor > 0.0
    requires ProfileName(attrs, DefaultProfileName) == ValuesFromDialog(d).profile
    ensures var picked := Replay([], [Picked(PickArgs(p1, true)), Picked(PickArgs(p2, true))]);
      && picked == [p1, p2]
      && SessionEnd(picked) == [CommitInput(PolygonInput([p1, p2]))]
      && var beam := Run(d, [PolygonDefinition(picked)]).inserted;
         && |beam| == 1
         && Preview([p1], p2, attrs)[1] == DrawProfile(beam[0].profile, beam[0].start, beam[0].end)
  {
    var evs := [Picked(PickArgs(p1, true)), Picked(PickArgs(p2, true))];
    PicksAppendValidHits([], evs);
    assert evs[1..][1..] == [];
    assert ValidHits(evs) == [p1, p2];
    assert [] + [p1, p2] == [p1, p2];
  }

  /**
    With a factor that is not positive the preview and the plugin part ways: the preview
    stretches the way to the cursor by the factor (a factor of 0 collapses it to the last
    point), while Run falls back to the second point as it is.
  */
  lemma PreviewMissesBeamAtZeroFactor(p1: Vec3, p2: Vec3, attrs: map<string, Applied>, d: StructuresData)
    requires p1 != p2
    requires LengthFactor(attrs) == ValuesFromDialog(d).lengthFactor == 0.0
    ensures var beam := Run(d, [PolygonDefinition([p1, p2])]).inserted;
      && |beam| == 1 && beam[0].end == p2
      && Preview([p1], p2, attrs)[1].to == p1
      && Preview([p1], p2, attrs)[1].to != beam[0].end
  {
    assert Add(Scale(0.0, Sub(p2, p1)), p1) == p1;
  }

  /**
    The preview drawn the way Run places the beam: from the last point to BeamPlugin's end
    point for the cursor and the factor.
  */
  function PreviewLikeRun(points: seq<Vec3>, hit: Vec3, attrs: map<string, Applied>): (es: seq<Effect>)
    ensures |es| >= 1 && es[0] == ClearGraphics && (|points| == 0 <==> es == [ClearGraphics])
    ensures |points| > 0 ==>
      var last := points[|points| - 1];
      && |es| == 2 && es[1].DrawProfile? && es[1].from == last
      && es[1].profile == ProfileName(attrs, DefaultProfileName)
      && (LengthFactor(attrs) > 0.0 ==> es == Preview(points, hit, attrs))
      && (LengthFactor(attrs) <= 0.0 ==> es[1].to == hit)
  {
    if |points| == 0 then [ClearGraphics]
    else
      var last := points[|points| - 1];
      [ClearGraphics, DrawProfile(ProfileName(attrs, DefaultProfileName), last, EndPoint(last, hit, LengthFactor(attrs)))]
  }

  /**
    With the preview drawn as Run places the beam, the preview after the first pick with the
    cursor on the second shows the inserted beam for every factor, not only a positive one.
  */
  lemma PreviewLikeRunShowsCommittedBeam(p1: Vec3, p2: Vec3, attrs: map<string, Applied>, d: StructuresData)
    requires LengthFactor(attrs) == ValuesFromDialog(d).lengthFactor
    requires ProfileName(attrs, DefaultProfileName) == ValuesFromDialog(d).profile
    ensures var beam := Run(d, [PolygonDefinition([p1, p2])]).inserted;
      && |beam| == 1
      && PreviewLikeRun([p1], p2, attrs)[1] == DrawProfile(beam[0].profile, beam[0].start, beam[0].end)
  {
  }

  /** The picking tool's events this feature handles: all six. */
  const AttachedEvents := [PreviewRequested, ObjectPicked, InputValidationRequested,
                           PickSessionEnded, PickSessionInterrupted, PickUndone]

  /** AttachHandlers: one registration on each event; nothing without a picking tool. */
  function AttachHandlers(tool: Option<multiset<ToolEvent>>): (r: Option<multiset<ToolEvent>>)
    ensures r.Some? <==> tool.Some?
    ensures tool.Some? ==> forall e :: r.value[e] == tool.value[e] + 1
  {
    match tool
    case None => None
    case Some(subs) => EachEventOnce(); Some(Subscribe(subs, AttachedEvents))
  }

  /** DetachHandlers: one removal on each event. */
  function DetachHandlers(tool: Option<multiset<ToolEvent>>): (r: Option<multiset<ToolEvent>>)
    ensures r.Some? <==> tool.Some?
    ensures tool.Some? ==> forall e :: r.value[e] == if tool.value[e] > 0 then tool.value[e] - 1 else 0
  {
    match tool
    case None => None
    case Some(subs) => EachEventOnce(); Some(Unsubscribe(subs, AttachedEvents))
  }

  lemma EachEventOnce()
    ensures forall e :: multiset(AttachedEvents)[e] == 1
  {
    forall e ensures multiset(AttachedEvents)[e] == 1 {
      match e
      case PreviewRequested =>
      case ObjectPicked =>
      case InputValidationRequested =>
      case PickSessionEnded =>
      case PickSessionInterrupted =>
      case PickUndone =>
    }
  }

  /** Detaching undoes attaching, and attaching undoes detaching from a tool with every handler attached. */
  lemma AttachDetachInverse(tool: Option<multiset<ToolEvent>>)
    ensures DetachHandlers(AttachHandlers(tool)) == tool
    ensures tool.Some? && (forall e :: tool.value[e] > 0) ==> AttachHandlers(DetachHandlers(tool)) == tool
  {
    if tool.Some? {
      UnsubscribeAfterSubscribe(tool.value, AttachedEvents);
      if forall e :: tool.value[e] > 0 {
        var back := AttachHandlers(DetachHandlers(tool)).value;
        assert forall e :: back[e] == tool.value[e];
        assert back == tool.value;
      }
    }
  }
}

=== FILE: beam_plugin.dfy ===
/**
  BasicPlugin.BeamPlugin: reads a length factor and a profile with defaults, takes two points,
  stretches the second away from the first by the factor, and inserts a painted beam between
  them.
*/
module BeamPlugin {
  import opened Wrappers
  import opened Geometry
  import opened Host

  const DefaultProfileName := "HEA300"
  const DefaultLengthFactor := 2.0
  const BeamFinish := "PAINT"

  /** StructuresData as stored: a field is None when it holds the host's default-value marker. */
  datatype StructuresData = StructuresData(lengthFactor: Option<real>, profile: Option<string>)

  /** The factor and profile Run works with. */
  datatype BeamValues = BeamValues(lengthFactor: real, profile: string)

  /** GetValuesFromDialog: a field holding the default marker takes its default; any other value is kept. */
  function ValuesFromDialog(d: StructuresData): (v: BeamValues)
    ensures d.lengthFactor.None? ==> v.lengthFactor == 2.0
    ensures d.profile.None? ==> v.profile == "HEA300"
    ensures d.lengthFactor.Some? ==> v.lengthFactor == d.lengthFactor.value
    ensures d.profile.Some? ==> v.profile == d.profile.value
  {
    BeamValues(d.lengthFactor.GetOr(DefaultLengthFactor), d.profile.GetOr(DefaultProfileName))
  }

  /**
    The end of the beam: with a positive factor, the first point plus the factor times the way
    to the second; otherwise the second point as it is.
  */
  function EndPoint(p1: Vec3, p2: Vec3, factor: real): (e: Vec3)
    ensures factor > 0.0 ==> Sub(e, p1) == Scale(factor, Sub(p2, p1))
    ensures factor <= 0.0 ==> e == p2
  {
    if factor > 0.0 then Add(Scale(factor, Sub(p2, p1)), p1) else p2
  }

  /**
    The beam keeps the direction from the first point to the second; a factor of one, or none
    that is positive, leaves the second point where it is.
  */
  lemma EndPointAlongPicks(p1: Vec3, p2: Vec3, factor: real)
    ensures factor == 1.0 || factor <= 0.0 ==> EndPoint(p1, p2, factor) == p2
    ensures factor > 0.0 ==> Cross(Sub(EndPoint(p1, p2, factor), p1), Sub(p2, p1)) == Zero
  {
  }

  /** CreateBeam: a beam between the points with the profile and the finish PAINT. */
  function CreateBeam(p1: Vec3, p2: Vec3, v: BeamValues): (part: Part)
    ensures part.Beam? && part.start == p1 && part.end == p2
    ensures part.profile == v.profile && part.finish == "PAINT"
  {
    Beam(p1, p2, v.profile, BeamFinish)
  }

  /** What Run does: whether it returns true, and the parts it inserts. */
  datatype BeamRun = BeamRun(returned: bool, inserted: seq<Part>)

  /**
    The two points Run reads as written: the first definition must be a list (the cast to
    ArrayList throws otherwise) of at least two entries (indexing throws otherwise), and its
    first two entries must be points (the subtraction on a null point throws otherwise).
  */
  function ListedPoints(input: seq<InputDefinition>): (r: Option<(Vec3, Vec3)>)
    ensures r.Some? <==>
      && |input| > 0 && input[0].ListInput? && |input[0].objects| >= 2
      && input[0].objects[0].PointObject? && input[0].objects[1].PointObject?
  {
    if |input| == 0 || input[0].SingleInput? || |input[0].objects| < 2 then None
    else
      var objects := input[0].objects;
      if objects[0].PointObject? && objects[1].PointObject? then Some((objects[0].point, objects[1].point))
      else None
  }

  /** The beam from two points as Run builds it. */
  function BeamFrom(d: StructuresData, p1: Vec3, p2: Vec3): Part {
    var v := ValuesFromDialog(d);
    CreateBeam(p1, EndPoint(p1, p2, v.lengthFactor), v)
  }

  /**
    Run as written: one beam from the points of the first definition, nothing when reading them
    throws; the exception is caught and Run returns true either way.
  */
  function RunAsWritten(d: StructuresData, input: seq<InputDefinition>): (r: BeamRun)
    ensures r.returned
    ensures |r.inserted| <= 1
    ensures r.inserted != [] <==> ListedPoints(input).Some?
    ensures ListedPoints(input).Some? ==>
      var (p1, p2) := ListedPoints(input).value;
      && r.inserted[0].Beam? && r.inserted[0].start == p1
      && r.inserted[0].end == EndPoint(p1, p2, ValuesFromDialog(d).lengthFactor)
  {
    match ListedPoints(input)
    case None => BeamRun(true, [])
    case Some((p1, p2)) => BeamRun(true, [BeamFrom(d, p1, p2)])
  }

  /** DefineInput: each of the two picked points as a definition of its own. */
  function DefineInput(p1: Vec3, p2: Vec3): (input: seq<InputDefinition>)
    ensures |input| == 2 && input[0].SingleInput? && input[1].SingleInput?
  {
    [SingleInput(PointObject(p1)), SingleInput(PointObject(p2))]
  }

  /**
    The input DefineInput produces is never one RunAsWritten can read: its first definition is a
    single point, not a list, so the plugin run from the picker inserts no beam.
  */
  lemma DefinedInputInsertsNothing(d: StructuresData, p1: Vec3, p2: Vec3)
    ensures RunAsWritten(d, DefineInput(p1, p2)).inserted == []
  {
  }

  /**
    The points Run reads once it also accepts the shape DefineInput produces: a list as before,
    or two single-point definitions.
  */
  function InputPoints(input: seq<InputDefinition>): (r: Option<(Vec3, Vec3)>)
    ensures ListedPoints(input).Some? ==> r == ListedPoints(input)
    ensures |input| >= 2 && input[0].SingleInput? && input[1].SingleInput?
            && input[0].single.PointObject? && input[1].single.PointObject? ==>
      r == Some((input[0].single.point, input[1].single.point))
  {
    if |input| >= 2 && input[0].SingleInput? && input[1].SingleInput?
       && input[0].single.PointObject? && input[1].single.PointObject?
    then Some((input[0].single.point, input[1].single.point))
    else ListedPoints(input)
  }

  /** Run, reading the points of either input shape. */
  function Run(d: StructuresData, input: seq<InputDefinition>): (r: BeamRun)
    ensures r.returned
    ensures r.inserted != [] <==> InputPoints(input).Some?
    ensures |r.inserted| <= 1
    ensures InputPoints(input).Some? ==>
      var (p1, p2) := InputPoints(input).value;
      && r.inserted[0].Beam? && r.inserted[0].start == p1
      && r.inserted[0].end == EndPoint(p1, p2, ValuesFromDialog(d).lengthFactor)
  {
    match InputPoints(input)
    case None => BeamRun(true, [])
    case Some((p1, p2)) => BeamRun(true, [BeamFrom(d, p1, p2)])
  }

  /**
    Run inserts the beam for the picker's input, and on every input the original reads it does
    exactly what the original does.
  */
  lemma RunExtendsRunAsWritten(d: StructuresData, input: seq<InputDefinition>, p1: Vec3, p2: Vec3)
    ensures Run(d, DefineInput(p1, p2)).inserted == [BeamFrom(d, p1, p2)]
    ensures ListedPoints(input).Some? ==> Run(d, input) == RunAsWritten(d, input)
  {
  }
}

=== FILE: circle_context.dfy ===
/**
  ComplexTransitionSectionPluginFeatures.ManipulationContexts.CircleManipulationContext: one
  point handle on the circle at the top of the section. Dragging it keeps it in the circle's
  plane at a whole-numbered radius; ending the drag writes the radius back to the component.
*/
module CircleContext {
  import opened Wrappers
  import opened Geometry
  import opened Host
  import opened TransitionSectionGeometry
  import opened TransitionSectionPlugin
  import opened DataFetcher

  /**
    The managed circle: an Arc of a full turn given by its centre, its X and Y directions and
    its radius. It starts at the centre plus the radius along the unit X direction.
  */
  datatype Circle = Circle(center: Vec3, axisX: Vec3, axisY: Vec3, radius: real)

  function StartPoint(k: Kernel, circle: Circle): Vec3 {
    Add(circle.center, Scale(circle.radius, Normal(k, circle.axisX)))
  }

  /** The normal of the circle's plane. */
  function CircleNormal(k: Kernel, circle: Circle): Vec3 {
    Normal(k, Cross(circle.axisX, circle.axisY))
  }

  /**
    GetCircle: centred the section length along the frame's unit normal from its origin, in the
    frame's axes, with the stored radius. None when reading the input throws.
  */
  function GetCircle(k: Kernel, c: Component): (r: Option<Circle>)
    ensures r.Some? <==> DefinitionPoints(c.input).Some?
    ensures r.Some? ==> r.value.radius == Radius(c)
  {
    var d :- Fetch(k, c);
    var normal := Normal(k, Cross(d.frame.axisX, d.frame.axisY));
    Some(Circle(Add(d.frame.origin, Scale(d.length, normal)), d.frame.axisX, d.frame.axisY, d.radius))
  }

  /** The context's state: the managed circle, the radius handle's point and whether it is marked invalid. */
  datatype State = State(circle: Circle, handle: Vec3, invalid: bool)

  /** DrawRadialLine: a line from the centre and a radius label halfway along it. */
  function RadialLine(circle: Circle, radius: real, end: Vec3): (es: seq<Effect>)
    ensures |es| == 2 && es[0] == DrawLine(circle.center, end)
    ensures es[1].DrawRadiusLabel? && es[1].radius == radius
    ensures Add(es[1].at, es[1].at) == Add(end, circle.center)
  {
    [DrawLine(circle.center, end), DrawRadiusLabel(radius, Scale(0.5, Add(end, circle.center)))]
  }

  /** The construction: the circle of the component with the handle at its start point. */
  function Create(k: Kernel, c: Component): (r: Option<State>)
    ensures r.Some? <==> GetCircle(k, c).Some?
    ensures r.Some? ==> r.value.handle == StartPoint(k, r.value.circle) && !r.value.invalid
  {
    var circle :- GetCircle(k, c);
    Some(State(circle, StartPoint(k, circle), false))
  }

  /**
    UpdateContext: select the component, re-read the circle, move the handle to its start point
    and draw the radial line to it.
  */
  function UpdateContext(k: Kernel, c: Component, st: State): (r: Outcome<State>)
    ensures r.completed <==> GetCircle(k, c).Some?
    ensures !r.completed ==> r == Outcome(st, [Select], false)
    ensures r.completed ==>
      var circle := GetCircle(k, c).value;
      && r.state.circle == circle && r.state.handle == StartPoint(k, circle)
      && r.state.invalid == st.invalid
      && r.effects == [Select] + RadialLine(circle, circle.radius, StartPoint(k, circle))
  {
    match GetCircle(k, c)
    case None => Outcome(st, [Select], false)
    case Some(circle) =>
      var start := StartPoint(k, circle);
      Outcome(st.(circle := circle, handle := start), [Select] + RadialLine(circle, circle.radius, start), true)
  }

  /** The dragged point projected onto the circle's plane, as an offset from the centre. */
  function RadialVector(k: Kernel, circle: Circle, p: Vec3): Vec3 {
    Sub(ProjectToPlane(k, p, circle.center, CircleNormal(k, circle)), circle.center)
  }

  /** The radius the dragged point is rounded to, a whole number. */
  function RoundedRadius(k: Kernel, circle: Circle, p: Vec3): real {
    k.round(k.length(RadialVector(k, circle, p))) as real
  }

  /** Where the handle is put: the rounded radius along the radial direction from the centre. */
  function RoundedPoint(k: Kernel, circle: Circle, p: Vec3): Vec3 {
    var radial := RadialVector(k, circle, p);
    Add(circle.center, Scale(RoundedRadius(k, circle, p), Normal(k, radial)))
  }

  /**
    OnRadiusPointDragOngoing. `sender` is the dragged point, None when the sender is not a point
    handle. The graphics are cleared first; a point on the centre's normal line marks the handle
    invalid; otherwise the handle snaps to the rounded radius and the preview circle, the radial
    line and the label are drawn.
  */
  function DragOngoing(k: Kernel, st: State, sender: Option<Vec3>): (r: Outcome<State>)
    ensures r.completed && |r.effects| >= 1 && r.effects[0] == ClearGraphics
    ensures r.state.circle == st.circle
    ensures sender.None? ==> r == Outcome(st, [ClearGraphics], true)
    ensures sender.Some? && k.length(RadialVector(k, st.circle, sender.value)) < k.epsilon ==>
      r == Outcome(st.(invalid := true), [ClearGraphics], true)
    ensures sender.Some? && k.length(RadialVector(k, st.circle, sender.value)) >= k.epsilon ==>
      var rounded := RoundedRadius(k, st.circle, sender.value);
      var point := RoundedPoint(k, st.circle, sender.value);
      && r.state == st.(handle := point)
      && r.effects == [ClearGraphics, DrawCircle(st.circle.center, rounded)]
                      + RadialLine(st.circle, rounded, point)
  {
    match sender
    case None => Outcome(st, [ClearGraphics], true)
    case Some(p) =>
      var radial := RadialVector(k, st.circle, p);
      if k.length(radial) < k.epsilon then Outcome(st.(invalid := true), [ClearGraphics], true)
      else
        var rounded := RoundedRadius(k, st.circle, p);
        var point := RoundedPoint(k, st.circle, p);
        Outcome(st.(handle := point),
                [ClearGraphics, DrawCircle(st.circle.center, rounded)] + RadialLine(st.circle, rounded, point),
                true)
  }

  /**
    The snapped handle lies in the circle's plane, at the rounded radius from the centre, and the
    rounded radius is a non-negative whole number within one half of the dragged distance.
  */
  lemma SnappedHandle(k: Kernel, circle: Circle, p: Vec3)
    requires Lawful(k) && k.length(RadialVector(k, circle, p)) >= k.epsilon
    ensures var raw := k.length(RadialVector(k, circle, p));
      var rounded := RoundedRadius(k, circle, p);
      var point := RoundedPoint(k, circle, p);
      && rounded >= 0.0 && -0.5 <= rounded - raw <= 0.5
      && Dot(Sub(point, circle.center), CircleNormal(k, circle)) == 0.0
      && Distance(k, point, circle.center) == rounded
      && Distance(k, circle.center, point) == rounded
  {
    var radial := RadialVector(k, circle, p);
    var raw := k.length(radial);
    var rounded := RoundedRadius(k, circle, p);
    var point := RoundedPoint(k, circle, p);
    assert rounded >= 0.0 && -0.5 <= rounded - raw <= 0.5 by {
      assert RoundLaw(k, raw);
      assert k.round(raw) > -1;
    }
    OffsetBothWays(circle.center, rounded, Normal(k, radial));
    assert Sub(point, circle.center) == Scale(rounded, Normal(k, radial));
    assert Dot(Sub(point, circle.center), CircleNormal(k, circle)) == 0.0 by {
      ProjectionInPlane(k, p, circle.center, CircleNormal(k, circle));
      DotOfNormal(k, radial, CircleNormal(k, circle));
      DotScaleLeft(rounded, Normal(k, radial), CircleNormal(k, circle));
    }
    assert k.length(radial) > 0.0 && Abs(rounded) == rounded && Abs(-rounded) == rounded;
    assert Distance(k, circle.center, point) == rounded by {
      ScaledNormalLength(k, rounded, radial);
    }
    assert Sub(circle.center, point) == Scale(-rounded, Normal(k, radial));
    assert Distance(k, point, circle.center) == rounded by {
      ScaledNormalLength(k, -rounded, radial);
    }
  }

  /**
    OnRadiusPointDragEnded: the handle's distance from the centre becomes the stored radius
    unless it is below the tolerance; a sender that is not a point handle does nothing.
  */
  function DragEnded(k: Kernel, c: Component, st: State, sender: Option<Vec3>): (r: Outcome<Component>)
    ensures r.completed
    ensures sender.None? || Distance(k, sender.value, st.circle.center) < k.epsilon ==>
      r == Outcome(c, [], true)
    ensures sender.Some? && Distance(k, sender.value, st.circle.center) >= k.epsilon ==>
      var radius := Distance(k, sender.value, st.circle.center);
      && r.effects == [SetAttribute(CircleRadiusKey, radius), Modify, CommitChanges]
      && Radius(r.state) == radius
      && BaseWidth(r.state) == BaseWidth(c) && BaseHeight(r.state) == BaseHeight(c)
      && r.state.input == c.input
  {
    match sender
    case None => Outcome(c, [], true)
    case Some(p) =>
      var radius := Distance(k, p, st.circle.center);
      if radius < k.epsilon then Outcome(c, [], true)
      else
        Outcome(SetNumber(c, CircleRadiusKey, radius),
                [SetAttribute(CircleRadiusKey, radius), Modify, CommitChanges], true)
  }

  /**
    A drag that snaps the handle followed by the end of the drag stores the rounded radius when
    it reaches the tolerance, and nothing otherwise.
  */
  lemma DragThenEndStoresRounded(k: Kernel, c: Component, st: State, p: Vec3)
    requires Lawful(k) && k.length(RadialVector(k, st.circle, p)) >= k.epsilon
    ensures var dragged := DragOngoing(k, st, Some(p)).state;
      var ended := DragEnded(k, c, dragged, Some(dragged.handle));
      var rounded := RoundedRadius(k, st.circle, p);
      && (rounded >= k.epsilon ==> Radius(ended.state) == rounded)
      && (rounded < k.epsilon ==> ended.state == c && ended.effects == [])
  {
    SnappedHandle(k, st.circle, p);
  }

  /**
    The start point of a circle with a unit X direction is its radius away from the centre, so
    ending a drag on the handle nobody moved writes back the stored radius.
  */
  lemma UnmovedHandleWritesBack(k: Kernel, c: Component)
    requires Lawful(k) && FrameReadable(c.input) && Radius(c) >= k.epsilon
    ensures Create(k, c).Some?
    ensures var st := Create(k, c).value;
      var ended := DragEnded(k, c, st, Some(st.handle));
      ended.effects != [] && Radius(ended.state) == Radius(c)
  {
    FrameAxisXUnit(k, c.input);
    var circle := GetCircle(k, c).value;
    assert circle.axisX == SectionCoordsys(k, c.input).value.axisX;
    EndAtStartPoint(k, c, circle);
  }

  /** Ending a drag at the start point of a circle whose radius reaches the tolerance stores that radius. */
  lemma EndAtStartPoint(k: Kernel, c: Component, circle: Circle)
    requires Lawful(k) && Unit(k, circle.axisX) && circle.radius >= k.epsilon
    ensures var start := StartPoint(k, circle);
      var ended := DragEnded(k, c, State(circle, start, false), Some(start));
      ended.effects != [] && Radius(ended.state) == circle.radius
  {
    StartPointDistance(k, circle);
  }

  /**
    The circle of a section committed from two distinct points is centred on the second point:
    the section length along the frame's unit normal leads from the first point to the second.
  */
  lemma CommittedCircleCentre(k: Kernel, c: Component, p0: Vec3, p1: Vec3)
    requires Lawful(k) && c.input == Some(PolygonInput([p0, p1])) && p0 != p1
    ensures GetCircle(k, c).Some?
    ensures GetCircle(k, c).value.center == p1 && GetCircle(k, c).value.radius == Radius(c)
  {
    CommittedSectionReadsBack(k, c, p0, p1);
    var d := Fetch(k, c).value;
    var n := Sub(p1, p0);
    assert n != Zero;
    assert Normal(k, Cross(d.frame.axisX, d.frame.axisY)) == Normal(k, n) by {
      BaseFrameNormal(k, p0, n);
    }
    assert Scale(d.length, Normal(k, n)) == n by {
      NormalScalesBack(k, n);
    }
  }

  /** A circle with a unit X direction starts its radius away from its centre. */
  lemma StartPointDistance(k: Kernel, circle: Circle)
    requires Lawful(k) && Unit(k, circle.axisX)
    ensures Distance(k, StartPoint(k, circle), circle.center) == Abs(circle.radius)
  {
    var u := circle.axisX;
    NormalOfUnit(k, u);
    assert Sub(circle.center, StartPoint(k, circle)) == Scale(-circle.radius, u);
    LengthOfScaled(k, -circle.radius, u);
  }

  /** The X axis of a readable input's frame is a unit vector. */
  lemma FrameAxisXUnit(k: Kernel, input: Option<seq<InputEntry>>)
    requires Lawful(k) && FrameReadable(input)
    ensures SectionCoordsys(k, input).Some?
    ensures Unit(k, SectionCoordsys(k, input).value.axisX)
  {
    var ps := DefinitionPoints(input).value;
    if |ps| >= 2 {
      var d := Sub(ps[1], ps[0]);
      assert d != Zero;
      BaseCoordsysUnit(k, ps[0], d);
    } else {
      assert LengthLaw(k, UnitX);
      SquareRootUnique(k.length(UnitX), 1.0);
    }
  }

  /** Normalising a unit vector leaves it as it is. */
  lemma NormalOfUnit(k: Kernel, u: Vec3)
    requires Unit(k, u)
    ensures Normal(k, u) == u
  {
  }

  /** The registrations the context makes on its radius handle when it exists. */
  datatype DragEvent = Started | Ongoing | Ended
  datatype Handler = OnRadiusDragStarted | OnRadiusPointDragOngoing | OnRadiusPointDragEnded
  datatype Registration = Registration(event: DragEvent, handler: Handler)

  function HandlerRegistrations(present: bool): (regs: seq<Registration>)
    ensures present ==> |regs| == 3 && regs[1] == Registration(Ongoing, OnRadiusPointDragOngoing)
    ensures !present ==> regs == []
  {
    if !present then []
    else [Registration(Started, OnRadiusDragStarted), Registration(Ongoing, OnRadiusPointDragOngoing),
          Registration(Ended, OnRadiusPointDragEnded)]
  }

  /** Disposing detaches exactly what construction attached. */
  lemma DisposeDetachesAttached(subs: multiset<Registration>, present: bool)
    ensures Unsubscribe(Subscribe(subs, HandlerRegistrations(present)), HandlerRegistrations(present)) == subs
  {
    UnsubscribeAfterSubscribe(subs, HandlerRegistrations(present));
  }
}

=== FILE: custom_part_context.dfy ===
/**
  CustomPartPluginFeatures.CustomPartPluginManipulationContext: a point handle per input point of
  the custom part, a line handle per consecutive pair, and a distance manipulator per line handle.
  Dragging or measuring previews the chain of profiles and, when it ends, submits the chain of
  points as the part's new polygon.
*/
module CustomPartContext {
  import opened Wrappers
  import opened Geometry
  import opened Host

  const DefaultProfileName := "HEA200"

  /**
    The context's handles: the point handles' points, the line handles' lines and the distance
    manipulators' segments. The manipulators keep their own copy of the segments, refreshed
    from the line handles only by UpdateContext.
  */
  datatype State = State(pointHandles: seq<Vec3>, lineHandles: seq<LineSegment>, manipulators: seq<LineSegment>)

  /** The lines between consecutive points: line i runs from point i to point i + 1. */
  function LineHandles(points: seq<Vec3>): (lines: seq<LineSegment>)
    ensures |points| == 0 ==> lines == []
    ensures |points| > 0 ==> |lines| == |points| - 1
    ensures forall i | 0 <= i < |lines| :: lines[i] == LineSegment(points[i], points[i + 1])
  {
    if |points| <= 1 then [] else seq(|points| - 1, i requires 0 <= i < |points| - 1 => LineSegment(points[i], points[i + 1]))
  }

  /** The start points of the lines, in order. */
  function Starts(lines: seq<LineSegment>): (ps: seq<Vec3>)
    ensures |ps| == |lines| && forall i | 0 <= i < |lines| :: ps[i] == lines[i].start
  {
    seq(|lines|, i requires 0 <= i < |lines| => lines[i].start)
  }

  /** A chain of two or more points is its lines' starts followed by the last line's end. */
  lemma LinesChainPoints(points: seq<Vec3>)
    requires |points| >= 2
    ensures var lines := LineHandles(points);
      Starts(lines) + [lines[|lines| - 1].end] == points
  {
    var lines := LineHandles(points);
    assert forall i | 0 <= i < |points| :: (Starts(lines) + [lines[|lines| - 1].end])[i] == points[i];
  }

  /**
    The constructor: handles for the input points (iterating a missing input throws), line
    handles between them, and a manipulator on each line handle's line.
  */
  function Create(input: Option<seq<Vec3>>): (r: Option<State>)
    ensures r.Some? <==> input.Some?
    ensures input.Some? ==>
      && r.value.pointHandles == input.value
      && r.value.lineHandles == LineHandles(input.value)
      && r.value.manipulators == r.value.lineHandles
  {
    match input
    case None => None
    case Some(points) =>
      var lines := LineHandles(points);
      Some(State(points, lines, lines))
  }

  /**
    UpdateContext: the point handles, then the line handles, then the manipulators, each
    overwritten by index. Each step throws when it has more values than handles, and the steps
    after it do not run. A missing input throws before anything changes.
  */
  function UpdateContext(s: State, input: Option<seq<Vec3>>): (r: Outcome<State>)
    ensures input.None? ==> r == Outcome(s, [], false)
    ensures input.Some? ==> r.effects == [] && (r.completed <==>
      && |input.value| <= |s.pointHandles|
      && |LineHandles(input.value)| <= |s.lineHandles|
      && |s.lineHandles| <= |s.manipulators|)
    ensures r.completed ==>
      && input.Some?
      && |r.state.pointHandles| == |s.pointHandles| && |r.state.lineHandles| == |s.lineHandles|
      && (forall i | 0 <= i < |s.pointHandles| ::
            r.state.pointHandles[i] == if i < |input.value| then input.value[i] else s.pointHandles[i])
      && (forall i | 0 <= i < |s.lineHandles| ::
            r.state.lineHandles[i] == if i < |LineHandles(input.value)| then LineHandles(input.value)[i] else s.lineHandles[i])
      && |r.state.manipulators| == |s.manipulators|
      && (forall i | 0 <= i < |s.lineHandles| :: r.state.manipulators[i] == r.state.lineHandles[i])
  {
    match input
    case None => Outcome(s, [], false)
    case Some(points) =>
      var ps := Overwrite(s.pointHandles, points);
      if !ps.completed then Outcome(s.(pointHandles := ps.state), [], false)
      else
        var ls := Overwrite(s.lineHandles, LineHandles(points));
        if !ls.completed then Outcome(s.(pointHandles := ps.state, lineHandles := ls.state), [], false)
        else
          var ms := Overwrite(s.manipulators, ls.state);
          Outcome(State(ps.state, ls.state, ms.state), [], ms.completed)
  }

  /**
    Updating a context from an input with as many points as the one it was created from gives
    the context created from the new input.
  */
  lemma UpdateAfterCreate(before: seq<Vec3>, after: seq<Vec3>)
    requires |after| == |before|
    ensures UpdateContext(Create(Some(before)).value, Some(after)) == Outcome(Create(Some(after)).value, [], true)
  {
    var s := Create(Some(before)).value;
    var r := UpdateContext(s, Some(after));
    assert r.state.pointHandles == after;
    assert r.state.lineHandles == LineHandles(after);
    assert r.state.manipulators == LineHandles(after);
  }

  /**
    The points of a chain rebuilt from the manipulators' start points: the point after segment
    `index` moves to `movedEnd` unless the segment is the last, and `lastEnd` closes the chain.
    None when the index is not one of the manipulators' (the indexing or Last throws).
  */
  function ChainPoints(manipulators: seq<LineSegment>, index: nat, movedEnd: Vec3, lastEnd: Vec3)
    : (r: Option<seq<Vec3>>)
    ensures r.Some? <==> index < |manipulators|
    ensures r.Some? ==>
      && |r.value| == |manipulators| + 1
      && r.value[|manipulators|] == lastEnd
      && (index + 1 < |manipulators| ==> r.value[index + 1] == movedEnd)
      && forall k | 0 <= k < |manipulators| && k != index + 1 :: r.value[k] == manipulators[k].start
  {
    if index >= |manipulators| then None
    else
      var starts := Starts(manipulators);
      var points := if index != |manipulators| - 1 then starts[index + 1 := movedEnd] else starts;
      Some(points + [lastEnd])
  }

  /**
    GetLineHandlePoints for the line handle at `index`, dragged to its current line: the dragged
    line's end replaces the next point, and the last line handle's end closes the chain.
  */
  function LineHandlePoints(s: State, index: nat): (r: Option<seq<Vec3>>)
    requires index < |s.lineHandles|
    ensures r.Some? <==> index < |s.manipulators|
    ensures r.Some? ==>
      && |r.value| == |s.manipulators| + 1
      && r.value[|s.manipulators|] == s.lineHandles[|s.lineHandles| - 1].end
      && (index + 1 < |s.manipulators| ==> r.value[index + 1] == s.lineHandles[index].end)
      && forall j | 0 <= j < |s.manipulators| && j != index + 1 :: r.value[j] == s.manipulators[j].start
  {
    ChainPoints(s.manipulators, index, s.lineHandles[index].end, s.lineHandles[|s.lineHandles| - 1].end)
  }

  /**
    Dragging line handle i of a fresh context moves exactly point i + 1 to the dragged line's
    end: the dragged line's start is read from the manipulator, which still holds the line as it
    was before the drag.
  */
  lemma LineDragMovesEnd(points: seq<Vec3>, i: nat, dragged: LineSegment)
    requires |points| >= 2 && i < |points| - 1
    ensures var s := Create(Some(points)).value;
      var moved := s.(lineHandles := s.lineHandles[i := dragged]);
      LineHandlePoints(moved, i) == Some(points[i + 1 := dragged.end])
  {
    var s := Create(Some(points)).value;
    var moved := s.(lineHandles := s.lineHandles[i := dragged]);
    var r := LineHandlePoints(moved, i).value;
    assert |r| == |points|;
    forall k | 0 <= k < |points| ensures r[k] == points[i + 1 := dragged.end][k] {
      if k == |points| - 1 {
        if i == |points| - 2 {
          assert r[k] == moved.lineHandles[i].end;
        } else {
          assert r[k] == s.lineHandles[|points| - 2].end;
        }
      }
    }
    assert r == points[i + 1 := dragged.end];
  }

  /**
    Dragging a line handle moves the whole line, but the point list leaves the line's start
    where it was: after the drag the submitted chain does not contain the dragged start.
  */
  lemma LineDragLeavesStartBehind(points: seq<Vec3>, i: nat, dragged: LineSegment)
    requires |points| >= 2 && i < |points| - 1 && dragged.start != points[i]
    ensures var s := Create(Some(points)).value;
      var moved := s.(lineHandles := s.lineHandles[i := dragged]);
      LineHandlePoints(moved, i).value[i] == points[i] != dragged.start
  {
    LineDragMovesEnd(points, i, dragged);
  }

  /** The chain for a line drag with both ends of the dragged line taken over. */
  function LineHandlePointsMovingBothEnds(s: State, index: nat): (r: Option<seq<Vec3>>)
    requires index < |s.lineHandles|
    ensures r.Some? <==> index < |s.manipulators|
    ensures r.Some? ==>
      && |r.value| == |s.manipulators| + 1
      && r.value[index] == s.lineHandles[index].start
      && (index + 1 < |s.manipulators| ==> r.value[index + 1] == s.lineHandles[index].end)
      && r.value[|s.manipulators|] == s.lineHandles[|s.lineHandles| - 1].end
      && forall j | 0 <= j < |s.manipulators| && j != index && j != index + 1 ::
           r.value[j] == s.manipulators[j].start
  {
    match LineHandlePoints(s, index)
    case None => None
    case Some(points) => Some(points[index := s.lineHandles[index].start])
  }

  /**
    Taking over both ends, dragging line handle i of a fresh context moves exactly points i and
    i + 1 to the dragged line's start and end, as a measure change of manipulator i does.
  */
  lemma LineDragMovesSegment(points: seq<Vec3>, i: nat, dragged: LineSegment)
    requires |points| >= 2 && i < |points| - 1
    ensures var s := Create(Some(points)).value;
      var moved := s.(lineHandles := s.lineHandles[i := dragged]);
      LineHandlePointsMovingBothEnds(moved, i) == Some(points[i := dragged.start][i + 1 := dragged.end])
  {
    LineDragMovesEnd(points, i, dragged);
    assert points[i + 1 := dragged.end][i := dragged.start] == points[i := dragged.start][i + 1 := dragged.end];
  }

  /**
    OnMeasureChanged with a DistanceManipulator sender at `index`: the chain from the
    manipulators with the sender's own segment end as the moved point. A sender that is not a
    DistanceManipulator is ignored (None).
  */
  function MeasuredPoints(s: State, sender: Option<nat>): (r: Option<seq<Vec3>>)
    requires sender.Some? ==> sender.value < |s.manipulators|
    ensures r.Some? <==> sender.Some?
    ensures r.Some? ==>
      var i := sender.value;
      var n := |s.manipulators|;
      && |r.value| == n + 1
      && r.value[n] == s.manipulators[n - 1].end
      && (i + 1 < n ==> r.value[i + 1] == s.manipulators[i].end)
      && forall j | 0 <= j < n && j != i + 1 :: r.value[j] == s.manipulators[j].start
  {
    match sender
    case None => None
    case Some(index) =>
      ChainPoints(s.manipulators, index, s.manipulators[index].end, s.manipulators[|s.manipulators| - 1].end)
  }

  /**
    Changing the measure of manipulator i of a fresh context moves both ends of its segment:
    point i to the segment's start and point i + 1 to its end.
  */
  lemma MeasureMovesSegment(points: seq<Vec3>, i: nat, changed: LineSegment)
    requires |points| >= 2 && i < |points| - 1
    ensures var s := Create(Some(points)).value;
      var moved := s.(manipulators := s.manipulators[i := changed]);
      MeasuredPoints(moved, Some(i)) == Some(points[i := changed.start][i + 1 := changed.end])
  {
    var s := Create(Some(points)).value;
    var moved := s.(manipulators := s.manipulators[i := changed]);
    var r := MeasuredPoints(moved, Some(i)).value;
    assert |r| == |points|;
    forall k | 0 <= k < |points| ensures r[k] == points[i := changed.start][i + 1 := changed.end][k] {
      if k == |points| - 1 {
        if i == |points| - 2 {
          assert r[k] == moved.manipulators[i].end;
        } else {
          assert r[k] == s.manipulators[|points| - 2].end;
        }
      }
    }
    assert r == points[i := changed.start][i + 1 := changed.end];
  }

  /** The profile of the preview: the Profile attribute when it is set and not empty, HEA200 otherwise. */
  function PreviewProfile(applied: Option<string>): (p: string)
    ensures applied.Some? && applied.value != "" ==> p == applied.value
    ensures applied.None? || applied.value == "" ==> p == "HEA200"
  {
    match applied
    case Some(name) => if name != "" then name else DefaultProfileName
    case None => DefaultProfileName
  }

  /** DrawGraphics: clear, then a profile along each pair of consecutive points. */
  function DrawGraphics(points: seq<Vec3>, applied: Option<string>): (es: seq<Effect>)
    ensures |es| >= 1 && es[0] == ClearGraphics
    ensures |points| <= 1 ==> es == [ClearGraphics]
    ensures |points| > 1 ==> |es| == |points|
    ensures forall i | 1 <= i < |es| :: es[i] == DrawProfile(PreviewProfile(applied), points[i - 1], points[i])
  {
    [ClearGraphics] + seq(|LineHandles(points)|, i requires 0 <= i < |LineHandles(points)| =>
      DrawProfile(PreviewProfile(applied), LineHandles(points)[i].start, LineHandles(points)[i].end))
  }

  /** The preview draws a profile along exactly the lines the line handles of the points would have. */
  lemma PreviewAlongLineHandles(points: seq<Vec3>, applied: Option<string>)
    ensures var es := DrawGraphics(points, applied);
      |es| == |LineHandles(points)| + 1
      && forall i | 0 <= i < |LineHandles(points)| ::
           es[i + 1] == DrawProfile(PreviewProfile(applied), LineHandles(points)[i].start, LineHandles(points)[i].end)
  {
  }

  /**
    ModifyInput: clear the graphics; when the part has input points, submit the given points in
    order as its new polygon.
  */
  function ModifyInput(points: seq<Vec3>, original: Option<seq<Vec3>>): (r: Outcome<()>)
    ensures r.completed && |r.effects| >= 1 && r.effects[0] == ClearGraphics
    ensures original.None? <==> r.effects == [ClearGraphics]
    ensures original.Some? ==> r.effects == [ClearGraphics, ModifyPartInput(points)]
  {
    if original.None? then Outcome((), [ClearGraphics], true)
    else Outcome((), [ClearGraphics, ModifyPartInput(points)], true)
  }

  /** A handle event of the context. */
  datatype HandleEvent =
    | PointDragOngoing | PointDragEnded
    | LineDragOngoing(line: nat) | LineDragEnded(line: nat)
    | MeasureChangeOngoing | MeasureChanged(sender: Option<nat>)

  /** Whether the event's sender is one of the context's handles. */
  predicate FromContext(s: State, ev: HandleEvent) {
    match ev
    case LineDragOngoing(i) => i < |s.lineHandles|
    case LineDragEnded(i) => i < |s.lineHandles|
    case MeasureChanged(sender) => sender.Some? ==> sender.value < |s.manipulators|
    case _ => true
  }

  /**
    The handlers: the ongoing events preview the chain, the ended and changed events submit it;
    a throwing chain read leaves nothing but an incomplete run.
  */
  function Handle(s: State, ev: HandleEvent, applied: Option<string>, original: Option<seq<Vec3>>)
    : (r: Outcome<()>)
    requires FromContext(s, ev)
    ensures ev == MeasureChanged(None) ==> r == Outcome((), [], true)
    ensures ev.PointDragEnded? ==> r == ModifyInput(s.pointHandles, original)
    ensures ev.PointDragOngoing? || ev.MeasureChangeOngoing? ==> r.effects == DrawGraphics(s.pointHandles, applied)
  {
    match ev
    case PointDragOngoing => Outcome((), DrawGraphics(s.pointHandles, applied), true)
    case PointDragEnded => ModifyInput(s.pointHandles, original)
    case MeasureChangeOngoing => Outcome((), DrawGraphics(s.pointHandles, applied), true)
    case LineDragOngoing(i) =>
      var points := LineHandlePoints(s, i);
      if points.None? then Outcome((), [], false) else Outcome((), DrawGraphics(points.value, applied), true)
    case LineDragEnded(i) =>
      var points := LineHandlePoints(s, i);
      if points.None? then Outcome((), [], false) else ModifyInput(points.value, original)
    case MeasureChanged(sender) =>
      var points := MeasuredPoints(s, sender);
      if points.None? then Outcome((), [], sender.None?) else ModifyInput(points.value, original)
  }

  /**
    Ending a drag of line handle i of a fresh part submits the part's points with point i + 1 at
    the dragged line's end.
  */
  lemma LineDragEndedSubmits(points: seq<Vec3>, i: nat, dragged: LineSegment)
    requires |points| >= 2 && i < |points| - 1
    ensures var s := Create(Some(points)).value;
      var moved := s.(lineHandles := s.lineHandles[i := dragged]);
      Handle(moved, LineDragEnded(i), None, Some(points)).effects
        == [ClearGraphics, ModifyPartInput(points[i + 1 := dragged.end])]
  {
    LineDragMovesEnd(points, i, dragged);
  }

  /** The registrations of the context: two per point handle, per line handle and per manipulator. */
  datatype Registration =
    | OnPoint(handle: nat, ended: bool)
    | OnLine(handle: nat, ended: bool)
    | OnManipulator(manipulator: nat, changed: bool)

  function PairsFor(count: nat, make: nat -> bool -> Registration): (regs: seq<Registration>)
    ensures |regs| == 2 * count
    ensures forall i | 0 <= i < count :: regs[2 * i] == make(i)(false) && regs[2 * i + 1] == make(i)(true)
  {
    if count == 0 then [] else PairsFor(count - 1, make) + [make(count - 1)(false), make(count - 1)(true)]
  }

  /** What the constructor attaches for a state. */
  function Registrations(s: State): (regs: seq<Registration>)
    ensures |regs| == 2 * (|s.pointHandles| + |s.lineHandles| + |s.manipulators|)
  {
    PairsFor(|s.pointHandles|, i => e => OnPoint(i, e))
      + PairsFor(|s.lineHandles|, i => e => OnLine(i, e))
      + PairsFor(|s.manipulators|, i => e => OnManipulator(i, e))
  }

  /** Dispose(disposing): detaches every registration, but only when disposing. */
  function Dispose(subs: multiset<Registration>, s: State, disposing: bool): (r: multiset<Registration>)
    ensures !disposing ==> r == subs
    ensures r <= subs
  {
    if disposing then Unsubscribe(subs, Registrations(s)) else subs
  }

  /** Disposing a context detaches exactly what its constructor attached. */
  lemma DisposeDetachesAttached(subs: multiset<Registration>, input: seq<Vec3>)
    ensures var s := Create(Some(input)).value;
      Dispose(Subscribe(subs, Registrations(s)), s, true) == subs
  {
    var s := Create(Some(input)).value;
    UnsubscribeAfterSubscribe(subs, Registrations(s));
  }
}

=== FILE: custom_part_creation.dfy ===
/**
  CustomPartPluginFeatures.ExampleCustomPartCreationFeature: a picking session for two points
  with a profile preview, committing the picked points as the custom part's polygon when the
  session ends. As written it keeps two lists, and the one the session end commits is never
  added to.
*/
module CustomPartCreation {
  import opened Wrappers
  import opened Geometry
  import opened Host
  import opened Picking
  import BeamCreation

  /**
    The feature's session state as written: the hit points of the valid picks, and the list of
    picked objects (by their hit points) that Refresh clears, undo takes from and the session
    end commits.
  */
  datatype State = State(pickedPoints: seq<Vec3>, pickedObjects: seq<Vec3>)

  /** OnObjectPicked: a valid pick's hit point goes to pickedPoints, and only there. */
  function PickAsWritten(s: State, e: PickArgs): (r: State)
    ensures r.pickedObjects == s.pickedObjects
    ensures r.pickedPoints == Pick(s.pickedPoints, e)
  {
    s.(pickedPoints := Pick(s.pickedPoints, e))
  }

  /** Refresh: clears pickedObjects; pickedPoints is kept. */
  function RefreshAsWritten(s: State): (r: State)
    ensures r.pickedObjects == [] && r.pickedPoints == s.pickedPoints
  {
    s.(pickedObjects := [])
  }

  /** OnPickUndone: removes the last picked object, with no guard: on an empty list RemoveAt throws. */
  function UndoAsWritten(s: State): (r: Option<State>)
    ensures r.None? <==> s.pickedObjects == []
    ensures r.Some? ==>
      && r.value.pickedPoints == s.pickedPoints
      && r.value.pickedObjects + [s.pickedObjects[|s.pickedObjects| - 1]] == s.pickedObjects
  {
    if |s.pickedObjects| == 0 then None
    else Some(s.(pickedObjects := s.pickedObjects[..|s.pickedObjects| - 1]))
  }

  function StepAsWritten(s: State, ev: SessionEvent): Option<State> {
    match ev
    case Picked(e) => Some(PickAsWritten(s, e))
    case Undone => UndoAsWritten(s)
    case Refreshed => Some(RefreshAsWritten(s))
  }

  /** The state after a run of session events; None once a handler throws. */
  function ReplayAsWritten(s: State, evs: seq<SessionEvent>): Option<State>
    decreases |evs|
  {
    if |evs| == 0 then Some(s)
    else
      match StepAsWritten(s, evs[0])
      case None => None
      case Some(next) => ReplayAsWritten(next, evs[1..])
  }

  /** pickedObjects never grows: whatever happens, it stays a prefix of what it was. */
  lemma {:induction false} PickedObjectsNeverGrow(s: State, evs: seq<SessionEvent>)
    requires ReplayAsWritten(s, evs).Some?
    ensures var objects := ReplayAsWritten(s, evs).value.pickedObjects;
      |objects| <= |s.pickedObjects| && objects == s.pickedObjects[..|objects|]
    decreases |evs|
  {
    if |evs| > 0 {
      var next := StepAsWritten(s, evs[0]).value;
      PickedObjectsNeverGrow(next, evs[1..]);
      if evs[0].Undone? {
        assert next.pickedObjects == s.pickedObjects[..|s.pickedObjects| - 1];
      }
    }
  }

  /**
    OnPickSessionEnded as written: clear the graphics, and commit the picked objects' hit points
    as the part's polygon when there are exactly two of them.
  */
  function SessionEndAsWritten(s: State): (es: seq<Effect>)
    ensures |es| >= 1 && es[0] == ClearGraphics
    ensures |es| == 2 <==> |s.pickedObjects| == 2
    ensures |s.pickedObjects| == 2 ==> es[1] == CommitPartInput(s.pickedObjects)
  {
    if |s.pickedObjects| == 2 then [ClearGraphics, CommitPartInput(s.pickedObjects)]
    else [ClearGraphics]
  }

  /**
    From the feature's initial state no run of session events leads to a commit: the session
    end only ever clears the graphics, however many points were picked.
  */
  lemma NeverCommits(evs: seq<SessionEvent>)
    requires ReplayAsWritten(State([], []), evs).Some?
    ensures SessionEndAsWritten(ReplayAsWritten(State([], []), evs).value) == [ClearGraphics]
  {
    PickedObjectsNeverGrow(State([], []), evs);
  }

  /** Two valid picks from the initial state leave pickedPoints with both and pickedObjects empty. */
  lemma TwoPicksCommitNothing(p1: Vec3, p2: Vec3)
    ensures var s := ReplayAsWritten(State([], []), [Picked(PickArgs(p1, true)), Picked(PickArgs(p2, true))]);
      && s == Some(State([p1, p2], []))
      && SessionEndAsWritten(s.value) == [ClearGraphics]
  {
    var evs := [Picked(PickArgs(p1, true)), Picked(PickArgs(p2, true))];
    var s1 := State([p1], []);
    assert [] + [p1] == [p1] && [p1] + [p2] == [p1, p2];
    assert StepAsWritten(State([], []), evs[0]) == Some(s1);
    assert StepAsWritten(s1, evs[1]) == Some(State([p1, p2], []));
    assert evs[1..][1..] == [];
    assert ReplayAsWritten(s1, evs[1..]) == ReplayAsWritten(State([p1, p2], []), []);
  }

  /**
    OnPickSessionEnded with one picked list, as the session is evidently meant to work and as
    the beam creation feature keeps it: the list valid picks append to, undo takes from and
    Refresh clears is the one committed when it holds two points.
  */
  function SessionEnd(picked: seq<Vec3>): (es: seq<Effect>)
    ensures |es| >= 1 && es[0] == ClearGraphics
    ensures |es| == 2 <==> |picked| == 2
    ensures |picked| == 2 ==> es[1] == CommitPartInput(picked)
  {
    if |picked| == 2 then [ClearGraphics, CommitPartInput(picked)] else [ClearGraphics]
  }

  /**
    With one picked list, a session of valid picks commits exactly when it picked two points,
    and commits them in the order they were picked.
  */
  lemma PicksThenSessionEndCommit(evs: seq<SessionEvent>)
    requires OnlyPicks(evs)
    ensures var picked := Replay([], evs);
      && picked == ValidHits(evs)
      && (|ValidHits(evs)| == 2 <==> SessionEnd(picked) == [ClearGraphics, CommitPartInput(ValidHits(evs))])
  {
    PicksAppendValidHits([], evs);
    assert [] + ValidHits(evs) == ValidHits(evs);
  }

  /**
    OnInputValidationRequested: the input range field is never assigned, so reading its minimum
    throws (None) unless a range is given; with a range, the shared continuation test.
  */
  function ValidateInput(count: nat, range: Option<int>, continueSession: bool): (r: Option<bool>)
    ensures r.Some? <==> range.Some?
    ensures range.Some? && !continueSession ==> (r.value <==> count < range.value || count < 2)
    ensures range.Some? && continueSession ==> r.value
  {
    match range
    case None => None
    case Some(minimum) => Some(Validate(count, minimum, continueSession))
  }

  /**
    OnPreviewRequested: the shared profile preview from the last of pickedPoints; the plugin's
    default profile name is a parameter.
  */
  function Preview(s: State, hit: Vec3, attrs: map<string, Applied>, defaultProfile: string): (es: seq<Effect>)
    ensures |es| >= 1 && es[0] == ClearGraphics
    ensures |s.pickedPoints| == 0 <==> es == [ClearGraphics]
    ensures |s.pickedPoints| > 0 ==> es[1].DrawProfile? && es[1].from == s.pickedPoints[|s.pickedPoints| - 1]
  {
    ProfilePreview(s.pickedPoints, hit, attrs, defaultProfile)
  }

  /** AttachHandlers and DetachHandlers: one registration on each of the six events, as in the beam feature. */
  function AttachHandlers(tool: Option<multiset<ToolEvent>>): Option<multiset<ToolEvent>> {
    BeamCreation.AttachHandlers(tool)
  }

  function DetachHandlers(tool: Option<multiset<ToolEvent>>): Option<multiset<ToolEvent>> {
    BeamCreation.DetachHandlers(tool)
  }

  /** Detaching undoes attaching, and each attaches one handler to every event of the tool. */
  lemma AttachDetachInverse(tool: Option<multiset<ToolEvent>>)
    ensures DetachHandlers(AttachHandlers(tool)) == tool
    ensures AttachHandlers(tool).Some? <==> tool.Some?
    ensures tool.Some? ==> forall e :: AttachHandlers(tool).value[e] == tool.value[e] + 1
  {
    BeamCreation.AttachDetachInverse(tool);
  }
}

=== FILE: data_fetcher.dfy ===
/**
  ComplexTransitionSectionPluginFeatures.DataFetcher: reads a transition section component back
  into the numbers and the frame its geometry is built from, with the plugin's defaults where
  an attribute or the input points are missing.
*/
module DataFetcher {
  import opened Wrappers
  import opened Geometry
  import opened Host
  import opened TransitionSectionGeometry
  import opened TransitionSectionPlugin

  /** GetRadius: the stored circle radius, 1000 when absent. */
  function Radius(c: Component): (r: real)
    ensures CircleRadiusKey !in c.numbers ==> r == 1000.0
    ensures CircleRadiusKey in c.numbers ==> r == c.numbers[CircleRadiusKey]
  {
    GetNumber(c, CircleRadiusKey, DefaultCircleRadius)
  }

  /** GetBaseWidth: the stored rectangle width, 3000 when absent. */
  function BaseWidth(c: Component): (r: real)
    ensures RectangleWidthKey !in c.numbers ==> r == 3000.0
    ensures RectangleWidthKey in c.numbers ==> r == c.numbers[RectangleWidthKey]
  {
    GetNumber(c, RectangleWidthKey, DefaultRectangleWidth)
  }

  /** GetBaseHeight: the stored rectangle height, 6000 when absent. */
  function BaseHeight(c: Component): (r: real)
    ensures RectangleHeightKey !in c.numbers ==> r == 6000.0
    ensures RectangleHeightKey in c.numbers ==> r == c.numbers[RectangleHeightKey]
  {
    GetNumber(c, RectangleHeightKey, DefaultRectangleHeight)
  }

  /** What the manipulation handlers write is what the fetcher reads back. */
  lemma FetchAfterWrite(c: Component, value: real)
    ensures Radius(SetNumber(c, CircleRadiusKey, value)) == value
    ensures BaseWidth(SetNumber(c, RectangleWidthKey, value)) == value
    ensures BaseHeight(SetNumber(c, RectangleHeightKey, value)) == value
    ensures BaseWidth(SetNumber(c, RectangleHeightKey, value)) == BaseWidth(c)
    ensures BaseHeight(SetNumber(c, RectangleWidthKey, value)) == BaseHeight(c)
  {
  }

  /**
    GetDefinitionPoints: the points of every item in order, nothing for a null input. The loop
    casts every entry to InputItem, so an entry of another type throws.
  */
  function DefinitionPoints(input: Option<seq<InputEntry>>): (r: Option<seq<Vec3>>)
    ensures input.None? ==> r == Some([])
    ensures input.Some? ==> (r.Some? <==> forall i | 0 <= i < |input.value| :: input.value[i].Item?)
  {
    match input
    case None => Some([])
    case Some(entries) => FlattenItems(entries)
  }

  function FlattenItems(entries: seq<InputEntry>): (r: Option<seq<Vec3>>)
    ensures r.Some? <==> forall i | 0 <= i < |entries| :: entries[i].Item?
  {
    if |entries| == 0 then Some([])
    else if entries[0].NotAnItem? then None
    else
      var rest :- FlattenItems(entries[1..]);
      assert forall i | 1 <= i < |entries| :: entries[i] == entries[1..][i - 1];
      Some(ItemPoints(entries[0].item) + rest)
  }

  /** Flattening concatenates: the points of two inputs in a row are the points of each, in a row. */
  lemma {:induction false} FlattenAppend(a: seq<InputEntry>, b: seq<InputEntry>)
    requires forall i | 0 <= i < |a| :: a[i].Item?
    requires forall i | 0 <= i < |b| :: b[i].Item?
    ensures FlattenItems(a + b) == Some(FlattenItems(a).value + FlattenItems(b).value)
  {
    if |a| == 0 {
      assert a + b == b;
      assert FlattenItems(a) == Some([]);
      assert FlattenItems(b).Some?;
      assert [] + FlattenItems(b).value == FlattenItems(b).value;
    } else {
      assert (a + b)[0] == a[0];
      assert (a + b)[1..] == a[1..] + b;
      assert forall i | 0 <= i < |a| - 1 :: a[1..][i] == a[i + 1];
      FlattenAppend(a[1..], b);
      var head := ItemPoints(a[0].item);
      assert FlattenItems(a).value == head + FlattenItems(a[1..]).value;
      assert FlattenItems(a + b).value == head + FlattenItems(a[1..] + b).value;
      assert head + (FlattenItems(a[1..]).value + FlattenItems(b).value)
        == (head + FlattenItems(a[1..]).value) + FlattenItems(b).value;
    }
  }

  /**
    Items that carry no points (object items, two-point and polygon items without a list)
    contribute nothing.
  */
  lemma PointlessItemsSkipped(a: seq<InputEntry>, item: InputItem, b: seq<InputEntry>)
    requires item.OneObject? || item.NObjects? || (item.TwoPoints? && item.points.None?)
      || (item.PolygonItem? && item.points.None?)
    requires forall i | 0 <= i < |a| :: a[i].Item?
    requires forall i | 0 <= i < |b| :: b[i].Item?
    ensures FlattenItems(a + [Item(item)] + b) == FlattenItems(a + b)
  {
    var x := [Item(item)];
    assert ItemPoints(item) == [];
    SingleItem(item);
    assert forall i | 0 <= i < |a + x| :: (a + x)[i].Item?;
    FlattenAppend(a, x);
    FlattenAppend(a + x, b);
    FlattenAppend(a, b);
    assert a + x + b == (a + x) + b;
    assert FlattenItems(a).value + [] == FlattenItems(a).value;
  }

  lemma SingleItem(item: InputItem)
    ensures FlattenItems([Item(item)]) == Some(ItemPoints(item))
  {
    var x := [Item(item)];
    assert x[1..] == [];
    assert ItemPoints(item) + [] == ItemPoints(item);
  }

  /** The input a creation feature commits gives back exactly the picked points. */
  lemma PolygonInputPoints(points: seq<Vec3>)
    ensures DefinitionPoints(Some(PolygonInput(points))) == Some(points)
  {
    var x := PolygonInput(points);
    assert x[1..] == [];
    assert FlattenItems(x[1..]) == Some([]);
    assert ItemPoints(x[0].item) == points;
    assert points + [] == points;
  }

  /**
    GetSectionLength: the distance between the first two definition points, or the default
    section length with fewer than two; later points do not matter.
  */
  function SectionLength(k: Kernel, input: Option<seq<InputEntry>>): (r: Option<real>)
    ensures var ps := DefinitionPoints(input);
      && (r.Some? <==> ps.Some?)
      && (ps.Some? && |ps.value| < 2 ==> r == Some(1000.0))
      && (ps.Some? && |ps.value| >= 2 ==> r == Some(Distance(k, ps.value[0], ps.value[1])))
  {
    var points :- DefinitionPoints(input);
    if |points| >= 2 then Some(Distance(k, points[0], points[1])) else Some(DefaultSectionLength)
  }

  /**
    GetSectionAlignedCoordsys: the base frame at the first definition point with the normal
    towards the second, or the default coordinate system with fewer than two points.
  */
  function SectionCoordsys(k: Kernel, input: Option<seq<InputEntry>>): (r: Option<CoordSys>)
    ensures var ps := DefinitionPoints(input);
      && (r.Some? <==> ps.Some?)
      && (ps.Some? && |ps.value| < 2 ==> r == Some(DefaultCoordSys))
      && (ps.Some? && |ps.value| >= 2 ==> r == Some(BaseCoordsys(k, ps.value[0], Sub(ps.value[1], ps.value[0]))))
      && (ps.Some? && |ps.value| >= 2 ==> r.value.origin == ps.value[0])
  {
    var points :- DefinitionPoints(input);
    if |points| >= 2 then Some(BaseCoordsys(k, points[0], Sub(points[1], points[0])))
    else Some(DefaultCoordSys)
  }

  /**
    With two distinct first points, the section frame sits at the first point and its plane lies
    across the direction to the second: both axes are unit vectors perpendicular to p1 − p0, and
    axis X × axis Y points from p0 towards p1.
  */
  lemma SectionFrameAcrossPicks(k: Kernel, input: Option<seq<InputEntry>>)
    requires Lawful(k) && FrameReadable(input) && |DefinitionPoints(input).value| >= 2
    ensures var ps := DefinitionPoints(input).value;
      var d := Sub(ps[1], ps[0]);
      var frame := SectionCoordsys(k, input).value;
      && frame.origin == ps[0]
      && Unit(k, frame.axisX) && Unit(k, frame.axisY)
      && Dot(frame.axisX, d) == 0.0 && Dot(frame.axisY, d) == 0.0 && Dot(frame.axisX, frame.axisY) == 0.0
      && Normal(k, Cross(frame.axisX, frame.axisY)) == Normal(k, d)
  {
    var ps := DefinitionPoints(input).value;
    var d := Sub(ps[1], ps[0]);
    assert d != Zero;
    BaseCoordsysOrthogonal(k, ps[0], d);
    BaseCoordsysUnit(k, ps[0], d);
    BaseFrameNormal(k, ps[0], d);
  }

  /** Everything the manipulation contexts read from a component. */
  datatype SectionData = SectionData(
    height: real, width: real, radius: real, length: real, frame: CoordSys)

  /** The fetches a context makes, together; None when reading the input throws. */
  function Fetch(k: Kernel, c: Component): (r: Option<SectionData>)
    ensures r.Some? <==> DefinitionPoints(c.input).Some?
    ensures r.Some? ==>
      && r.value.height == BaseHeight(c) && r.value.width == BaseWidth(c)
      && r.value.radius == Radius(c)
      && Some(r.value.length) == SectionLength(k, c.input)
      && Some(r.value.frame) == SectionCoordsys(k, c.input)
  {
    match DefinitionPoints(c.input)
    case None => None
    case Some(_) =>
      Some(SectionData(BaseHeight(c), BaseWidth(c), Radius(c),
                       SectionLength(k, c.input).value, SectionCoordsys(k, c.input).value))
  }

  /**
    A component committed by the creation feature from two picks reads back its length as the
    distance of the picks and its frame at the first pick, its base plane across their difference.
  */
  lemma CommittedSectionReadsBack(k: Kernel, c: Component, p0: Vec3, p1: Vec3)
    requires Lawful(k) && c.input == Some(PolygonInput([p0, p1]))
    ensures var d := Fetch(k, c);
      && d.Some?
      && d.value.length == Distance(k, p0, p1)
      && d.value.frame == BaseCoordsys(k, p0, Sub(p1, p0))
  {
    PolygonInputPoints([p0, p1]);
  }

  /** The normal of the base plane the contexts pass to the geometry: axis X × axis Y. */
  function FrameNormal(frame: CoordSys): Vec3 {
    Cross(frame.axisX, frame.axisY)
  }

  /** An input the contexts can work with: it reads, and its first two points are distinct. */
  predicate FrameReadable(input: Option<seq<InputEntry>>) {
    var ps := DefinitionPoints(input);
    ps.Some? && (|ps.value| >= 2 ==> ps.value[0] != ps.value[1])
  }

  /**
    A readable input gives a frame whose normal is not zero; with two equal first points the
    frame collapses.
  */
  lemma FrameNormalNonZero(k: Kernel, input: Option<seq<InputEntry>>)
    requires Lawful(k) && FrameReadable(input)
    ensures SectionCoordsys(k, input).Some?
    ensures FrameNormal(SectionCoordsys(k, input).value) != Zero
  {
    var ps := DefinitionPoints(input).value;
    if |ps| >= 2 {
      var d := Sub(ps[1], ps[0]);
      assert d != Zero;
      assert SectionCoordsys(k, input) == Some(BaseCoordsys(k, ps[0], d));
      BaseCoordsysUnit(k, ps[0], d);
    } else {
      assert FrameNormal(DefaultCoordSys) == UnitZ;
    }
  }
}

=== FILE: geometry.dfy ===
/**
  Points, vectors and the few services of the host's geometry library that the plugins use
  (Tekla.Structures.Geometry3d): vector algebra, lengths and distances, unit vectors, projections
  onto lines and planes, and Math.Round.

  Doubles are modelled as `real`. Lengths need a square root, which is not computed here: the host's
  length function, its rounding function and its DISTANCE_EPSILON are bundled into a `Kernel`
  value, and `Lawful` states the only facts the proofs use about them.
*/
module Geometry {

  /** A point or a vector: the host uses the same three coordinates for both. */
  datatype Vec3 = Vec3(x: real, y: real, z: real)

  const Zero := Vec3(0.0, 0.0, 0.0)
  const UnitX := Vec3(1.0, 0.0, 0.0)
  const UnitY := Vec3(0.0, 1.0, 0.0)
  const UnitZ := Vec3(0.0, 0.0, 1.0)

  function Add(a: Vec3, b: Vec3): Vec3 {
    Vec3(a.x + b.x, a.y + b.y, a.z + b.z)
  }

  function Sub(a: Vec3, b: Vec3): Vec3 {
    Vec3(a.x - b.x, a.y - b.y, a.z - b.z)
  }

  function Scale(c: real, v: Vec3): Vec3 {
    Vec3(c * v.x, c * v.y, c * v.z)
  }

  function Dot(a: Vec3, b: Vec3): real {
    a.x * b.x + a.y * b.y + a.z * b.z
  }

  function Cross(a: Vec3, b: Vec3): Vec3 {
    Vec3(a.y * b.z - a.z * b.y, a.z * b.x - a.x * b.z, a.x * b.y - a.y * b.x)
  }

  function Abs(r: real): real {
    if r < 0.0 then -r else r
  }

  /**
    The host's geometry services: `length` is Vector.GetLength, `round` is Math.Round and
    `epsilon` is GeometryConstants.DISTANCE_EPSILON.
  */
  datatype Kernel = Kernel(length: Vec3 -> real, round: real -> int, epsilon: real)

  /**
    What the proofs assume of the host: lengths are the non-negative square roots of the squared
    Euclidean norm, rounding lands within one half of its argument (its tie-breaking is left
    open), and the distance epsilon is a small positive tolerance, below one unit of length.
  */
  ghost predicate Lawful(k: Kernel) {
    && 0.0 < k.epsilon < 1.0
    && (forall v :: LengthLaw(k, v))
    && (forall r :: RoundLaw(k, r))
  }

  /** The length of `v` is the non-negative square root of its squared norm. */
  ghost predicate LengthLaw(k: Kernel, v: Vec3) {
    k.length(v) >= 0.0 && k.length(v) * k.length(v) == Dot(v, v)
  }

  /** Rounding `r` moves it by at most one half. */
  ghost predicate RoundLaw(k: Kernel, r: real) {
    -0.5 <= k.round(r) as real - r <= 0.5
  }

  /** Distance.PointToPoint. */
  function Distance(k: Kernel, a: Vec3, b: Vec3): real {
    k.length(Sub(b, a))
  }

  /** Vector.GetNormal: the unit vector along `v`; the zero vector is returned unchanged. */
  function Normal(k: Kernel, v: Vec3): Vec3 {
    var len := k.length(v);
    if len == 0.0 then v else Scale(1.0 / len, v)
  }

  /**
    Projection.PointToLine: the foot of the perpendicular from `p` to the line through `s` and
    `e`; a line of zero direction projects everything onto `s`.
  */
  function ProjectToLine(p: Vec3, s: Vec3, e: Vec3): Vec3 {
    if e == s then s
    else
      var d := Sub(e, s);
      DotSelfPositive(d);
      Add(s, Scale(Dot(Sub(p, s), d) / Dot(d, d), d))
  }

  /** Distance.PointToLine. */
  function DistanceToLine(k: Kernel, p: Vec3, s: Vec3, e: Vec3): real {
    k.length(Sub(p, ProjectToLine(p, s, e)))
  }

  /** Projection.PointToPlane for the plane through `origin` with normal `n`. */
  function ProjectToPlane(k: Kernel, p: Vec3, origin: Vec3, n: Vec3): Vec3 {
    var u := Normal(k, n);
    Sub(p, Scale(Dot(Sub(p, origin), u), u))
  }

  /** Two non-negative reals with equal squares are equal. */
  lemma SquareRootUnique(a: real, b: real)
    requires a >= 0.0 && b >= 0.0 && a * a == b * b
    ensures a == b
  {
    if a < b {
      StrictlyIncreasingSquare(a, b);
    } else if b < a {
      StrictlyIncreasingSquare(b, a);
    }
  }

  lemma StrictlyIncreasingSquare(a: real, b: real)
    requires 0.0 <= a < b
    ensures a * a < b * b
  {
    var aa, ab, bb := a * a, a * b, b * b;
    assert aa <= ab;
    assert ab < bb;
  }

  /** A sum of three squares vanishes only when every term does. */
  lemma SumOfSquaresZero(a: real, b: real, c: real)
    requires a * a + b * b + c * c == 0.0
    ensures a == 0.0 && b == 0.0 && c == 0.0
  {
    SquareNonNegative(a);
    SquareNonNegative(b);
    SquareNonNegative(c);
    var aa, bb, cc := a * a, b * b, c * c;
    assert aa + bb + cc == 0.0;
    assert aa == 0.0 && bb == 0.0 && cc == 0.0;
    SquareZero(a);
    SquareZero(b);
    SquareZero(c);
  }

  lemma SquareNonNegative(a: real)
    ensures a * a >= 0.0
  {
    if a < 0.0 {
      var m := -a;
      assert a * a == m * m;
      StrictlyIncreasingSquare(0.0, m);
    } else if a > 0.0 {
      StrictlyIncreasingSquare(0.0, a);
    }
  }

  lemma SquareZero(a: real)
    requires a * a == 0.0
    ensures a == 0.0
  {
    if a < 0.0 {
      var m := -a;
      assert a * a == m * m;
      StrictlyIncreasingSquare(0.0, m);
    } else if a > 0.0 {
      StrictlyIncreasingSquare(0.0, a);
    }
  }

  /** The length of `v` is zero exactly for the zero vector. */
  lemma LengthZeroIffZero(k: Kernel, v: Vec3)
    requires Lawful(k)
    ensures k.length(v) == 0.0 <==> v == Zero
  {
    assert LengthLaw(k, v);
    var len := k.length(v);
    assert len * len == v.x * v.x + v.y * v.y + v.z * v.z;
    if len == 0.0 {
      assert len * len == 0.0;
      SumOfSquaresZero(v.x, v.y, v.z);
    } else if v == Zero {
      assert len * len == 0.0;
      SquareZero(len);
    }
  }

  /** Lengths scale with the absolute value of the factor. */
  lemma LengthOfScaled(k: Kernel, c: real, v: Vec3)
    requires Lawful(k)
    ensures k.length(Scale(c, v)) == Abs(c) * k.length(v)
  {
    assert LengthLaw(k, v) && LengthLaw(k, Scale(c, v));
    var a := k.length(Scale(c, v));
    var b := Abs(c) * k.length(v);
    assert a * a == c * c * Dot(v, v);
    assert b * b == Abs(c) * Abs(c) * (k.length(v) * k.length(v));
    assert Abs(c) * Abs(c) == c * c;
    SquareRootUnique(a, b);
  }

  /** A non-zero vector is its length times its unit vector, and the unit vector has length one. */
  lemma NormalOfNonZero(k: Kernel, v: Vec3)
    requires Lawful(k) && k.length(v) > 0.0
    ensures Scale(k.length(v), Normal(k, v)) == v
    ensures k.length(Normal(k, v)) == 1.0
  {
    var len := k.length(v);
    assert Normal(k, v) == Scale(1.0 / len, v);
    assert len * (1.0 / len) == 1.0;
    LengthOfScaled(k, 1.0 / len, v);
    assert Abs(1.0 / len) == 1.0 / len;
  }

  /** The unit vector of a positive multiple of a unit vector is that unit vector. */
  lemma NormalOfScaledUnit(k: Kernel, s: real, u: Vec3)
    requires Lawful(k) && s > 0.0 && Dot(u, u) == 1.0
    ensures k.length(Scale(s, u)) == s
    ensures Normal(k, Scale(s, u)) == u
  {
    assert LengthLaw(k, Scale(s, u));
    var len := k.length(Scale(s, u));
    assert len * len == s * s * Dot(u, u);
    SquareRootUnique(len, s);
    assert s * (1.0 / s) == 1.0;
  }

  /** The offset from a point to the point moved along `c * v`, both ways round. */
  lemma OffsetBothWays(p: Vec3, c: real, v: Vec3)
    ensures Sub(Add(p, Scale(c, v)), p) == Scale(c, v)
    ensures Sub(p, Add(p, Scale(c, v))) == Scale(-c, v)
  {
    assert -(c * v.x) == (-c) * v.x && -(c * v.y) == (-c) * v.y && -(c * v.z) == (-c) * v.z;
  }

  /** `c` times a unit vector has length |c|, so it lies at distance |c| from where it starts. */
  lemma ScaledNormalLength(k: Kernel, c: real, v: Vec3)
    requires Lawful(k) && k.length(v) > 0.0
    ensures k.length(Scale(c, Normal(k, v))) == Abs(c)
  {
    NormalOfNonZero(k, v);
    LengthOfScaled(k, c, Normal(k, v));
  }

  /** The offset from a point to its projection is perpendicular to the line. */
  lemma ProjectionIsPerpendicular(p: Vec3, s: Vec3, e: Vec3)
    ensures Dot(Sub(ProjectToLine(p, s, e), p), Sub(e, s)) == 0.0
  {
    var d := Sub(e, s);
    if e == s {
      assert d == Zero;
    } else {
      DotSelfPositive(d);
      var dd := Dot(d, d);
      var q := Dot(Sub(p, s), d);
      var t := q / dd;
      DivideThenMultiply(q, dd);
      var foot := Add(s, Scale(t, d));
      assert ProjectToLine(p, s, e) == foot;
      var offset := Add(Sub(s, p), Scale(t, d));
      assert Sub(foot, p) == offset;
      DotLinear(Sub(s, p), t, d, d);
      DotAntisymmetricSub(s, p, d);
      assert Dot(offset, d) == -q + t * dd;
    }
  }

  /** Only the zero vector is orthogonal to itself. */
  lemma DotSelfPositive(v: Vec3)
    requires v != Zero
    ensures Dot(v, v) > 0.0
  {
    SquareNonNegative(v.x);
    SquareNonNegative(v.y);
    SquareNonNegative(v.z);
    if Dot(v, v) == 0.0 {
      SumOfSquaresZero(v.x, v.y, v.z);
    }
  }

  lemma DivideThenMultiply(q: real, d: real)
    requires d != 0.0
    ensures (q / d) * d == q
  {
  }

  lemma DotAntisymmetricSub(a: Vec3, b: Vec3, c: Vec3)
    ensures Dot(Sub(a, b), c) == -Dot(Sub(b, a), c)
  {
  }

  /** The dot product is linear in its first argument. */
  lemma DotLinear(a: Vec3, t: real, b: Vec3, c: Vec3)
    ensures Dot(Add(a, Scale(t, b)), c) == Dot(a, c) + t * Dot(b, c)
  {
  }

  /**
    Shifting a line by a vector perpendicular to it shifts every projection onto it by the same
    vector.
  */
  lemma ProjectionOfShiftedLine(p: Vec3, s: Vec3, e: Vec3, shift: Vec3)
    requires Dot(shift, Sub(e, s)) == 0.0
    ensures ProjectToLine(p, Add(s, shift), Add(e, shift)) == Add(ProjectToLine(p, s, e), shift)
  {
    var d := Sub(e, s);
    assert Sub(Add(e, shift), Add(s, shift)) == d;
    assert Dot(Sub(p, Add(s, shift)), d) == Dot(Sub(p, s), d) - Dot(shift, d);
  }

  /** Lagrange's identity: |a × b|² = |a|²|b|² - (a·b)². */
  lemma CrossSquare(a: Vec3, b: Vec3)
    ensures Dot(Cross(a, b), Cross(a, b)) == Dot(a, a) * Dot(b, b) - Dot(a, b) * Dot(a, b)
  {
  }

  /** The cross product of two orthogonal non-zero vectors is not zero. */
  lemma CrossOfOrthogonal(a: Vec3, b: Vec3)
    requires a != Zero && b != Zero && Dot(a, b) == 0.0
    ensures Cross(a, b) != Zero
  {
    CrossSquare(a, b);
    DotSelfPositive(a);
    DotSelfPositive(b);
    assert Dot(Cross(a, b), Cross(a, b)) > 0.0;
  }

  /** A vector of length one. */
  ghost predicate Unit(k: Kernel, v: Vec3) {
    k.length(v) == 1.0
  }

  /** Normalising a non-zero vector gives a unit vector. */
  lemma NormalIsUnit(k: Kernel, v: Vec3)
    requires Lawful(k) && v != Zero
    ensures Unit(k, Normal(k, v)) && Normal(k, v) != Zero
  {
    LengthZeroIffZero(k, v);
    assert LengthLaw(k, v);
    NormalOfNonZero(k, v);
    LengthZeroIffZero(k, Normal(k, v));
  }

  /**
    The line from o + a·u - b·v to o + a·u + b·v, with u a unit vector across the non-zero
    direction v, passes at distance a from o.
  */
  lemma DistanceToOffsetLine(k: Kernel, o: Vec3, u: Vec3, v: Vec3, a: real, b: real)
    requires Lawful(k) && Unit(k, u) && v != Zero && Dot(u, v) == 0.0 && b != 0.0 && a >= 0.0
    ensures var s := Add(o, Add(Scale(a, u), Scale(-b, v)));
      var e := Add(o, Add(Scale(a, u), Scale(b, v)));
      DistanceToLine(k, o, s, e) == a
  {
    var s := Add(o, Add(Scale(a, u), Scale(-b, v)));
    var e := Add(o, Add(Scale(a, u), Scale(b, v)));
    OffsetLineFoot(o, u, v, a, b);
    assert Sub(o, Add(o, Scale(a, u))) == Scale(-a, u);
    LengthOfScaled(k, -a, u);
  }

  /** The foot of the perpendicular from o to that line is o + a·u. */
  lemma OffsetLineFoot(o: Vec3, u: Vec3, v: Vec3, a: real, b: real)
    requires v != Zero && Dot(u, v) == 0.0 && b != 0.0
    ensures var s := Add(o, Add(Scale(a, u), Scale(-b, v)));
      var e := Add(o, Add(Scale(a, u), Scale(b, v)));
      ProjectToLine(o, s, e) == Add(o, Scale(a, u))
  {
    var s := Add(o, Add(Scale(a, u), Scale(-b, v)));
    var e := Add(o, Add(Scale(a, u), Scale(b, v)));
    var d := Scale(2.0 * b, v);
    assert Sub(e, s) == d;
    assert Sub(o, s) == Add(Scale(-a, u), Scale(b, v));
    OffsetHalfway(u, v, a, b);
    ProjectionAtHalf(o, s, e);
    assert Add(s, Scale(0.5, d)) == Add(o, Scale(a, u));
  }

  /** Seen from o, the line's start lies halfway back along its direction. */
  lemma OffsetHalfway(u: Vec3, v: Vec3, a: real, b: real)
    requires v != Zero && Dot(u, v) == 0.0 && b != 0.0
    ensures var d := Scale(2.0 * b, v);
      d != Zero && Dot(Add(Scale(-a, u), Scale(b, v)), d) == 0.5 * Dot(d, d)
  {
    var x := OffsetScale(v, b);
    OffsetAlong(u, v, a, b);
    OffsetSelf(v, b);
  }

  /** The squared size of the offset: b² v·v, positive for a non-zero v and b. */
  lemma OffsetScale(v: Vec3, b: real) returns (x: real)
    requires v != Zero && b != 0.0
    ensures x == b * b * Dot(v, v) && x > 0.0
  {
    x := b * b * Dot(v, v);
    DotSelfPositive(v);
    var bb := b * b;
    assert bb > 0.0 by {
      if b > 0.0 { StrictlyIncreasingSquare(0.0, b); } else { StrictlyIncreasingSquare(0.0, -b); }
    }
    PositiveProduct(bb, Dot(v, v));
  }

  lemma OffsetAlong(u: Vec3, v: Vec3, a: real, b: real)
    requires Dot(u, v) == 0.0
    ensures Dot(Add(Scale(-a, u), Scale(b, v)), Scale(2.0 * b, v)) == 2.0 * (b * b * Dot(v, v))
  {
    DotCombination(-a, u, b, v, 2.0 * b, v);
    assert b * (2.0 * b) == 2.0 * (b * b);
  }

  lemma OffsetSelf(v: Vec3, b: real)
    ensures Dot(Scale(2.0 * b, v), Scale(2.0 * b, v)) == 4.0 * (b * b * Dot(v, v))
  {
    DotCombination(2.0 * b, v, 0.0, v, 2.0 * b, v);
    assert Add(Scale(2.0 * b, v), Scale(0.0, v)) == Scale(2.0 * b, v);
    assert (2.0 * b) * (2.0 * b) == 4.0 * (b * b);
  }

  /** A point whose offset from the line's start is half the line's direction projects to its middle. */
  lemma ProjectionAtHalf(p: Vec3, s: Vec3, e: Vec3)
    requires e != s && Dot(Sub(p, s), Sub(e, s)) == 0.5 * Dot(Sub(e, s), Sub(e, s))
    ensures ProjectToLine(p, s, e) == Add(s, Scale(0.5, Sub(e, s)))
  {
    var d := Sub(e, s);
    DotSelfPositive(d);
    assert Dot(Sub(p, s), d) / Dot(d, d) == 0.5;
  }

  lemma PositiveProduct(p: real, q: real)
    requires p > 0.0 && q > 0.0
    ensures p * q > 0.0
  {
  }

  /** The dot product of two linear combinations with a scaled vector. */
  lemma DotCombination(p: real, u: Vec3, q: real, v: Vec3, c: real, w: Vec3)
    ensures Dot(Add(Scale(p, u), Scale(q, v)), Scale(c, w)) == p * c * Dot(u, w) + q * c * Dot(v, w)
  {
  }

  /** A unit vector has u·u = 1. */
  lemma UnitDotSelf(k: Kernel, u: Vec3)
    requires Lawful(k) && Unit(k, u)
    ensures Dot(u, u) == 1.0
  {
    assert LengthLaw(k, u);
  }

  /** Projecting onto a plane lands in the plane: the offset from its origin is across the normal. */
  lemma ProjectionInPlane(k: Kernel, p: Vec3, origin: Vec3, n: Vec3)
    requires Lawful(k)
    ensures Dot(Sub(ProjectToPlane(k, p, origin, n), origin), n) == 0.0
  {
    if n != Zero {
      var w := Sub(ProjectToPlane(k, p, origin, n), origin);
      ProjectionAcrossNormal(k, p, origin, n);
      NormalScalesBack(k, n);
      DotScaleRight(w, k.length(n), Normal(k, n));
    }
  }

  lemma ProjectionAcrossNormal(k: Kernel, p: Vec3, origin: Vec3, n: Vec3)
    requires Lawful(k) && n != Zero
    ensures Dot(Sub(ProjectToPlane(k, p, origin, n), origin), Normal(k, n)) == 0.0
  {
    var u := Normal(k, n);
    var v := Sub(p, origin);
    NormalIsUnit(k, n);
    UnitDotSelf(k, u);
    assert Sub(ProjectToPlane(k, p, origin, n), origin) == Add(v, Scale(-Dot(v, u), u));
    DotLinear(v, -Dot(v, u), u, u);
  }

  lemma NormalScalesBack(k: Kernel, n: Vec3)
    requires Lawful(k) && n != Zero
    ensures Scale(k.length(n), Normal(k, n)) == n
  {
    LengthZeroIffZero(k, n);
    assert LengthLaw(k, n);
    NormalOfNonZero(k, n);
  }

  lemma DotScaleRight(w: Vec3, c: real, u: Vec3)
    ensures Dot(w, Scale(c, u)) == c * Dot(w, u)
  {
  }
}

=== FILE: host.dfy ===
/**
  What the plugins see of the host model and the direct manipulation framework: component input
  items, components with numeric attributes, the parts the plugins insert, and the side effects
  the handlers cause, recorded in order as a log.
*/
module Host {
  import opened Wrappers
  import opened Geometry
  import opened Polycurves

  /**
    InputItem, by its InputTypeEnum. A two-point or polygon item carries a point list that may
    be missing (its data is not a list); object items carry model object identifiers.
  */
  datatype InputItem =
    | OnePoint(point: Vec3)
    | TwoPoints(points: Option<seq<Vec3>>)
    | PolygonItem(points: Option<seq<Vec3>>)
    | OneObject(id: int)
    | NObjects(ids: seq<int>)

  /** An entry of a ComponentInput: an InputItem, or some other object. */
  datatype InputEntry = Item(item: InputItem) | NotAnItem

  /** The points an item contributes to a flattened point list, in its own order. */
  function ItemPoints(item: InputItem): (ps: seq<Vec3>)
    ensures item.OnePoint? ==> ps == [item.point]
    ensures (item.TwoPoints? || item.PolygonItem?) ==> ps == item.points.GetOr([])
    ensures (item.OneObject? || item.NObjects?) ==> ps == []
  {
    match item
    case OnePoint(p) => [p]
    case TwoPoints(ps) => ps.GetOr([])
    case PolygonItem(ps) => ps.GetOr([])
    case OneObject(_) => []
    case NObjects(_) => []
  }

  /** An input holding one polygon item: what the creation features commit. */
  function PolygonInput(points: seq<Vec3>): seq<InputEntry> {
    [Item(PolygonItem(Some(points)))]
  }

  /**
    A plugin component as its features see it: its identifier (0 is the default, unsaved one),
    whether Select succeeds, its numeric attributes and its input (None for null).
  */
  datatype Component = Component(
    id: int, selectable: bool, numbers: map<string, real>, input: Option<seq<InputEntry>>)

  /** GetAttribute(key, ref value): the stored value, or the caller's initial value. */
  function GetNumber(c: Component, key: string, initial: real): real {
    if key in c.numbers then c.numbers[key] else initial
  }

  /** SetAttribute(key, value). */
  function SetNumber(c: Component, key: string, value: real): (r: Component)
    ensures r.id == c.id && r.selectable == c.selectable && r.input == c.input
  {
    c.(numbers := c.numbers[key := value])
  }

  /** A written attribute reads back, and other attributes keep their values. */
  lemma GetAfterSet(c: Component, key: string, value: real, other: string, initial: real)
    ensures GetNumber(SetNumber(c, key, value), key, initial) == value
    ensures other != key ==>
      GetNumber(SetNumber(c, key, value), other, initial) == GetNumber(c, other, initial)
  {
  }

  /** Profile, material and finish of an inserted part. */
  datatype Style = Style(profile: string, material: string, finish: string)

  /** The model objects the plugins insert. */
  datatype Part =
    | LoftedPlate(bottom: Curve, top: Option<Curve>, style: Style)
    | ContourPlate(contour: seq<Vec3>, style: Style)
    | Beam(start: Vec3, end: Vec3, profile: string, finish: string)

  /** The side effects of a handler, in the order they happen. */
  datatype Effect =
    | ClearGraphics
    | DrawLine(from: Vec3, to: Vec3)
    | DrawArc(arc: Curve)
    /** A full circle drawn as a preview. */
    | DrawCircle(center: Vec3, radius: real)
    | DrawProfile(profile: string, from: Vec3, to: Vec3)
    | DrawRadiusLabel(radius: real, at: Vec3)
    | Select
    | SetAttribute(key: string, value: real)
    | Modify
    | CommitChanges
    /** CommitComponentInput / ModifyComponentInput with the given input. */
    | CommitInput(input: seq<InputEntry>)
    | ModifyInput(input: seq<InputEntry>)
    /** CommitCustomPartInput / ModifyCustomPartInput with a polygon of the given points. */
    | CommitPartInput(points: seq<Vec3>)
    | ModifyPartInput(points: seq<Vec3>)
    | Insert(part: Part)

  /** Drawing a polycurve: a line per segment and an arc per arc, in order; other kinds are skipped. */
  function DrawCurves(cs: seq<Curve>): (es: seq<Effect>)
    ensures |es| <= |cs|
    ensures (forall i | 0 <= i < |cs| :: !cs[i].OtherCurve?) ==> |es| == |cs|
  {
    if cs == [] then []
    else
      var head := match cs[0]
        case Segment(s, e) => [DrawLine(s, e)]
        case Arc(_, _, _) => [DrawArc(cs[0])]
        case OtherCurve(_, _) => [];
      head + DrawCurves(cs[1..])
  }

  /** An object of a plugin's input list: a point, or anything else. */
  datatype InputObject = PointObject(point: Vec3) | OtherObject

  /** An InputDefinition, what a plugin's Run receives: a list of objects, or a single object. */
  datatype InputDefinition = ListInput(objects: seq<InputObject>) | SingleInput(single: InputObject)

  /** LineSegment: the line of a line handle. */
  datatype LineSegment = LineSegment(start: Vec3, end: Vec3)

  /**
    What a handler leaves behind: the state it updated, the effects it caused in order, and
    whether it ran to the end; `completed` is false when a call into the host threw part way,
    after the recorded effects and state changes.
  */
  datatype Outcome<S> = Outcome(state: S, effects: seq<Effect>, completed: bool)

  /**
    Overwriting a list of handles by index from a list of values, as the UpdateHandles loops do:
    handle i takes value i; with more values than handles the indexing throws once the handles
    run out, after every handle was overwritten.
  */
  function Overwrite<T>(handles: seq<T>, values: seq<T>): (r: Outcome<seq<T>>)
    ensures r.effects == [] && |r.state| == |handles|
    ensures r.completed <==> |values| <= |handles|
    ensures forall i | 0 <= i < |handles| :: r.state[i] == if i < |values| then values[i] else handles[i]
  {
    if |values| <= |handles| then Outcome(values + handles[|values|..], [], true)
    else Outcome(values[..|handles|], [], false)
  }

  /**
    Event subscriptions as a multiset of (event, handler) registrations: `+=` adds one
    registration, `-=` removes one if there is one and does nothing otherwise.
  */
  function Subscribe<T>(subs: multiset<T>, adds: seq<T>): (r: multiset<T>)
    ensures |r| == |subs| + |adds|
    ensures subs <= r
  {
    subs + multiset(adds)
  }

  function Unsubscribe<T>(subs: multiset<T>, removes: seq<T>): (r: multiset<T>)
    ensures r <= subs
    ensures multiset(removes) <= subs ==> |r| == |subs| - |removes|
  {
    subs - multiset(removes)
  }

  /** Removing the registrations just added restores the subscriptions. */
  lemma UnsubscribeAfterSubscribe<T>(subs: multiset<T>, regs: seq<T>)
    ensures Unsubscribe(Subscribe(subs, regs), regs) == subs
  {
  }
}

=== FILE: picking.dfy ===
/**
  The picking-session bookkeeping the creation features share: the list of picked points that
  valid picks append to and undo takes from, the session-continuation test, and the profile
  preview of the next segment drawn while the cursor moves.
*/
module Picking {
  import opened Wrappers
  import opened Geometry
  import opened Host

  /** ToleratedObjectEventArgs as the handlers read it: the hit point and whether the pick is valid. */
  datatype PickArgs = PickArgs(hit: Vec3, valid: bool)

  /** OnObjectPicked: a valid pick appends its hit point; an invalid one leaves the list as it is. */
  function Pick(points: seq<Vec3>, e: PickArgs): (r: seq<Vec3>)
    ensures e.valid ==> |r| == |points| + 1 && r[..|points|] == points && r[|points|] == e.hit
    ensures !e.valid ==> r == points
  {
    if e.valid then points + [e.hit] else points
  }

  /** OnPickingUndone, guarded by the count: the last point goes, and an empty list stays empty. */
  function Undo(points: seq<Vec3>): (r: seq<Vec3>)
    ensures |points| > 0 ==> |r| == |points| - 1 && r + [points[|points| - 1]] == points
    ensures |points| == 0 ==> r == []
  {
    if |points| > 0 then points[..|points| - 1] else points
  }

  /** Undo takes back a valid pick, and an invalid pick leaves nothing to take back. */
  lemma PickThenUndo(points: seq<Vec3>, e: PickArgs)
    ensures e.valid ==> Undo(Pick(points, e)) == points
    ensures !e.valid ==> Undo(Pick(points, e)) == Undo(points)
  {
    if e.valid {
      assert (points + [e.hit])[..|points|] == points;
    }
  }

  function Max(a: int, b: int): int {
    if a >= b then a else b
  }

  /**
    OnInputValidationRequested: ContinueSession is set when fewer than max(Minimum, 2) points are
    picked. The handler only ever sets it, so a continuation already asked for stays.
  */
  function Validate(count: nat, minimum: int, continueSession: bool): (r: bool)
    ensures continueSession ==> r
    ensures !continueSession ==> (r <==> count < minimum || count < 2)
  {
    if count < Max(minimum, 2) then true else continueSession
  }

  /**
    Whatever the minimum of a range of at most two points is, the session goes on exactly until
    two points are picked.
  */
  lemma AtMostTwoContinuesUntilTwo(count: nat, minimum: int)
    requires minimum <= 2
    ensures Validate(count, minimum, false) <==> count < 2
  {
  }

  /** What happens to the picked list: a pick, an undo, or a Refresh (which clears it). */
  datatype SessionEvent = Picked(args: PickArgs) | Undone | Refreshed

  function Step(points: seq<Vec3>, ev: SessionEvent): seq<Vec3> {
    match ev
    case Picked(e) => Pick(points, e)
    case Undone => Undo(points)
    case Refreshed => []
  }

  /** The picked list after a run of events, in order. */
  function Replay(points: seq<Vec3>, evs: seq<SessionEvent>): seq<Vec3>
    decreases |evs|
  {
    if |evs| == 0 then points else Replay(Step(points, evs[0]), evs[1..])
  }

  /** The hit points of the valid picks among the events, in order. */
  function ValidHits(evs: seq<SessionEvent>): (hs: seq<Vec3>)
    ensures |hs| <= |evs|
  {
    if |evs| == 0 then []
    else if evs[0].Picked? && evs[0].args.valid then [evs[0].args.hit] + ValidHits(evs[1..])
    else ValidHits(evs[1..])
  }

  predicate OnlyPicks(evs: seq<SessionEvent>) {
    forall i | 0 <= i < |evs| :: evs[i].Picked?
  }

  /** A run of picks adds exactly the valid hit points, in the order they were picked. */
  lemma {:induction false} PicksAppendValidHits(points: seq<Vec3>, evs: seq<SessionEvent>)
    requires OnlyPicks(evs)
    ensures Replay(points, evs) == points + ValidHits(evs)
    decreases |evs|
  {
    if |evs| == 0 {
      assert points + [] == points;
    } else {
      var rest := evs[1..];
      assert OnlyPicks(rest) by {
        forall i | 0 <= i < |rest| ensures rest[i].Picked? {
          assert rest[i] == evs[i + 1];
        }
      }
      PicksAppendValidHits(Step(points, evs[0]), rest);
      if evs[0].args.valid {
        assert Step(points, evs[0]) + ValidHits(rest) == points + ([evs[0].args.hit] + ValidHits(rest));
      }
    }
  }

  /** Whatever came before a Refresh does not matter afterwards. */
  lemma {:induction false} RefreshForgets(points: seq<Vec3>, before: seq<SessionEvent>, after: seq<SessionEvent>)
    ensures Replay(points, before + [Refreshed] + after) == Replay([], after)
    decreases |before|
  {
    if |before| == 0 {
      assert before + [Refreshed] + after == [Refreshed] + after;
      assert ([Refreshed] + after)[1..] == after;
    } else {
      assert (before + [Refreshed] + after)[0] == before[0];
      assert (before + [Refreshed] + after)[1..] == before[1..] + [Refreshed] + after;
      RefreshForgets(Step(points, before[0]), before[1..], after);
    }
  }

  /** The events of a PickingTool a feature can subscribe to. */
  datatype ToolEvent =
    | PreviewRequested | ObjectPicked | InputValidationRequested
    | PickSessionEnded | PickSessionInterrupted | PickUndone

  /** An entry of GetAppliedAttributes: its text (ToString) and what double.TryParse makes of it. */
  datatype Applied = Applied(text: string, number: Option<real>)

  /**
    The length factor of the preview: 2.0 without a LengthFactor attribute; with one, what
    double.TryParse gives, and TryParse leaves 0 behind when the text is not a number.
  */
  function LengthFactor(attrs: map<string, Applied>): (f: real)
    ensures "LengthFactor" !in attrs ==> f == 2.0
    ensures "LengthFactor" in attrs && attrs["LengthFactor"].number.None? ==> f == 0.0
    ensures "LengthFactor" in attrs && attrs["LengthFactor"].number.Some? ==> f == attrs["LengthFactor"].number.value
  {
    if "LengthFactor" in attrs then attrs["LengthFactor"].number.GetOr(0.0) else 2.0
  }

  /** The profile of the preview: the Profile attribute's text, or the default. */
  function ProfileName(attrs: map<string, Applied>, defaultProfile: string): (p: string)
    ensures "Profile" !in attrs ==> p == defaultProfile
    ensures "Profile" in attrs ==> p == attrs["Profile"].text
  {
    if "Profile" in attrs then attrs["Profile"].text else defaultProfile
  }

  /**
    OnPreviewRequested of the beam and custom part creation features: clear the graphics; with
    a picked point, draw the profile from the last point along the way to the cursor, stretched
    by the length factor.
  */
  function ProfilePreview(points: seq<Vec3>, hit: Vec3, attrs: map<string, Applied>, defaultProfile: string)
    : (es: seq<Effect>)
    ensures |es| >= 1 && es[0] == ClearGraphics
    ensures |points| == 0 ==> es == [ClearGraphics]
    ensures |points| > 0 ==>
      var last := points[|points| - 1];
      && |es| == 2 && es[1].DrawProfile?
      && es[1].profile == ProfileName(attrs, defaultProfile) && es[1].from == last
      && Sub(es[1].to, last) == Scale(LengthFactor(attrs), Sub(hit, last))
  {
    if |points| == 0 then [ClearGraphics]
    else
      var last := points[|points| - 1];
      var lengthVector := Scale(LengthFactor(attrs), Sub(hit, last));
      [ClearGraphics, DrawProfile(ProfileName(attrs, defaultProfile), last, Add(lengthVector, last))]
  }

  /**
    With the default factor the cursor is the midpoint of the previewed segment; with a factor
    of one the segment ends at the cursor.
  */
  lemma PreviewAroundCursor(points: seq<Vec3>, hit: Vec3, attrs: map<string, Applied>, defaultProfile: string)
    requires |points| > 0
    ensures var es := ProfilePreview(points, hit, attrs, defaultProfile);
      && ("LengthFactor" !in attrs ==> Scale(0.5, Add(es[1].from, es[1].to)) == hit)
      && (LengthFactor(attrs) == 1.0 ==> es[1].to == hit)
  {
  }
}

=== FILE: polycurves.dfy ===
/**
  Curves, polycurves and the polycurve builder of the host's geometry library, restricted to what
  the transition section uses: line segments, arcs, and chains built by appending tangent arcs and
  tangent segments in a plane parallel to the local XY plane.

  An arc is kept as its start point, end point and centre. The host rebuilds arcs from start, end
  and middle point; under the rigid frame changes used here the centre determines the same arc.
*/
module Polycurves {
  import opened Wrappers
  import opened Geometry

  datatype Curve =
    | Segment(start: Vec3, end: Vec3)
    | Arc(start: Vec3, end: Vec3, center: Vec3)
    /** Any other curve kind the host knows of. */
    | OtherCurve(start: Vec3, end: Vec3)

  /**
    PolycurveGeometryBuilder: the curves appended so far and the direction in which the chain
    leaves its last curve. Only the direction of `heading` matters to the geometry.
  */
  datatype Builder = Builder(curves: seq<Curve>, heading: Vec3)

  const EmptyBuilder := Builder([], Zero)

  const MinusX := Vec3(-1.0, 0.0, 0.0)
  const MinusY := Vec3(0.0, -1.0, 0.0)

  /** The in-plane left turn of a direction: a quarter turn about local Z. */
  function LeftOf(v: Vec3): Vec3 {
    Cross(UnitZ, v)
  }

  /** Where the chain currently ends. */
  function ChainEnd(b: Builder): Vec3
    requires |b.curves| > 0
  {
    b.curves[|b.curves| - 1].end
  }

  /** A builder holding a prefix of a chain ends where the last curve of the prefix ends. */
  lemma ChainEndOfPrefix(b: Builder, cs: seq<Curve>, i: int)
    requires 0 <= i < |cs| && b.curves == cs[..i + 1]
    ensures ChainEnd(b) == cs[i].end
  {
  }

  /** Append(LineSegment): the chain now leaves in the segment's direction. */
  function AppendSegment(b: Builder, s: Vec3, e: Vec3): (r: Builder)
    ensures r.curves == b.curves + [Segment(s, e)]
    ensures ChainEnd(r) == e
  {
    Builder(b.curves + [Segment(s, e)], Sub(e, s))
  }

  /**
    Append(new Arc(center, start, normal, π/2)): a quarter turn about a unit normal perpendicular
    to the radius, so the end point is the radius turned by the cross product with the normal.
  */
  function AppendQuarterArc(b: Builder, center: Vec3, start: Vec3, normal: Vec3): (r: Builder)
    ensures |r.curves| == |b.curves| + 1 && r.curves[..|b.curves|] == b.curves
    ensures r.curves[|b.curves|].Arc? && r.curves[|b.curves|].start == start
    ensures r.curves[|b.curves|].center == center
  {
    var end := Add(center, Cross(normal, Sub(start, center)));
    Builder(b.curves + [Arc(start, end, center)], Cross(normal, Sub(end, center)))
  }

  /**
    AppendTangentArc(endPoint): an arc leaving the chain's end tangentially and ending at `q`.
    Its centre lies on the left normal of the heading, at the parameter that makes both end points
    equally far from it; the heading at the end is the start heading mirrored about the chord.
    There is no such arc on an empty chain or when `q` lies on the tangent line.
  */
  function AppendTangentArc(b: Builder, q: Vec3): (r: Option<Builder>)
    ensures r.Some? ==> |b.curves| > 0 && |r.value.curves| == |b.curves| + 1
    ensures r.Some? ==> r.value.curves[..|b.curves|] == b.curves && r.value.curves[|b.curves|].Arc?
    ensures r.Some? ==> r.value.curves[|b.curves|].start == ChainEnd(b) && ChainEnd(r.value) == q
  {
    if |b.curves| == 0 then None
    else
      var p := ChainEnd(b);
      var t := b.heading;
      var n := LeftOf(t);
      var c := Sub(q, p);
      var nc := Dot(n, c);
      if nc == 0.0 then None
      else
        assert c != Zero;
        DotSelfPositive(c);
        var lambda := Dot(c, c) / (2.0 * nc);
        var center := Add(p, Scale(lambda, n));
        var heading := Sub(Scale(2.0 * Dot(t, c) / Dot(c, c), c), t);
        Some(Builder(b.curves + [Arc(p, q, center)], heading))
  }

  /** No tangent arc leads back to the point where the chain already ends. */
  lemma TangentArcToChainEnd(b: Builder)
    requires |b.curves| > 0
    ensures AppendTangentArc(b, ChainEnd(b)) == None
  {
    assert Sub(ChainEnd(b), ChainEnd(b)) == Zero;
  }

  /**
    AppendTangentSegment(length): a segment of the given length continuing in the chain's
    direction. There is no such segment on an empty chain.
  */
  function AppendTangentSegment(k: Kernel, b: Builder, length: real): (r: Option<Builder>)
    ensures r.Some? <==> |b.curves| > 0
    ensures r.Some? ==> |r.value.curves| == |b.curves| + 1 && r.value.heading == b.heading
    ensures r.Some? ==> r.value.curves[..|b.curves|] == b.curves && r.value.curves[|b.curves|].Segment?
    ensures r.Some? ==> r.value.curves[|b.curves|].start == ChainEnd(b)
  {
    if |b.curves| == 0 then None
    else
      var p := ChainEnd(b);
      Some(Builder(b.curves + [Segment(p, Add(p, Scale(length, Normal(k, b.heading))))], b.heading))
  }

  /** One fluent call on the builder after its first curve. */
  datatype BuildStep =
    | TangentArcTo(point: Vec3)
    | TangentSegmentOf(length: real)

  function ApplyStep(k: Kernel, b: Builder, step: BuildStep): Option<Builder> {
    match step
    case TangentArcTo(q) => AppendTangentArc(b, q)
    case TangentSegmentOf(len) => AppendTangentSegment(k, b, len)
  }

  /** A chain of fluent calls; the first call that cannot be made aborts the chain. */
  function RunSteps(k: Kernel, b: Builder, steps: seq<BuildStep>): (r: Option<Builder>)
    ensures r.Some? ==> |r.value.curves| == |b.curves| + |steps|
    ensures r.Some? ==> r.value.curves[..|b.curves|] == b.curves
    decreases |steps|
  {
    if |steps| == 0 then Some(b)
    else
      var next :- ApplyStep(k, b, steps[0]);
      RunSteps(k, next, steps[1..])
  }

  /**
    When every call takes the chain from one expected builder to the next, the whole chain ends
    at the last expected builder.
  */
  lemma {:induction false} RunStepsFollows(k: Kernel, steps: seq<BuildStep>, bs: seq<Builder>)
    requires |bs| == |steps| + 1
    requires forall i :: 0 <= i < |steps| ==> ApplyStep(k, bs[i], steps[i]) == Some(bs[i + 1])
    ensures RunSteps(k, bs[0], steps) == Some(bs[|steps|])
    decreases |steps|
  {
    if |steps| > 0 {
      assert ApplyStep(k, bs[0], steps[0]) == Some(bs[1]);
      RunStepsFollows(k, steps[1..], bs[1..]);
    }
  }

  /** The four in-plane axis directions. */
  predicate InPlaneAxis(u: Vec3) {
    u == UnitX || u == UnitY || u == MinusX || u == MinusY
  }

  /**
    A tangent arc that turns left by a quarter turn: leaving along axis `u`, ending `r` ahead and
    `r` to the left, it is centred `r` to the left of the start and leaves along the left turn of
    `u`, with the heading's magnitude kept.
  */
  lemma {:induction false} QuarterTurn(b: Builder, u: Vec3, s: real, r: real)
    requires |b.curves| > 0 && InPlaneAxis(u) && s > 0.0 && r > 0.0
    requires b.heading == Scale(s, u)
    ensures
      var p := ChainEnd(b);
      var q := Add(Add(p, Scale(r, u)), Scale(r, LeftOf(u)));
      AppendTangentArc(b, q)
        == Some(Builder(b.curves + [Arc(p, q, Add(p, Scale(r, LeftOf(u))))], Scale(s, LeftOf(u))))
  {
    var p := ChainEnd(b);
    var w := LeftOf(u);
    var q := Add(Add(p, Scale(r, u)), Scale(r, w));
    AxisTurn(u, s, r);
    assert Sub(q, p) == Add(Scale(r, u), Scale(r, w));
    QuarterTurnFrom(b, q, u, w, s, r);
  }

  /** The dot products behind a quarter turn along an axis. */
  lemma AxisTurn(u: Vec3, s: real, r: real)
    requires InPlaneAxis(u)
    ensures
      var w := LeftOf(u);
      var c := Add(Scale(r, u), Scale(r, w));
      && LeftOf(Scale(s, u)) == Scale(s, w)
      && Dot(Scale(s, w), c) == r * s
      && Dot(c, c) == 2.0 * (r * r)
      && Dot(Scale(s, u), c) == r * s
  {
    var w := LeftOf(u);
    var c := Add(Scale(r, u), Scale(r, w));
    if u == UnitX {
      assert w == UnitY && c == Vec3(r, r, 0.0);
    } else if u == UnitY {
      assert w == MinusX && c == Vec3(-r, r, 0.0);
    } else if u == MinusX {
      assert w == MinusY && c == Vec3(-r, -r, 0.0);
    } else {
      assert w == UnitX && c == Vec3(r, -r, 0.0);
    }
  }

  /** The algebra of a quarter turn, once the dot products are known. */
  lemma QuarterTurnFrom(b: Builder, q: Vec3, u: Vec3, w: Vec3, s: real, r: real)
    requires |b.curves| > 0 && s > 0.0 && r > 0.0
    requires b.heading == Scale(s, u) && LeftOf(b.heading) == Scale(s, w)
    requires Sub(q, ChainEnd(b)) == Add(Scale(r, u), Scale(r, w))
    requires Dot(LeftOf(b.heading), Sub(q, ChainEnd(b))) == r * s
    requires Dot(Sub(q, ChainEnd(b)), Sub(q, ChainEnd(b))) == 2.0 * (r * r)
    requires Dot(b.heading, Sub(q, ChainEnd(b))) == r * s
    ensures
      var p := ChainEnd(b);
      AppendTangentArc(b, q) == Some(Builder(b.curves + [Arc(p, q, Add(p, Scale(r, w)))], Scale(s, w)))
  {
    var p := ChainEnd(b);
    var lambda, f := (2.0 * (r * r)) / (2.0 * (r * s)), 2.0 * (r * s) / (2.0 * (r * r));
    assert lambda * s == r && f * r == s by {
      TurnFactors(r, s);
    }
    assert Scale(lambda, Scale(s, w)) == Scale(r, w) by {
      ScaleScale(lambda, s, w);
    }
    assert Scale(f, Sub(q, p)) == Add(Scale(s, u), Scale(s, w)) by {
      ScaleSum(f, r, u, w);
    }
    assert Sub(Add(Scale(s, u), Scale(s, w)), b.heading) == Scale(s, w);
    TangentArcUnfold(b, q, 2.0 * (r * r), r * s, r * s);
  }

  lemma ScaleScale(a: real, b: real, v: Vec3)
    ensures Scale(a, Scale(b, v)) == Scale(a * b, v)
  {
  }

  lemma ScaleSum(f: real, r: real, u: Vec3, w: Vec3)
    ensures Scale(f, Add(Scale(r, u), Scale(r, w))) == Add(Scale(f * r, u), Scale(f * r, w))
  {
    ScaleAdd(f, Scale(r, u), Scale(r, w));
    ScaleScale(f, r, u);
    ScaleScale(f, r, w);
  }

  lemma ScaleAdd(c: real, a: Vec3, b: Vec3)
    ensures Scale(c, Add(a, b)) == Add(Scale(c, a), Scale(c, b))
  {
  }

  /** AppendTangentArc in terms of the three dot products it depends on. */
  lemma TangentArcUnfold(b: Builder, q: Vec3, cc: real, nc: real, tc: real)
    requires |b.curves| > 0
    requires Dot(LeftOf(b.heading), Sub(q, ChainEnd(b))) == nc != 0.0
    requires Dot(Sub(q, ChainEnd(b)), Sub(q, ChainEnd(b))) == cc != 0.0
    requires Dot(b.heading, Sub(q, ChainEnd(b))) == tc
    ensures
      var p := ChainEnd(b);
      AppendTangentArc(b, q)
        == Some(Builder(b.curves + [Arc(p, q, Add(p, Scale(cc / (2.0 * nc), LeftOf(b.heading))))],
                        Sub(Scale(2.0 * tc / cc, Sub(q, p)), b.heading)))
  {
  }

  lemma TurnFactors(r: real, s: real)
    requires r > 0.0 && s > 0.0
    ensures (2.0 * (r * r)) / (2.0 * (r * s)) * s == r
    ensures 2.0 * (r * s) / (2.0 * (r * r)) * r == s
  {
    var rr, rs := r * r, r * s;
    assert rr > 0.0 && rs > 0.0;
    assert (2.0 * rr) / (2.0 * rs) == r / s;
    assert (2.0 * rs) / (2.0 * rr) == s / r;
  }

  /**
    TransformGeometryByMatrix: the same kind of curve through the mapped points; any other kind
    of curve is rejected (the host throws).
  */
  function TransformCurve(f: Vec3 -> Vec3, c: Curve): (r: Option<Curve>)
    ensures r.None? <==> c.OtherCurve?
    ensures r.Some? ==> r.value.Segment? == c.Segment? && r.value.Arc? == c.Arc?
    ensures r.Some? ==> r.value.start == f(c.start) && r.value.end == f(c.end)
  {
    match c
    case Segment(s, e) => Some(Segment(f(s), f(e)))
    case Arc(s, e, m) => Some(Arc(f(s), f(e), f(m)))
    case OtherCurve(_, _) => None
  }

  /**
    The mapping step of TransformToGlobal: every curve is transformed in order, and one curve of
    an unknown kind aborts the whole transformation.
  */
  function TransformCurves(f: Vec3 -> Vec3, cs: seq<Curve>): (r: Option<seq<Curve>>)
    ensures r.Some? <==> forall i :: 0 <= i < |cs| ==> !cs[i].OtherCurve?
    ensures r.Some? ==> |r.value| == |cs|
    ensures r.Some? ==> forall i :: 0 <= i < |cs| ==> TransformCurve(f, cs[i]) == Some(r.value[i])
  {
    if |cs| == 0 then Some([])
    else
      var head :- TransformCurve(f, cs[0]);
      var tail :- TransformCurves(f, cs[1..]);
      assert forall i :: 1 <= i < |cs| ==> cs[i] == cs[1..][i - 1];
      Some([head] + tail)
  }

  /**
    The rebuilding step of TransformToGlobal: arcs and segments are appended to a fresh builder,
    anything else is skipped.
  */
  function KeepArcsAndSegments(cs: seq<Curve>): (r: seq<Curve>)
    ensures |r| <= |cs|
    ensures forall i :: 0 <= i < |r| ==> !r[i].OtherCurve?
  {
    if |cs| == 0 then []
    else if cs[0].OtherCurve? then KeepArcsAndSegments(cs[1..])
    else [cs[0]] + KeepArcsAndSegments(cs[1..])
  }

  /** Rebuilding a chain that holds only arcs and segments gives the same chain back. */
  lemma {:induction false} KeepArcsAndSegmentsIdentity(cs: seq<Curve>)
    requires forall i :: 0 <= i < |cs| ==> !cs[i].OtherCurve?
    ensures KeepArcsAndSegments(cs) == cs
  {
    if |cs| > 0 {
      assert forall i :: 0 <= i < |cs| - 1 ==> cs[1..][i] == cs[i + 1];
      KeepArcsAndSegmentsIdentity(cs[1..]);
      assert cs == [cs[0]] + cs[1..];
    }
  }

  /** `OfType<Arc>()`: the arcs of a chain, in order. */
  function Arcs(cs: seq<Curve>): (r: seq<Curve>)
    ensures |r| <= |cs|
    ensures forall i | 0 <= i < |r| :: r[i].Arc?
  {
    if |cs| == 0 then []
    else if cs[0].Arc? then [cs[0]] + Arcs(cs[1..])
    else Arcs(cs[1..])
  }

  /** `OfType<LineSegment>()`: the segments of a chain, in order. */
  function Segments(cs: seq<Curve>): (r: seq<Curve>)
    ensures |r| <= |cs|
    ensures forall i | 0 <= i < |r| :: r[i].Segment?
  {
    if |cs| == 0 then []
    else if cs[0].Segment? then [cs[0]] + Segments(cs[1..])
    else Segments(cs[1..])
  }

  /**
    In a chain that alternates segment, arc, segment, arc, ... the segments are the curves at
    even positions and the arcs those at odd positions.
  */
  lemma {:induction false} AlternatingChain(cs: seq<Curve>)
    requires |cs| % 2 == 0
    requires forall i | 0 <= i < |cs| :: (cs[i].Segment? <==> i % 2 == 0) && (cs[i].Arc? <==> i % 2 == 1)
    ensures |Segments(cs)| == |cs| / 2 && |Arcs(cs)| == |cs| / 2
    ensures forall j | 0 <= j < |cs| / 2 :: Segments(cs)[j] == cs[2 * j] && Arcs(cs)[j] == cs[2 * j + 1]
  {
    if |cs| > 0 {
      var rest := cs[2..];
      assert cs[0].Segment? && cs[1].Arc?;
      forall i | 0 <= i < |rest|
        ensures (rest[i].Segment? <==> i % 2 == 0) && (rest[i].Arc? <==> i % 2 == 1)
      {
        assert rest[i] == cs[i + 2];
        assert (i + 2) % 2 == i % 2;
      }
      AlternatingChain(rest);
      assert cs[1..][1..] == rest;
      assert Segments(cs) == [cs[0]] + Segments(rest);
      assert Arcs(cs) == [cs[1]] + Arcs(rest);
      forall j | 0 < j < |cs| / 2
        ensures Segments(cs)[j] == cs[2 * j] && Arcs(cs)[j] == cs[2 * j + 1]
      {
        assert rest[2 * (j - 1)] == cs[2 * j] && rest[2 * (j - 1) + 1] == cs[2 * j + 1];
      }
    }
  }
}

=== FILE: rectangle_context.dfy ===
/**
  ComplexTransitionSectionPluginFeatures.ManipulationContexts.RectangleManipulationContext: four
  line handles on the straight sides of the rectangular base. Dragging a side moves it and its
  opposite side to the same distance from the centroid; ending a drag writes the width and the
  height back to the component.
*/
module RectangleContext {
  import opened Wrappers
  import opened Geometry
  import opened Polycurves
  import opened Host
  import opened TransitionSectionGeometry
  import opened TransitionSectionPlugin
  import opened DataFetcher

  /** The four line handles: right and left change the width, top and bottom the height. */
  datatype Handles = Handles(right: LineSegment, top: LineSegment, left: LineSegment, bottom: LineSegment)

  /** The straight sides of a polycurve, in order. */
  function LinesOf(cs: seq<Curve>): (ls: seq<LineSegment>)
    ensures |ls| == |Segments(cs)|
  {
    var ss := Segments(cs);
    seq(|ss|, i requires 0 <= i < |ss| => LineSegment(ss[i].start, ss[i].end))
  }

  /** The geometry a context rebuilds from the fetched values, with the given base sides. */
  function SectionOf(k: Kernel, d: SectionData, width: real, height: real): Option<Section> {
    MakeSection(k, height, width, d.length, d.radius, d.frame.origin, FrameNormal(d.frame))
  }

  /**
    GetRectangle: the straight sides of the stored section, the right one first and then
    counter-clockwise. None when reading the input throws or the geometry cannot be built.
  */
  function GetRectangle(k: Kernel, c: Component): (r: Option<seq<LineSegment>>)
    ensures r.Some? ==> Fetch(k, c).Some?
  {
    var d :- Fetch(k, c);
    var s :- SectionOf(k, d, d.width, d.height);
    Some(LinesOf(s.rectangular))
  }

  /**
    The sides of a well-shaped section are its four even curves, and consecutive sides are
    joined through the arc between them, the last back to the first.
  */
  lemma SidesOfWellShaped(s: Section)
    requires WellShaped(s)
    ensures var ls := LinesOf(s.rectangular);
      && |ls| == 4
      && (forall j | 0 <= j < 4 ::
            && ls[j].start == s.rectangular[2 * j].start
            && ls[j].end == s.rectangular[2 * j].end)
      && (forall j | 0 <= j < 4 ::
            && ls[j].end == s.rectangular[2 * j + 1].start
            && s.rectangular[2 * j + 1].end == ls[(j + 1) % 4].start)
  {
    var rect := s.rectangular;
    SidesAreEvenCurves(s);
    var ls := LinesOf(rect);
    forall j | 0 <= j < 4
      ensures ls[j].end == rect[2 * j + 1].start && rect[2 * j + 1].end == ls[(j + 1) % 4].start
    {
      NextSide(j);
      ClosedAt(s, 2 * j);
      ClosedAt(s, 2 * j + 1);
    }
  }

  /** The sides of a well-shaped rectangle are its even curves. */
  lemma SidesAreEvenCurves(s: Section)
    requires WellShaped(s)
    ensures var ls := LinesOf(s.rectangular);
      && |ls| == 4
      && (forall j | 0 <= j < 4 ::
            && ls[j].start == s.rectangular[2 * j].start
            && ls[j].end == s.rectangular[2 * j].end)
  {
    AlternatingChain(s.rectangular);
  }

  /**
    Curve `i` of a well-shaped rectangle ends where the next one starts. A separate step of
    SidesOfWellShaped: it keeps the wrap-around index out of that proof's context.
  */
  lemma ClosedAt(s: Section, i: int)
    requires WellShaped(s) && 0 <= i < 8
    ensures s.rectangular[i].end == s.rectangular[(i + 1) % 8].start
  {
  }

  /** Index arithmetic of the side after side `j`, the other step of SidesOfWellShaped. */
  lemma NextSide(j: int)
    requires 0 <= j < 4
    ensures (2 * j + 1) % 8 == 2 * j + 1
    ensures (2 * j + 2) % 8 == 2 * ((j + 1) % 4)
  {
    if j == 0 {} else if j == 1 {} else if j == 2 {} else {}
  }

  /** CreateHandles: one handle per side, in the order of GetRectangle. */
  function CreateHandles(k: Kernel, c: Component): (r: Option<Handles>)
    ensures r.Some? <==> GetRectangle(k, c).Some? && |GetRectangle(k, c).value| >= 4
    ensures r.Some? ==> var ls := GetRectangle(k, c).value;
      r.value == Handles(ls[0], ls[1], ls[2], ls[3])
  {
    var ls :- GetRectangle(k, c);
    if |ls| < 4 then None else Some(Handles(ls[0], ls[1], ls[2], ls[3]))
  }

  /** A stored width of zero leaves no rectangle to put handles on, so the constructor throws. */
  lemma ZeroWidthHasNoHandles(k: Kernel, c: Component)
    requires BaseWidth(c) == 0.0 && BaseHeight(c) >= 0.0
    ensures CreateHandles(k, c).None?
  {
    match Fetch(k, c)
    case None =>
    case Some(d) =>
      assert d.width == 0.0 && d.height >= 0.0;
      assert SectionOf(k, d, d.width, d.height).None? by {
        ZeroWidthRectangleFails(k, d.height);
      }
      assert GetRectangle(k, c).None?;
  }

  /**
    UpdateContext: select the component, then move every handle onto its side of the rebuilt
    rectangle. A rectangle that cannot be read leaves the handles where they were.
  */
  function UpdateContext(k: Kernel, c: Component, h: Handles): (r: Outcome<Handles>)
    ensures r.effects == [Select]
    ensures r.completed <==> CreateHandles(k, c).Some?
    ensures r.completed ==> r.state == CreateHandles(k, c).value
    ensures !r.completed ==> r.state == h
  {
    match CreateHandles(k, c)
    case None => Outcome(h, [Select], false)
    case Some(rebuilt) => Outcome(rebuilt, [Select], true)
  }

  /**
    PlaceAtDistanceFromPoint: shift a segment, keeping its direction, so that the foot of the
    perpendicular from `reference` ends `distance` away from it on the side where it was.
  */
  function PlaceAtDistance(k: Kernel, segment: LineSegment, reference: Vec3, distance: real)
    : (r: LineSegment)
    ensures Sub(r.end, r.start) == Sub(segment.end, segment.start)
  {
    var foot := ProjectToLine(reference, segment.start, segment.end);
    var current := Sub(foot, reference);
    var shift := Sub(Scale(distance, Normal(k, current)), current);
    LineSegment(Add(segment.start, shift), Add(segment.end, shift))
  }

  /** The offset from `reference` to its foot on the line of `segment`. */
  function FootOffset(segment: LineSegment, reference: Vec3): Vec3 {
    Sub(ProjectToLine(reference, segment.start, segment.end), reference)
  }

  /**
    The placed segment's foot lies `distance` along the old offset's direction, so the segment
    is `|distance|` away from the reference; a segment through the reference does not move.
  */
  lemma PlacedAtDistance(k: Kernel, segment: LineSegment, reference: Vec3, distance: real)
    requires Lawful(k)
    ensures var r := PlaceAtDistance(k, segment, reference, distance);
      var current := FootOffset(segment, reference);
      && FootOffset(r, reference) == Scale(distance, Normal(k, current))
      && (current != Zero ==> DistanceToLine(k, reference, r.start, r.end) == Abs(distance))
      && (current == Zero ==> r == segment)
  {
    var current := FootOffset(segment, reference);
    var r := PlaceAtDistance(k, segment, reference, distance);
    PlacedFoot(k, segment, reference, distance);
    if current != Zero {
      var unit := Normal(k, current);
      assert Sub(reference, ProjectToLine(reference, r.start, r.end)) == Scale(-distance, unit);
      assert k.length(current) > 0.0 by {
        LengthZeroIffZero(k, current);
        assert LengthLaw(k, current);
      }
      ScaledNormalLength(k, -distance, current);
    } else {
      assert Normal(k, current) == Zero by {
        LengthZeroIffZero(k, current);
      }
    }
  }

  /** The shift is perpendicular to the segment, so the foot moves with it. */
  lemma PlacedFoot(k: Kernel, segment: LineSegment, reference: Vec3, distance: real)
    ensures var r := PlaceAtDistance(k, segment, reference, distance);
      FootOffset(r, reference) == Scale(distance, Normal(k, FootOffset(segment, reference)))
  {
    var s, e := segment.start, segment.end;
    var current := FootOffset(segment, reference);
    var unit := Normal(k, current);
    var shift := Sub(Scale(distance, unit), current);
    assert Dot(shift, Sub(e, s)) == 0.0 by {
      ProjectionIsPerpendicular(reference, s, e);
      DotOfNormal(k, current, Sub(e, s));
      DotScaleLeft(distance, unit, Sub(e, s));
    }
    ProjectionOfShiftedLine(reference, s, e, shift);
  }

  /**
    DrawRectangle: the straight sides as lines and the corners as arcs of a rebuilt rectangle of
    the given width and height; None when the geometry cannot be built.
  */
  function DrawRectangle(k: Kernel, d: SectionData, width: real, height: real)
    : (r: Option<seq<Effect>>)
    ensures r.Some? <==> SectionOf(k, d, width, height).Some?
    ensures r.Some? ==> |r.value| <= |SectionOf(k, d, width, height).value.rectangular|
  {
    var s :- SectionOf(k, d, width, height);
    Some(DrawCurves(s.rectangular))
  }

  /** The centroid every handler measures from: the origin of the aligned frame. */
  function Centroid(k: Kernel, c: Component): Option<Vec3> {
    var frame :- SectionCoordsys(k, c.input);
    Some(frame.origin)
  }

  /** Which pair of opposite sides a drag moves. */
  datatype Axis = Width | Height

  /** Move both sides of one pair to `distance` from the centroid. */
  function MovePair(k: Kernel, h: Handles, axis: Axis, centroid: Vec3, distance: real): (r: Handles)
    ensures axis == Width ==> r.top == h.top && r.bottom == h.bottom
    ensures axis == Height ==> r.right == h.right && r.left == h.left
  {
    match axis
    case Width =>
      h.(right := PlaceAtDistance(k, h.right, centroid, distance),
         left := PlaceAtDistance(k, h.left, centroid, distance))
    case Height =>
      h.(top := PlaceAtDistance(k, h.top, centroid, distance),
         bottom := PlaceAtDistance(k, h.bottom, centroid, distance))
  }

  /**
    OnWidthDragOngoing and OnHeightDragOngoing. `sender` is the line of the dragged handle, None
    when the sender is not a line handle. The half side is the sender's distance from the
    centroid; both sides of the pair move there, then the preview is redrawn with the new side
    and the stored other side.
  */
  function DragOngoing(k: Kernel, c: Component, h: Handles, axis: Axis, sender: Option<LineSegment>)
    : (r: Outcome<Handles>)
    ensures sender.None? ==> r == Outcome(h, [], true)
    ensures sender.Some? && Centroid(k, c).None? ==> r == Outcome(h, [], false)
    ensures sender.Some? && Centroid(k, c).Some? ==>
      var centroid := Centroid(k, c).value;
      var half := DistanceToLine(k, centroid, sender.value.start, sender.value.end);
      && r.state == MovePair(k, h, axis, centroid, half)
      && |r.effects| >= 1 && r.effects[0] == ClearGraphics
  {
    match sender
    case None => Outcome(h, [], true)
    case Some(line) =>
      match Centroid(k, c)
      case None => Outcome(h, [], false)
      case Some(centroid) =>
        var half := DistanceToLine(k, centroid, line.start, line.end);
        var moved := MovePair(k, h, axis, centroid, half);
        match Redraw(k, Fetch(k, c).value, axis, half)
        case None => Outcome(moved, [ClearGraphics], false)
        case Some(es) => Outcome(moved, [ClearGraphics] + es, true)
  }

  /** The preview of a drag: the dragged pair at twice `half`, the other pair as stored. */
  function Redraw(k: Kernel, d: SectionData, axis: Axis, half: real): Option<seq<Effect>> {
    match axis
    case Width => DrawRectangle(k, d, 2.0 * half, d.height)
    case Height => DrawRectangle(k, d, d.width, 2.0 * half)
  }

  /** The outcome of a drag from a line handle, in terms of the preview it redraws. */
  lemma DragOngoingOutcome(k: Kernel, c: Component, h: Handles, axis: Axis, line: LineSegment)
    requires Centroid(k, c).Some?
    ensures var half := DistanceToLine(k, Centroid(k, c).value, line.start, line.end);
      var drawn := Redraw(k, Fetch(k, c).value, axis, half);
      var r := DragOngoing(k, c, h, axis, Some(line));
      && r.completed == drawn.Some?
      && (drawn.Some? ==> r.effects == [ClearGraphics] + drawn.value)
      && (drawn.None? ==> r.effects == [ClearGraphics])
  {
  }

  /** The preview's width and height for each axis. */
  lemma RedrawSizes(k: Kernel, d: SectionData, axis: Axis, half: real)
    ensures Redraw(k, d, axis, half) == if axis == Width then DrawRectangle(k, d, 2.0 * half, d.height)
                                       else DrawRectangle(k, d, d.width, 2.0 * half)
  {
  }

  /**
    After a drag from a line handle with a readable centroid, the preview is cleared and the
    rectangle is redrawn with the dragged pair at twice the sender's distance and the other
    pair at its stored size; the handler fails exactly when that rectangle cannot be built.
  */
  lemma DragOngoingRedraws(k: Kernel, c: Component, h: Handles, axis: Axis, line: LineSegment)
    requires Centroid(k, c).Some?
    ensures var r := DragOngoing(k, c, h, axis, Some(line));
      var half := DistanceToLine(k, Centroid(k, c).value, line.start, line.end);
      var d := Fetch(k, c).value;
      var drawn := if axis == Width then DrawRectangle(k, d, 2.0 * half, d.height)
                   else DrawRectangle(k, d, d.width, 2.0 * half);
      && r.completed == drawn.Some?
      && (drawn.Some? ==> r.effects == [ClearGraphics] + drawn.value)
      && (drawn.None? ==> r.effects == [ClearGraphics])
  {
    DragOngoingOutcome(k, c, h, axis, line);
    RedrawSizes(k, Fetch(k, c).value, axis,
                DistanceToLine(k, Centroid(k, c).value, line.start, line.end));
  }

  /**
    OnDragEnded: write twice the distances of the right and the top side from the centroid as
    the width and the height, then modify the component and commit.
  */
  function DragEnded(k: Kernel, c: Component, h: Handles): (r: Outcome<Component>)
    ensures Centroid(k, c).None? <==> !r.completed
    ensures !r.completed ==> r == Outcome(c, [], false)
    ensures r.completed ==>
      var centroid := Centroid(k, c).value;
      var width := 2.0 * DistanceToLine(k, centroid, h.right.start, h.right.end);
      var height := 2.0 * DistanceToLine(k, centroid, h.top.start, h.top.end);
      && r.effects == [SetAttribute(RectangleWidthKey, width),
                       SetAttribute(RectangleHeightKey, height), Modify, CommitChanges]
      && BaseWidth(r.state) == width && BaseHeight(r.state) == height
      && Radius(r.state) == Radius(c) && r.state.input == c.input
  {
    match Centroid(k, c)
    case None => Outcome(c, [], false)
    case Some(centroid) =>
      var height := 2.0 * DistanceToLine(k, centroid, h.top.start, h.top.end);
      var width := 2.0 * DistanceToLine(k, centroid, h.right.start, h.right.end);
      var written := SetNumber(SetNumber(c, RectangleWidthKey, width), RectangleHeightKey, height);
      Outcome(written,
              [SetAttribute(RectangleWidthKey, width), SetAttribute(RectangleHeightKey, height),
               Modify, CommitChanges],
              true)
  }

  /**
    A width drag followed by the end of the drag stores twice the dragged side's distance from
    the centroid as the width, provided the right side did not pass through the centroid; the
    height is stored unchanged from the top side.
  */
  lemma WidthDragThenEnd(k: Kernel, c: Component, h: Handles, sender: LineSegment)
    requires Lawful(k) && Centroid(k, c).Some?
    requires FootOffset(h.right, Centroid(k, c).value) != Zero
    ensures var centroid := Centroid(k, c).value;
      var dragged := DragOngoing(k, c, h, Width, Some(sender)).state;
      var ended := DragEnded(k, c, dragged);
      && ended.completed
      && BaseWidth(ended.state) == 2.0 * DistanceToLine(k, centroid, sender.start, sender.end)
      && BaseHeight(ended.state) == 2.0 * DistanceToLine(k, centroid, h.top.start, h.top.end)
  {
    var centroid := Centroid(k, c).value;
    var half := DistanceToLine(k, centroid, sender.start, sender.end);
    assert half >= 0.0 by {
      assert LengthLaw(k, Sub(centroid, ProjectToLine(centroid, sender.start, sender.end)));
    }
    PlacedAtDistance(k, h.right, centroid, half);
  }

  /** The same for a height drag: the height follows the dragged side, the width stays. */
  lemma HeightDragThenEnd(k: Kernel, c: Component, h: Handles, sender: LineSegment)
    requires Lawful(k) && Centroid(k, c).Some?
    requires FootOffset(h.top, Centroid(k, c).value) != Zero
    ensures var centroid := Centroid(k, c).value;
      var dragged := DragOngoing(k, c, h, Height, Some(sender)).state;
      var ended := DragEnded(k, c, dragged);
      && ended.completed
      && BaseHeight(ended.state) == 2.0 * DistanceToLine(k, centroid, sender.start, sender.end)
      && BaseWidth(ended.state) == 2.0 * DistanceToLine(k, centroid, h.right.start, h.right.end)
  {
    var centroid := Centroid(k, c).value;
    var half := DistanceToLine(k, centroid, sender.start, sender.end);
    assert half >= 0.0 by {
      assert LengthLaw(k, Sub(centroid, ProjectToLine(centroid, sender.start, sender.end)));
    }
    PlacedAtDistance(k, h.top, centroid, half);
  }

  /**
    In an orthonormal frame, the side from (a, -b) to (a, b) and the side from (b, a) to
    (-b, a) of the local XY plane both pass at distance a from the origin.
  */
  lemma SideAtDistance(k: Kernel, cs: CoordSys, a: real, b: real)
    requires Lawful(k) && Unit(k, cs.axisX) && Unit(k, cs.axisY)
    requires cs.axisX != Zero && cs.axisY != Zero && Dot(cs.axisX, cs.axisY) == 0.0
    requires a >= 0.0 && b != 0.0
    ensures DistanceToLine(k, cs.origin, ToGlobal(cs, Vec3(a, -b, 0.0)), ToGlobal(cs, Vec3(a, b, 0.0))) == a
    ensures DistanceToLine(k, cs.origin, ToGlobal(cs, Vec3(b, a, 0.0)), ToGlobal(cs, Vec3(-b, a, 0.0))) == a
  {
    var o, x, y := cs.origin, cs.axisX, cs.axisY;
    assert ToGlobal(cs, Vec3(a, -b, 0.0)) == Add(o, Add(Scale(a, x), Scale(-b, y)));
    assert ToGlobal(cs, Vec3(a, b, 0.0)) == Add(o, Add(Scale(a, x), Scale(b, y)));
    DistanceToOffsetLine(k, o, x, y, a, b);
    assert ToGlobal(cs, Vec3(b, a, 0.0)) == Add(o, Add(Scale(a, y), Scale(-(-b), x)));
    assert ToGlobal(cs, Vec3(-b, a, 0.0)) == Add(o, Add(Scale(a, y), Scale(-b, x)));
    assert Dot(y, x) == 0.0;
    DistanceToOffsetLine(k, o, y, x, a, -b);
  }

  /** A component whose stored dimensions are positive and whose input gives a frame. */
  ghost predicate Buildable(k: Kernel, c: Component) {
    && Lawful(k) && FrameReadable(c.input)
    && BaseWidth(c) > 0.0 && BaseHeight(c) > 0.0 && Radius(c) > 0.0
  }

  /**
    The sides of the rectangle rebuilt from positive fetched values in a non-degenerate frame:
    the right one stands half the width and the top one half the height from the centroid.
  */
  lemma SidesAtHalfDimensions(k: Kernel, d: SectionData)
    requires Lawful(k) && d.width > 0.0 && d.height > 0.0 && d.radius > 0.0
    requires FrameNormal(d.frame) != Zero
    ensures SectionOf(k, d, d.width, d.height).Some?
    ensures var ls := LinesOf(SectionOf(k, d, d.width, d.height).value.rectangular);
      && |ls| == 4
      && DistanceToLine(k, d.frame.origin, ls[0].start, ls[0].end) == d.width / 2.0
      && DistanceToLine(k, d.frame.origin, ls[1].start, ls[1].end) == d.height / 2.0
  {
    SidesOfData(k, d);
    PlacedSideDistances(k, d.frame.origin, FrameNormal(d.frame), d.width, d.height);
  }

  /** The right side of the rounded rectangle with the given sides, in the base frame. */
  function PlacedRight(k: Kernel, o: Vec3, n: Vec3, width: real, height: real): LineSegment {
    var cs := BaseCoordsys(k, o, n);
    var hw, hh, r := width / 2.0, height / 2.0, CornerRadius(height, width);
    LineSegment(ToGlobal(cs, Vec3(hw, -(hh - r), 0.0)), ToGlobal(cs, Vec3(hw, hh - r, 0.0)))
  }

  /** The top side of the rounded rectangle with the given sides, in the base frame. */
  function PlacedTop(k: Kernel, o: Vec3, n: Vec3, width: real, height: real): LineSegment {
    var cs := BaseCoordsys(k, o, n);
    var hw, hh, r := width / 2.0, height / 2.0, CornerRadius(height, width);
    LineSegment(ToGlobal(cs, Vec3(hw - r, hh, 0.0)), ToGlobal(cs, Vec3(-(hw - r), hh, 0.0)))
  }

  /** In a non-degenerate frame the placed right and top sides stand half a side from the centroid. */
  lemma PlacedSideDistances(k: Kernel, o: Vec3, n: Vec3, width: real, height: real)
    requires Lawful(k) && n != Zero && width > 0.0 && height > 0.0
    ensures var right := PlacedRight(k, o, n, width, height);
      DistanceToLine(k, o, right.start, right.end) == width / 2.0
    ensures var top := PlacedTop(k, o, n, width, height);
      DistanceToLine(k, o, top.start, top.end) == height / 2.0
  {
    var cs := BaseCoordsys(k, o, n);
    var hw, hh, r := width / 2.0, height / 2.0, CornerRadius(height, width);
    assert hh - r > 0.0 && hw - r > 0.0 && r > 0.0 by {
      StraightRuns(height, width);
    }
    assert Unit(k, cs.axisX) && Unit(k, cs.axisY) && cs.axisX != Zero && cs.axisY != Zero
        && Dot(cs.axisX, cs.axisY) == 0.0 by {
      BaseCoordsysUnit(k, o, n);
    }
    FrameSides(k, cs, hw, hh, r);
  }

  /** The right and top sides of a rounded rectangle in an orthonormal frame, by their distances. */
  lemma FrameSides(k: Kernel, cs: CoordSys, hw: real, hh: real, r: real)
    requires Lawful(k) && Unit(k, cs.axisX) && Unit(k, cs.axisY)
    requires cs.axisX != Zero && cs.axisY != Zero && Dot(cs.axisX, cs.axisY) == 0.0
    requires hh - r > 0.0 && hw - r > 0.0 && r > 0.0
    ensures DistanceToLine(k, cs.origin, ToGlobal(cs, Vec3(hw, -(hh - r), 0.0)),
                           ToGlobal(cs, Vec3(hw, hh - r, 0.0))) == hw
    ensures DistanceToLine(k, cs.origin, ToGlobal(cs, Vec3(hw - r, hh, 0.0)),
                           ToGlobal(cs, Vec3(-(hw - r), hh, 0.0))) == hh
  {
    SideAtDistance(k, cs, hw, hh - r);
    SideAtDistance(k, cs, hh, hw - r);
  }

  /** The right and the top side of the rectangle rebuilt from positive fetched values. */
  lemma SidesOfData(k: Kernel, d: SectionData)
    requires Lawful(k) && d.width > 0.0 && d.height > 0.0 && d.radius > 0.0
    ensures SectionOf(k, d, d.width, d.height).Some?
    ensures var ls := LinesOf(SectionOf(k, d, d.width, d.height).value.rectangular);
      && |ls| == 4
      && ls[0] == PlacedRight(k, d.frame.origin, FrameNormal(d.frame), d.width, d.height)
      && ls[1] == PlacedTop(k, d.frame.origin, FrameNormal(d.frame), d.width, d.height)
  {
    var o, n := d.frame.origin, FrameNormal(d.frame);
    SectionBuiltFrom(k, d.height, d.width, d.length, d.radius, o, n);
    var rect := TransformToGlobal(k, o, n, ExpectedRectangle(d.height, d.width)).value;
    assert SectionOf(k, d, d.width, d.height).value.rectangular == rect;
    SidesOfExpected(k, o, n, d.width, d.height, rect);
  }

  /** The sides of the placed expected rectangle. */
  lemma SidesOfExpected(k: Kernel, o: Vec3, n: Vec3, width: real, height: real, rect: seq<Curve>)
    requires TransformToGlobal(k, o, n, ExpectedRectangle(height, width)) == Some(rect)
    ensures var ls := LinesOf(rect);
      && |ls| == 4
      && ls[0] == PlacedRight(k, o, n, width, height)
      && ls[1] == PlacedTop(k, o, n, width, height)
  {
    var hw, hh, r := width / 2.0, height / 2.0, CornerRadius(height, width);
    assert ExpectedRectangle(height, width) == RoundedRectangle(hw, hh, r);
    SidesOfRounded(k, o, n, hw, hh, r, rect);
  }

  /** The first two straight sides of a placed rounded rectangle: its right and its top side. */
  lemma SidesOfRounded(k: Kernel, o: Vec3, n: Vec3, hw: real, hh: real, r: real, rect: seq<Curve>)
    requires TransformToGlobal(k, o, n, RoundedRectangle(hw, hh, r)) == Some(rect)
    ensures var cs := BaseCoordsys(k, o, n);
      var ls := LinesOf(rect);
      && |ls| == 4
      && ls[0] == LineSegment(ToGlobal(cs, Vec3(hw, -(hh - r), 0.0)), ToGlobal(cs, Vec3(hw, hh - r, 0.0)))
      && ls[1] == LineSegment(ToGlobal(cs, Vec3(hw - r, hh, 0.0)), ToGlobal(cs, Vec3(-(hw - r), hh, 0.0)))
  {
    var local := RoundedRectangle(hw, hh, r);
    RectangleKinds(hw, hh, r);
    assert |rect| == 8;
    assert forall i | 0 <= i < 8 :: (rect[i].Segment? <==> i % 2 == 0) && (rect[i].Arc? <==> i % 2 == 1);
    AlternatingChain(rect);
    var cs := BaseCoordsys(k, o, n);
    assert rect[0].start == ToGlobal(cs, local[0].start) && rect[0].end == ToGlobal(cs, local[0].end);
    assert rect[2].start == ToGlobal(cs, local[2].start) && rect[2].end == ToGlobal(cs, local[2].end);
  }

  /**
    The handles of a buildable component exist, and the right and the top one stand half the
    stored width and half the stored height from the centroid.
  */
  lemma HandlesAtHalfDimensions(k: Kernel, c: Component)
    requires Buildable(k, c)
    ensures CreateHandles(k, c).Some? && Centroid(k, c).Some?
    ensures var h := CreateHandles(k, c).value;
      var centroid := Centroid(k, c).value;
      && 2.0 * DistanceToLine(k, centroid, h.right.start, h.right.end) == BaseWidth(c)
      && 2.0 * DistanceToLine(k, centroid, h.top.start, h.top.end) == BaseHeight(c)
  {
    FrameNormalNonZero(k, c.input);
    var d := Fetch(k, c).value;
    SidesAtHalfDimensions(k, d);
    var ls := LinesOf(SectionOf(k, d, d.width, d.height).value.rectangular);
    assert GetRectangle(k, c) == Some(ls);
    assert Centroid(k, c) == Some(d.frame.origin);
  }

  /**
    Ending a drag on handles nobody moved writes back the stored width and height: the right
    and the top side stand half the width and half the height away from the centroid.
  */
  lemma UnmovedHandlesWriteBack(k: Kernel, c: Component)
    requires Buildable(k, c)
    ensures CreateHandles(k, c).Some?
    ensures var ended := DragEnded(k, c, CreateHandles(k, c).value);
      && ended.completed
      && BaseWidth(ended.state) == BaseWidth(c)
      && BaseHeight(ended.state) == BaseHeight(c)
  {
    HandlesAtHalfDimensions(k, c);
  }

  /** The line handles, by the side of the rectangle they sit on. */
  datatype Side = RightSide | TopSide | LeftSide | BottomSide

  /** The drag events of a line handle. */
  datatype DragEvent = Started | Ongoing | Ended

  /** The context's handler methods. */
  datatype Handler = OnDragStarted | OnWidthDragOngoing | OnHeightDragOngoing | OnDragEnded

  datatype Registration = Registration(side: Side, event: DragEvent, handler: Handler)

  /** Which handles exist; a missing one is null in the context. */
  datatype Present = Present(right: bool, top: bool, left: bool, bottom: bool)

  /** The registrations for one handle: start, ongoing (width or height by side) and end. */
  function SideRegistrations(side: Side): (regs: seq<Registration>)
    ensures |regs| == 3
    ensures forall i | 0 <= i < 3 :: regs[i].side == side
    ensures regs[1].handler == (if side in {RightSide, LeftSide} then OnWidthDragOngoing else OnHeightDragOngoing)
  {
    var ongoing := match side
      case RightSide => OnWidthDragOngoing
      case LeftSide => OnWidthDragOngoing
      case TopSide => OnHeightDragOngoing
      case BottomSide => OnHeightDragOngoing;
    [Registration(side, Started, OnDragStarted), Registration(side, Ongoing, ongoing),
     Registration(side, Ended, OnDragEnded)]
  }

  /**
    AttachHandlers and DetachHandlers walk the handles right, top, left, bottom and stop at the
    first missing one; both touch the same registrations.
  */
  function HandlerRegistrations(p: Present): (regs: seq<Registration>)
    ensures p.right && p.top && p.left && p.bottom ==> |regs| == 12
    ensures !p.right ==> regs == []
  {
    if !p.right then []
    else if !p.top then SideRegistrations(RightSide)
    else if !p.left then SideRegistrations(RightSide) + SideRegistrations(TopSide)
    else if !p.bottom then
      SideRegistrations(RightSide) + SideRegistrations(TopSide) + SideRegistrations(LeftSide)
    else
      SideRegistrations(RightSide) + SideRegistrations(TopSide) + SideRegistrations(LeftSide)
        + SideRegistrations(BottomSide)
  }

  function AttachHandlers(subs: multiset<Registration>, p: Present): multiset<Registration> {
    Subscribe(subs, HandlerRegistrations(p))
  }

  function DetachHandlers(subs: multiset<Registration>, p: Present): multiset<Registration> {
    Unsubscribe(subs, HandlerRegistrations(p))
  }

  /** The handler a handle's event is meant to call: ongoing drags by the side's axis. */
  function ExpectedHandler(side: Side, event: DragEvent): Handler {
    match event
    case Started => OnDragStarted
    case Ended => OnDragEnded
    case Ongoing => if side == RightSide || side == LeftSide then OnWidthDragOngoing else OnHeightDragOngoing
  }

  /** A handle's registrations are its three expected ones, each once. */
  lemma SideRegistrationCount(side: Side, x: Registration)
    ensures multiset(SideRegistrations(side))[x]
      == if x.side == side && x.handler == ExpectedHandler(side, x.event) then 1 else 0
  {
  }

  /** A handle's place in the order the handlers are attached: right, top, left, bottom. */
  function Rank(side: Side): nat {
    match side
    case RightSide => 0
    case TopSide => 1
    case LeftSide => 2
    case BottomSide => 3
  }

  function Has(p: Present, side: Side): bool {
    match side
    case RightSide => p.right
    case TopSide => p.top
    case LeftSide => p.left
    case BottomSide => p.bottom
  }

  /** The walk reaches a handle when it and every handle before it in the order are present. */
  predicate Reached(p: Present, side: Side) {
    forall s: Side | Rank(s) <= Rank(side) :: Has(p, s)
  }

  /** The walk reaches the handles in order, each only if all before it are present. */
  lemma ReachedInOrder(p: Present)
    ensures Reached(p, RightSide) <==> p.right
    ensures Reached(p, TopSide) <==> p.right && p.top
    ensures Reached(p, LeftSide) <==> p.right && p.top && p.left
    ensures Reached(p, BottomSide) <==> p.right && p.top && p.left && p.bottom
  {
    assert Rank(RightSide) <= Rank(TopSide) <= Rank(LeftSide) <= Rank(BottomSide);
  }

  /** The registrations of a walk, as the sum of the reached handles' own registrations. */
  lemma RegistrationsOfReached(p: Present)
    ensures multiset(HandlerRegistrations(p))
      == (if Reached(p, RightSide) then multiset(SideRegistrations(RightSide)) else multiset{})
       + (if Reached(p, TopSide) then multiset(SideRegistrations(TopSide)) else multiset{})
       + (if Reached(p, LeftSide) then multiset(SideRegistrations(LeftSide)) else multiset{})
       + (if Reached(p, BottomSide) then multiset(SideRegistrations(BottomSide)) else multiset{})
  {
    ReachedInOrder(p);
  }

  /**
    The registrations are every expected handler, once, on exactly the handles the walk
    reaches: a prefix of right, top, left, bottom.
  */
  lemma RegistrationCount(p: Present, x: Registration)
    ensures multiset(HandlerRegistrations(p))[x]
      == if Reached(p, x.side) && x.handler == ExpectedHandler(x.side, x.event) then 1 else 0
  {
    RegistrationsOfReached(p);
    SideRegistrationCount(RightSide, x);
    SideRegistrationCount(TopSide, x);
    SideRegistrationCount(LeftSide, x);
    SideRegistrationCount(BottomSide, x);
  }

  /**
    Attaching registers every expected handler once on each handle the walk reaches and nothing
    else; detaching with the same handles present leaves the subscriptions as they were.
  */
  lemma AttachThenDetach(subs: multiset<Registration>, p: Present, x: Registration)
    ensures var attached := AttachHandlers(subs, p);
      && attached[x] == subs[x] + (if Reached(p, x.side) && x.handler == ExpectedHandler(x.side, x.event) then 1 else 0)
      && DetachHandlers(attached, p) == subs
  {
    RegistrationCount(p, x);
    UnsubscribeAfterSubscribe(subs, HandlerRegistrations(p));
  }
}

=== FILE: transition_section_creation.dfy ===
/**
  ComplexTransitionSectionPluginFeatures.TransitionSectionCreationFeature: a picking session for
  the two points of a new transition section, a live preview of the section the cursor would
  make, and on session end the dimensions from the value boxes and the picked polygon committed
  to the new component.
*/
module TransitionSectionCreation {
  import opened Wrappers
  import opened Geometry
  import opened Polycurves
  import opened Host
  import opened TransitionSectionGeometry
  import opened TransitionSectionPlugin
  import opened DataFetcher
  import opened Picking

  /** The three value boxes of the toolbar; they start at the plugin's defaults. */
  datatype Boxes = Boxes(radius: real, width: real, height: real)

  const InitialBoxes := Boxes(DefaultCircleRadius, DefaultRectangleWidth, DefaultRectangleHeight)

  /** The preview draws only when every distance reaches the tolerance. */
  predicate Measurable(k: Kernel, b: Boxes, length: real) {
    b.height >= k.epsilon && b.width >= k.epsilon && b.radius >= k.epsilon && length >= k.epsilon
  }

  /**
    The section under the cursor: based at the last picked point, as long as the cursor is far
    from it, with the normal towards the cursor.
  */
  function PreviewSection(k: Kernel, last: Vec3, hit: Vec3, b: Boxes): Option<Section> {
    MakeSection(k, b.height, b.width, Distance(k, hit, last), b.radius, last, Sub(hit, last))
  }

  /**
    The cone lines of DrawTransitionSection: for each (rectangle arc, circle curve) pair a line
    between their starts and one between their ends. A circle curve that is not an arc is null,
    and reading its start point throws, so drawing stops at the first such pair.
  */
  function ConeLines(pairs: seq<ArcPair>): (es: seq<Effect>)
    ensures |es| == 2 * TrianglesBeforeFailure(pairs)
    ensures forall i | 0 <= i < TrianglesBeforeFailure(pairs) ::
      && es[2 * i] == DrawLine(pairs[i].bottom.start, pairs[i].top.value.start)
      && es[2 * i + 1] == DrawLine(pairs[i].bottom.end, pairs[i].top.value.end)
  {
    if |pairs| == 0 || pairs[0].top.None? then []
    else
      var rest := ConeLines(pairs[1..]);
      assert forall i | 1 <= i < TrianglesBeforeFailure(pairs) :: pairs[i] == pairs[1..][i - 1];
      [DrawLine(pairs[0].bottom.start, pairs[0].top.value.start),
       DrawLine(pairs[0].bottom.end, pairs[0].top.value.end)] + rest
  }

  /** DrawTransitionSection: both polycurves, then the cone lines; it completes when every pair has a top arc. */
  function DrawSection(s: Section): (r: Outcome<()>)
    ensures var pairs := ArcPairs(s.rectangular, s.circular);
      r.completed <==> TrianglesBeforeFailure(pairs) == |pairs|
  {
    var pairs := ArcPairs(s.rectangular, s.circular);
    Outcome((), DrawCurves(s.rectangular) + DrawCurves(s.circular) + ConeLines(pairs),
            TrianglesBeforeFailure(pairs) == |pairs|)
  }

  /**
    OnPreviewRequested: clear the graphics; with no point picked, or a dimension or the distance
    to the cursor below the tolerance, draw nothing more; otherwise draw the section under the
    cursor. A geometry the host cannot build throws.
  */
  function Preview(k: Kernel, points: seq<Vec3>, hit: Vec3, b: Boxes): (r: Outcome<()>)
    ensures |r.effects| >= 1 && r.effects[0] == ClearGraphics
    ensures |points| == 0 ==> r == Outcome((), [ClearGraphics], true)
    ensures |points| > 0 && !Measurable(k, b, Distance(k, hit, points[|points| - 1])) ==>
      r == Outcome((), [ClearGraphics], true)
    ensures |r.effects| > 1 ==>
      && |points| > 0 && Measurable(k, b, Distance(k, hit, points[|points| - 1]))
      && PreviewSection(k, points[|points| - 1], hit, b).Some?
  {
    if |points| == 0 then Outcome((), [ClearGraphics], true)
    else
      var last := points[|points| - 1];
      if !Measurable(k, b, Distance(k, hit, last)) then Outcome((), [ClearGraphics], true)
      else
        match PreviewSection(k, last, hit, b)
        case None => Outcome((), [ClearGraphics], false)
        case Some(s) =>
          var drawn := DrawSection(s);
          Outcome((), [ClearGraphics] + drawn.effects, drawn.completed)
  }

  /**
    A preview that passes the gate builds a well-shaped section under the cursor and draws all
    of it, to the end.
  */
  lemma PreviewOfMeasurable(k: Kernel, points: seq<Vec3>, hit: Vec3, b: Boxes)
    requires Lawful(k) && |points| > 0
    requires Measurable(k, b, Distance(k, hit, points[|points| - 1]))
    ensures var s := PreviewSection(k, points[|points| - 1], hit, b);
      && s.Some? && WellShaped(s.value)
      && Preview(k, points, hit, b) == Outcome((), [ClearGraphics] + DrawSection(s.value).effects, true)
  {
    var last := points[|points| - 1];
    var len := Distance(k, hit, last);
    SectionShape(k, b.height, b.width, len, b.radius, last, Sub(hit, last));
    DrawnWellShaped(PreviewSection(k, last, hit, b).value);
  }

  /**
    Drawing a well-shaped section completes with twenty effects: the eight rectangle curves, the
    four circle arcs, then two cone lines from each rounded corner of the rectangle to its
    quarter of the circle.
  */
  lemma DrawnWellShaped(s: Section)
    requires WellShaped(s)
    ensures var d := DrawSection(s);
      && d.completed && |d.effects| == 20
      && (forall i | 0 <= i < 4 ::
            d.effects[12 + 2 * i] == DrawLine(s.rectangular[2 * i + 1].start, s.circular[i].start))
  {
    PairsOfWellShaped(s);
    assert forall i | 0 <= i < 8 :: !s.rectangular[i].OtherCurve?;
    assert forall i | 0 <= i < 4 :: !s.circular[i].OtherCurve?;
    var pairs := ArcPairs(s.rectangular, s.circular);
    var lines := ConeLines(pairs);
    var curves := DrawCurves(s.rectangular) + DrawCurves(s.circular);
    assert |curves| == 12;
    assert DrawSection(s).effects == curves + lines;
    forall i | 0 <= i < 4
      ensures (curves + lines)[12 + 2 * i] == DrawLine(s.rectangular[2 * i + 1].start, s.circular[i].start)
    {
      assert (curves + lines)[12 + 2 * i] == lines[2 * i];
    }
  }

  /**
    The preview after the first pick shows the section Run builds once the cursor's point is
    picked as the second: the same base, normal, length and dimensions, when the plugin's data
    holds the values of the boxes.
  */
  lemma PreviewMatchesRun(k: Kernel, b: Boxes, style: Style, p0: Vec3, p1: Vec3)
    requires Lawful(k)
    ensures var data := Stored(Values(style, b.width, b.height, b.radius));
      var made := PreviewSection(k, p0, p1, b);
      && made == MakeSection(k, b.height, b.width, Distance(k, p0, p1), b.radius, p0, Sub(p1, p0))
      && (made.Some? ==>
            RunInserts(k, data, [ListInput([PointObject(p0), PointObject(p1)])])
              == SectionParts(made.value.rectangular, made.value.circular, style))
  {
    DistanceSymmetric(k, p1, p0);
    var objects := [PointObject(p0), PointObject(p1)];
    assert objects[1..][1..] == [];
    assert PointsOf(objects) == [p0, p1];
  }

  /** Distances do not depend on the direction they are measured in. */
  lemma DistanceSymmetric(k: Kernel, a: Vec3, b: Vec3)
    requires Lawful(k)
    ensures Distance(k, a, b) == Distance(k, b, a)
  {
    assert Sub(a, b) == Scale(-1.0, Sub(b, a));
    LengthOfScaled(k, -1.0, Sub(b, a));
  }

  /**
    OnPickSessionEnded: write the width, height and radius of the boxes, then commit one polygon
    of the picked points in pick order as the component's input.
  */
  function SessionEnd(c: Component, points: seq<Vec3>, b: Boxes): (r: Outcome<Component>)
    ensures r.completed && r.state.id == c.id
    ensures r.effects == [SetAttribute(RectangleWidthKey, b.width), SetAttribute(RectangleHeightKey, b.height),
                          SetAttribute(CircleRadiusKey, b.radius), CommitInput(PolygonInput(points))]
  {
    var written := SetNumber(SetNumber(SetNumber(c, RectangleWidthKey, b.width), RectangleHeightKey, b.height),
                             CircleRadiusKey, b.radius);
    Outcome(written.(input := Some(PolygonInput(points))), [SetAttribute(RectangleWidthKey, b.width),
            SetAttribute(RectangleHeightKey, b.height), SetAttribute(CircleRadiusKey, b.radius),
            CommitInput(PolygonInput(points))], true)
  }

  /**
    The component the session commits reads back, through the manipulation features' fetcher,
    as the boxes' dimensions and exactly the picked points.
  */
  lemma SessionEndReadsBack(c: Component, points: seq<Vec3>, b: Boxes)
    ensures var made := SessionEnd(c, points, b).state;
      && BaseWidth(made) == b.width && BaseHeight(made) == b.height && Radius(made) == b.radius
      && DefinitionPoints(made.input) == Some(points)
  {
    PolygonInputPoints(points);
  }

  /** The picking tool's events this feature handles. */
  const AttachedEvents := [PreviewRequested, ObjectPicked, InputValidationRequested, PickSessionEnded, PickUndone]

  /** AttachHandlers: one registration on each of the five events; nothing without a picking tool. */
  function AttachHandlers(tool: Option<multiset<ToolEvent>>): (r: Option<multiset<ToolEvent>>)
    ensures r.Some? <==> tool.Some?
    ensures tool.Some? ==> forall e :: r.value[e] == tool.value[e] + (if e in AttachedEvents then 1 else 0)
  {
    match tool
    case None => None
    case Some(subs) => Some(Subscribe(subs, AttachedEvents))
  }

  /**
    DetachHandlers as written: it removes four of the registrations, but the line for
    PickSessionEnded uses `+=` and adds a second one.
  */
  function DetachHandlersAsWritten(tool: Option<multiset<ToolEvent>>): (r: Option<multiset<ToolEvent>>)
    ensures r.Some? <==> tool.Some?
  {
    match tool
    case None => None
    case Some(subs) =>
      Some(Subscribe(Unsubscribe(subs, [PreviewRequested, ObjectPicked, InputValidationRequested]),
                     [PickSessionEnded]) - multiset{PickUndone})
  }

  /** After attaching and then detaching as written, the session-end handler is registered twice. */
  lemma AttachThenDetachAsWritten(subs: multiset<ToolEvent>)
    ensures var r := DetachHandlersAsWritten(AttachHandlers(Some(subs))).value;
      && r[PickSessionEnded] == subs[PickSessionEnded] + 2
      && forall e | e != PickSessionEnded :: r[e] == subs[e]
  {
  }

  /** DetachHandlers as intended: one removal for each registration AttachHandlers makes. */
  function DetachHandlers(tool: Option<multiset<ToolEvent>>): (r: Option<multiset<ToolEvent>>)
    ensures r.Some? <==> tool.Some?
    ensures tool.Some? ==> r.value <= tool.value
  {
    match tool
    case None => None
    case Some(subs) => Some(Unsubscribe(subs, AttachedEvents))
  }

  /** Detaching as intended undoes attaching exactly. */
  lemma AttachThenDetach(tool: Option<multiset<ToolEvent>>)
    ensures DetachHandlers(AttachHandlers(tool)) == tool
  {
    if tool.Some? {
      UnsubscribeAfterSubscribe(tool.value, AttachedEvents);
    }
  }
}

=== FILE: transition_section_geometry.dfy ===
/**
  The geometry of a transition section (ComplexTransitionSectionPlugin.TransitionSectionGeometry):
  a rectangular base with rounded corners in the plane through the base centroid, and a circular
  section at the transition length along the normal, both built in a local frame and mapped to
  global coordinates.
*/
module TransitionSectionGeometry {
  import opened Wrappers
  import opened Geometry
  import opened Polycurves

  /** CoordinateSystem: an origin and the directions of its X and Y axes. */
  datatype CoordSys = CoordSys(origin: Vec3, axisX: Vec3, axisY: Vec3)

  /** The host's default coordinate system: the global one. */
  const DefaultCoordSys := CoordSys(Zero, UnitX, UnitY)

  /** The geometry object: the four scalars, the base placement and the two sections. */
  datatype Section = Section(
    height: real, width: real, length: real, radius: real,
    centroid: Vec3, normal: Vec3,
    rectangular: seq<Curve>, circular: seq<Curve>)

  function Min(a: real, b: real): real {
    if a <= b then a else b
  }

  /**
    GetBaseCoordsys: the Y axis is the unit of normal × global X, or global Z when that is too
    short; the X axis is the unit of Y × normal.
  */
  function BaseCoordsys(k: Kernel, centroid: Vec3, normal: Vec3): (cs: CoordSys)
    ensures cs.origin == centroid
    ensures k.length(Normal(k, Cross(normal, UnitX))) < k.epsilon ==> cs.axisY == UnitZ
  {
    var y0 := Normal(k, Cross(normal, UnitX));
    var y := if k.length(y0) < k.epsilon then UnitZ else y0;
    CoordSys(centroid, Normal(k, Cross(y, normal)), y)
  }

  /**
    The base frame is orthogonal and both of its axes are perpendicular to the normal; the Z
    fallback is taken exactly when the normal is parallel to global X.
  */
  lemma BaseCoordsysOrthogonal(k: Kernel, centroid: Vec3, normal: Vec3)
    requires Lawful(k)
    ensures var cs := BaseCoordsys(k, centroid, normal);
      && Dot(cs.axisY, normal) == 0.0
      && Dot(cs.axisX, normal) == 0.0
      && Dot(cs.axisX, cs.axisY) == 0.0
      && (cs.axisY == UnitZ <== Cross(normal, UnitX) == Zero)
      && (Cross(normal, UnitX) != Zero ==> cs.axisY == Normal(k, Cross(normal, UnitX)))
  {
    BaseAxisYCases(k, centroid, normal);
    BaseAxisYAcross(k, centroid, normal);
    BaseAxisXAcross(k, centroid, normal);
  }

  /** Which of the two choices the Y axis of the base frame takes. */
  lemma BaseAxisYCases(k: Kernel, centroid: Vec3, normal: Vec3)
    requires Lawful(k)
    ensures var cs := BaseCoordsys(k, centroid, normal);
      var v := Cross(normal, UnitX);
      && (v == Zero ==> cs.axisY == UnitZ)
      && (v != Zero ==> cs.axisY == Normal(k, v) && k.length(Normal(k, v)) == 1.0)
  {
    var v := Cross(normal, UnitX);
    LengthZeroIffZero(k, v);
    if v == Zero {
      assert Normal(k, v) == Zero;
      LengthZeroIffZero(k, Normal(k, v));
    } else {
      assert LengthLaw(k, v);
      NormalOfNonZero(k, v);
    }
  }

  /** The Y axis of the base frame is perpendicular to the normal. */
  lemma BaseAxisYAcross(k: Kernel, centroid: Vec3, normal: Vec3)
    requires Lawful(k)
    ensures Dot(BaseCoordsys(k, centroid, normal).axisY, normal) == 0.0
  {
    var v := Cross(normal, UnitX);
    BaseAxisYCases(k, centroid, normal);
    if v == Zero {
      assert normal.y == 0.0 && normal.z == 0.0;
    } else {
      CrossPerpendicular(normal, UnitX);
      DotOfNormal(k, v, normal);
    }
  }

  /** The X axis of the base frame is perpendicular to the normal and to the Y axis. */
  lemma BaseAxisXAcross(k: Kernel, centroid: Vec3, normal: Vec3)
    ensures var cs := BaseCoordsys(k, centroid, normal);
      Dot(cs.axisX, normal) == 0.0 && Dot(cs.axisX, cs.axisY) == 0.0
  {
    var cs := BaseCoordsys(k, centroid, normal);
    CrossPerpendicular(cs.axisY, normal);
    DotOfNormal(k, Cross(cs.axisY, normal), normal);
    DotOfNormal(k, Cross(cs.axisY, normal), cs.axisY);
  }

  /**
    For a non-zero normal the base frame is orthonormal, and its own normal, axis X × axis Y,
    is not zero either.
  */
  lemma BaseCoordsysUnit(k: Kernel, centroid: Vec3, normal: Vec3)
    requires Lawful(k) && normal != Zero
    ensures var cs := BaseCoordsys(k, centroid, normal);
      && Unit(k, cs.axisX) && Unit(k, cs.axisY)
      && cs.axisX != Zero && cs.axisY != Zero
      && Dot(cs.axisX, cs.axisY) == 0.0
      && Cross(cs.axisX, cs.axisY) != Zero
  {
    var cs := BaseCoordsys(k, centroid, normal);
    assert Dot(cs.axisY, normal) == 0.0 && Dot(cs.axisX, cs.axisY) == 0.0 by {
      BaseCoordsysOrthogonal(k, centroid, normal);
    }
    BaseAxisYUnit(k, centroid, normal);
    var w := Cross(cs.axisY, normal);
    assert w != Zero by {
      CrossOfOrthogonal(cs.axisY, normal);
    }
    assert cs.axisX == Normal(k, w);
    NormalIsUnit(k, w);
    CrossOfOrthogonal(cs.axisX, cs.axisY);
  }

  /**
    The base frame's own normal, axis X × axis Y, points the way of the normal it was built
    from, so normalising either gives the same unit vector.
  */
  lemma BaseFrameNormal(k: Kernel, centroid: Vec3, normal: Vec3)
    requires Lawful(k) && normal != Zero
    ensures var cs := BaseCoordsys(k, centroid, normal);
      Normal(k, Cross(cs.axisX, cs.axisY)) == Normal(k, normal)
  {
    var s := BaseFrameCross(k, centroid, normal);
    NormalOfPositiveMultiple(k, s, normal);
  }

  /** Axis X × axis Y of the base frame is a positive multiple of the normal. */
  lemma BaseFrameCross(k: Kernel, centroid: Vec3, normal: Vec3) returns (s: real)
    requires Lawful(k) && normal != Zero
    ensures var cs := BaseCoordsys(k, centroid, normal);
      s > 0.0 && Cross(cs.axisX, cs.axisY) == Scale(s, normal)
  {
    var cs := BaseCoordsys(k, centroid, normal);
    var y := cs.axisY;
    var w := Cross(y, normal);
    assert Cross(w, y) == normal && w != Zero by {
      BaseAxisYAcrossUnit(k, centroid, normal);
      CrossBack(y, normal);
      CrossOfOrthogonal(y, normal);
    }
    var len := k.length(w);
    assert len > 0.0 by {
      LengthZeroIffZero(k, w);
      assert LengthLaw(k, w);
    }
    s := 1.0 / len;
    assert s > 0.0 by {
      PositiveReciprocal(len);
    }
    assert cs.axisX == Scale(s, w);
    CrossScaleLeft(s, w, y);
  }

  /** The Y axis of the base frame is a non-zero unit vector across the normal. */
  lemma BaseAxisYAcrossUnit(k: Kernel, centroid: Vec3, normal: Vec3)
    requires Lawful(k)
    ensures var y := BaseCoordsys(k, centroid, normal).axisY;
      Dot(y, normal) == 0.0 && Dot(y, y) == 1.0 && y != Zero
  {
    var y := BaseCoordsys(k, centroid, normal).axisY;
    BaseAxisYAcross(k, centroid, normal);
    BaseAxisYUnit(k, centroid, normal);
    UnitDotSelf(k, y);
  }

  lemma PositiveReciprocal(x: real)
    requires x > 0.0
    ensures 1.0 / x > 0.0
  {
  }

  /** For a unit y across n, (y × n) × y = n: the triple product identity with y·y = 1 and y·n = 0. */
  lemma CrossBack(y: Vec3, n: Vec3)
    requires Dot(y, y) == 1.0 && Dot(y, n) == 0.0
    ensures Cross(Cross(y, n), y) == n
  {
    CrossBackX(y, n);
    CrossBackY(y, n);
    CrossBackZ(y, n);
  }

  lemma CrossBackX(y: Vec3, n: Vec3)
    requires Dot(y, y) == 1.0 && Dot(y, n) == 0.0
    ensures Cross(Cross(y, n), y).x == n.x
  {
    CrossBackFirst(y.x, y.y, y.z, n.x, n.y, n.z);
  }

  lemma CrossBackY(y: Vec3, n: Vec3)
    requires Dot(y, y) == 1.0 && Dot(y, n) == 0.0
    ensures Cross(Cross(y, n), y).y == n.y
  {
    CrossBackFirst(y.y, y.z, y.x, n.y, n.z, n.x);
  }

  lemma CrossBackZ(y: Vec3, n: Vec3)
    requires Dot(y, y) == 1.0 && Dot(y, n) == 0.0
    ensures Cross(Cross(y, n), y).z == n.z
  {
    CrossBackFirst(y.z, y.x, y.y, n.z, n.x, n.y);
  }

  /** The first coordinate of CrossBack, written out. */
  lemma CrossBackFirst(y1: real, y2: real, y3: real, n1: real, n2: real, n3: real)
    requires y1 * y1 + y2 * y2 + y3 * y3 == 1.0 && y1 * n1 + y2 * n2 + y3 * n3 == 0.0
    ensures (y3 * n1 - y1 * n3) * y3 - (y1 * n2 - y2 * n1) * y2 == n1
  {
    assert (y3 * n1 - y1 * n3) * y3 - (y1 * n2 - y2 * n1) * y2
        == n1 * (y2 * y2 + y3 * y3) - y1 * (y2 * n2 + y3 * n3);
  }

  lemma CrossScaleLeft(s: real, a: Vec3, b: Vec3)
    ensures Cross(Scale(s, a), b) == Scale(s, Cross(a, b))
  {
    assert (s * a.y) * b.z - (s * a.z) * b.y == s * (a.y * b.z - a.z * b.y);
    assert (s * a.z) * b.x - (s * a.x) * b.z == s * (a.z * b.x - a.x * b.z);
    assert (s * a.x) * b.y - (s * a.y) * b.x == s * (a.x * b.y - a.y * b.x);
  }

  /** Normalising a positive multiple of a vector gives that vector's unit vector. */
  lemma NormalOfPositiveMultiple(k: Kernel, s: real, v: Vec3)
    requires Lawful(k) && s > 0.0
    ensures Normal(k, Scale(s, v)) == Normal(k, v)
  {
    var len := k.length(v);
    assert k.length(Scale(s, v)) == s * len by {
      LengthOfScaled(k, s, v);
    }
    if len != 0.0 {
      var q := 1.0 / (s * len);
      assert q * s == 1.0 / len by {
        ReciprocalOfProduct(s, len);
      }
      ScaleScale(q, s, v);
    } else {
      assert v == Zero by {
        LengthZeroIffZero(k, v);
      }
    }
  }

  lemma ReciprocalOfProduct(s: real, len: real)
    requires s > 0.0 && len != 0.0
    ensures (1.0 / (s * len)) * s == 1.0 / len
  {
    assert s * len != 0.0;
  }

  /** The Y axis of the base frame is a unit vector. */
  lemma BaseAxisYUnit(k: Kernel, centroid: Vec3, normal: Vec3)
    requires Lawful(k)
    ensures var cs := BaseCoordsys(k, centroid, normal);
      Unit(k, cs.axisY) && cs.axisY != Zero
  {
    var v := Cross(normal, UnitX);
    BaseAxisYCases(k, centroid, normal);
    if v != Zero {
      NormalIsUnit(k, v);
    } else {
      assert LengthLaw(k, UnitZ);
      SquareRootUnique(k.length(UnitZ), 1.0);
    }
  }

  /** The cross product is perpendicular to both of its factors. */
  lemma CrossPerpendicular(a: Vec3, b: Vec3)
    ensures Dot(Cross(a, b), a) == 0.0 && Dot(Cross(a, b), b) == 0.0
  {
  }

  /** Normalising keeps orthogonality. */
  lemma DotOfNormal(k: Kernel, v: Vec3, w: Vec3)
    requires Dot(v, w) == 0.0
    ensures Dot(Normal(k, v), w) == 0.0
  {
    var len := k.length(v);
    if len != 0.0 {
      DotScaleLeft(1.0 / len, v, w);
    }
  }

  lemma DotScaleLeft(c: real, v: Vec3, w: Vec3)
    ensures Dot(Scale(c, v), w) == c * Dot(v, w)
  {
  }

  /** MatrixFactory.FromCoordinateSystem applied to a point: local coordinates to global. */
  function ToGlobal(cs: CoordSys, p: Vec3): (g: Vec3)
    ensures p == Zero ==> g == cs.origin
  {
    Add(cs.origin, Add(Add(Scale(p.x, cs.axisX), Scale(p.y, cs.axisY)),
                       Scale(p.z, Cross(cs.axisX, cs.axisY))))
  }

  /** TransformToGlobal: map every curve into the base frame and rebuild the chain. */
  function TransformToGlobal(k: Kernel, centroid: Vec3, normal: Vec3, local: seq<Curve>)
    : (r: Option<seq<Curve>>)
    ensures r.Some? <==> forall i :: 0 <= i < |local| ==> !local[i].OtherCurve?
    ensures r.Some? ==> |r.value| == |local|
    ensures r.Some? ==> forall i :: 0 <= i < |local| ==>
      && r.value[i].Segment? == local[i].Segment?
      && r.value[i].Arc? == local[i].Arc?
      && r.value[i].start == ToGlobal(BaseCoordsys(k, centroid, normal), local[i].start)
      && r.value[i].end == ToGlobal(BaseCoordsys(k, centroid, normal), local[i].end)
  {
    var cs := BaseCoordsys(k, centroid, normal);
    var mapped :- TransformCurves(p => ToGlobal(cs, p), local);
    KeepArcsAndSegmentsIdentity(mapped);
    Some(KeepArcsAndSegments(mapped))
  }

  /** A point of the local XY plane lands in the base plane: through the centroid, across the normal. */
  lemma LocalPlaneToBasePlane(k: Kernel, centroid: Vec3, normal: Vec3, p: Vec3)
    requires Lawful(k) && p.z == 0.0
    ensures Dot(Sub(ToGlobal(BaseCoordsys(k, centroid, normal), p), centroid), normal) == 0.0
  {
    var cs := BaseCoordsys(k, centroid, normal);
    BaseCoordsysOrthogonal(k, centroid, normal);
    var g := ToGlobal(cs, p);
    assert Sub(g, centroid) == Add(Scale(p.x, cs.axisX), Scale(p.y, cs.axisY));
    DotScaleLeft(p.x, cs.axisX, normal);
    DotScaleLeft(p.y, cs.axisY, normal);
  }

  /** The corner radius is one twelfth of the smaller side. */
  function CornerRadius(height: real, width: real): (r: real)
    ensures 12.0 * r <= height && 12.0 * r <= width
    ensures 12.0 * r == height || 12.0 * r == width
  {
    Min(height, width) / 12.0
  }

  /** The straight run along X between two corners. */
  function XLength(height: real, width: real): real {
    width - 2.0 * CornerRadius(height, width)
  }

  /** The straight run along Y between two corners. */
  function YLength(height: real, width: real): real {
    height - 2.0 * CornerRadius(height, width)
  }

  /**
    For positive dimensions the corner radius and both straight runs are positive, and each run
    keeps at least five sixths of its side.
  */
  lemma StraightRuns(height: real, width: real)
    requires height > 0.0 && width > 0.0
    ensures CornerRadius(height, width) > 0.0
    ensures 6.0 * XLength(height, width) >= 5.0 * width && 6.0 * YLength(height, width) >= 5.0 * height
    ensures XLength(height, width) > 0.0 && YLength(height, width) > 0.0
  {
  }

  /**
    The constructor: record the parameters and build both sections in global coordinates. A
    builder call that the host would reject (a degenerate tangent arc) leaves no geometry.
  */
  function MakeSection(k: Kernel, height: real, width: real, length: real, radius: real,
                       centroid: Vec3, normal: Vec3): (r: Option<Section>)
    ensures r.Some? ==>
      && r.value.height == height && r.value.width == width
      && r.value.length == length && r.value.radius == radius
      && r.value.centroid == centroid && r.value.normal == normal
  {
    var localRect :- LocalRectangle(k, height, width);
    var rect :- TransformToGlobal(k, centroid, normal, localRect);
    var localCircle :- LocalCircle(k, radius, length);
    var circle :- TransformToGlobal(k, centroid, normal, localCircle);
    Some(Section(height, width, length, radius, centroid, normal, rect, circle))
  }

  /**
    The shape the constructor promises: a closed chain of eight curves alternating segment and
    arc, lying in the base plane, and a closed chain of four arcs.
  */
  predicate WellShaped(s: Section) {
    && |s.rectangular| == 8 && |s.circular| == 4
    && (forall i | 0 <= i < 8 ::
          && (s.rectangular[i].Segment? <==> i % 2 == 0)
          && (s.rectangular[i].Arc? <==> i % 2 == 1)
          && s.rectangular[i].end == s.rectangular[(i + 1) % 8].start
          && Dot(Sub(s.rectangular[i].start, s.centroid), s.normal) == 0.0)
    && (forall i | 0 <= i < 4 ::
          && s.circular[i].Arc?
          && s.circular[i].end == s.circular[(i + 1) % 4].start)
  }

  /** For positive dimensions the geometry exists and has the promised shape. */
  lemma SectionShape(k: Kernel, height: real, width: real, length: real, radius: real,
                     centroid: Vec3, normal: Vec3)
    requires Lawful(k) && height > 0.0 && width > 0.0 && radius > 0.0
    ensures var s := MakeSection(k, height, width, length, radius, centroid, normal);
      s.Some? && WellShaped(s.value)
  {
    var hw, hh, r := width / 2.0, height / 2.0, CornerRadius(height, width);
    assert ExpectedRectangle(height, width) == RoundedRectangle(hw, hh, r);
    SectionBuiltFrom(k, height, width, length, radius, centroid, normal);
    var s := MakeSection(k, height, width, length, radius, centroid, normal).value;
    PartsWellShaped(k, hw, hh, r, radius, length, s);
  }

  /** The two transformed local chains make a well-shaped section. */
  lemma PartsWellShaped(k: Kernel, hw: real, hh: real, r: real, radius: real, length: real,
                        s: Section)
    requires Lawful(k)
    requires var rect := TransformToGlobal(k, s.centroid, s.normal, RoundedRectangle(hw, hh, r));
      var circle := TransformToGlobal(k, s.centroid, s.normal, QuarterCircles(radius, length));
      rect == Some(s.rectangular) && circle == Some(s.circular)
    ensures WellShaped(s)
  {
    RectangleGlobal(k, hw, hh, r, s.centroid, s.normal);
    CircleGlobal(k, radius, length, s.centroid, s.normal);
    RectangleKinds(hw, hh, r);
    CircleShape(radius, length);
  }

  /** MakeSection transforms exactly the two expected local chains. */
  lemma SectionBuiltFrom(k: Kernel, height: real, width: real, length: real, radius: real,
                     centroid: Vec3, normal: Vec3)
    requires Lawful(k) && height > 0.0 && width > 0.0 && radius > 0.0
    ensures var s := MakeSection(k, height, width, length, radius, centroid, normal);
      var rect := TransformToGlobal(k, centroid, normal, ExpectedRectangle(height, width));
      var circle := TransformToGlobal(k, centroid, normal, QuarterCircles(radius, length));
      && rect.Some? && circle.Some?
      && s == Some(Section(height, width, length, radius, centroid, normal, rect.value, circle.value))
  {
    var local := ExpectedRectangle(height, width);
    assert LocalRectangle(k, height, width) == Some(local) by {
      LocalRectangleIsExpected(k, height, width);
    }
    assert LocalCircle(k, radius, length) == Some(QuarterCircles(radius, length)) by {
      LocalCircleIsExpected(k, radius, length);
    }
    var hw, hh, r := width / 2.0, height / 2.0, CornerRadius(height, width);
    assert local == RoundedRectangle(hw, hh, r);
    assert TransformToGlobal(k, centroid, normal, RoundedRectangle(hw, hh, r)).Some? by {
      RectangleGlobal(k, hw, hh, r, centroid, normal);
    }
    assert TransformToGlobal(k, centroid, normal, QuarterCircles(radius, length)).Some? by {
      CircleGlobal(k, radius, length, centroid, normal);
    }
  }

  /** The global rectangle keeps the kinds and the closure of the local one and lies in the base plane. */
  lemma RectangleGlobal(k: Kernel, hw: real, hh: real, r: real, centroid: Vec3, normal: Vec3)
    requires Lawful(k)
    ensures var rect := TransformToGlobal(k, centroid, normal, RoundedRectangle(hw, hh, r));
      && rect.Some?
      && forall i | 0 <= i < 8 ::
        && (rect.value[i].Segment? <==> i % 2 == 0)
        && (rect.value[i].Arc? <==> i % 2 == 1)
        && rect.value[i].end == rect.value[(i + 1) % 8].start
        && Dot(Sub(rect.value[i].start, centroid), normal) == 0.0
  {
    var e := RoundedRectangle(hw, hh, r);
    RectangleKinds(hw, hh, r);
    RectangleCloses(hw, hh, r);
    ChainStaysClosed(k, centroid, normal, e);
    forall i | 0 <= i < 8
      ensures Dot(Sub(TransformToGlobal(k, centroid, normal, e).value[i].start, centroid), normal) == 0.0
    {
      RectangleStartInPlane(k, hw, hh, r, centroid, normal, i);
    }
  }

  /** Each curve of the global rectangle starts in the base plane. */
  lemma RectangleStartInPlane(k: Kernel, hw: real, hh: real, r: real, centroid: Vec3, normal: Vec3,
                              i: int)
    requires Lawful(k) && 0 <= i < 8
    requires TransformToGlobal(k, centroid, normal, RoundedRectangle(hw, hh, r)).Some?
    ensures var rect := TransformToGlobal(k, centroid, normal, RoundedRectangle(hw, hh, r));
      Dot(Sub(rect.value[i].start, centroid), normal) == 0.0
  {
    var e := RoundedRectangle(hw, hh, r);
    assert e[i].start.z == 0.0;
    LocalPlaneToBasePlane(k, centroid, normal, e[i].start);
  }

  /** The global circle is four arcs and stays closed. */
  lemma CircleGlobal(k: Kernel, radius: real, length: real, centroid: Vec3, normal: Vec3)
    ensures var circle := TransformToGlobal(k, centroid, normal, QuarterCircles(radius, length));
      && circle.Some?
      && forall i | 0 <= i < 4 ::
        && circle.value[i].Arc?
        && circle.value[i].end == circle.value[(i + 1) % 4].start
  {
    CircleShape(radius, length);
    ChainStaysClosed(k, centroid, normal, QuarterCircles(radius, length));
  }

  /** Moving a closed chain of arcs and segments to the base frame keeps it closed. */
  lemma ChainStaysClosed(k: Kernel, centroid: Vec3, normal: Vec3, local: seq<Curve>)
    requires |local| > 0
    requires forall i | 0 <= i < |local| :: !local[i].OtherCurve?
    requires forall i | 0 <= i < |local| :: local[i].end == local[(i + 1) % |local|].start
    ensures var r := TransformToGlobal(k, centroid, normal, local);
      && r.Some?
      && forall i | 0 <= i < |local| :: r.value[i].end == r.value[(i + 1) % |local|].start
  {
    var r := TransformToGlobal(k, centroid, normal, local);
    forall i | 0 <= i < |local|
      ensures r.value[i].end == r.value[(i + 1) % |local|].start
    {
      var j := (i + 1) % |local|;
      assert r.value[j].start == ToGlobal(BaseCoordsys(k, centroid, normal), local[j].start);
    }
  }

  /** GetRectangularSection before the frame change, through the builder. */
  function LocalRectangle(k: Kernel, height: real, width: real): Option<seq<Curve>> {
    RectangleChain(k, width / 2.0, height / 2.0, CornerRadius(height, width),
                   XLength(height, width), YLength(height, width))
  }

  /** The builder calls of GetRectangularSection for given half sides, corner radius and runs. */
  function RectangleChain(k: Kernel, hw: real, hh: real, r: real, xl: real, yl: real)
    : Option<seq<Curve>>
  {
    var first := AppendSegment(EmptyBuilder, Vec3(hw, -yl / 2.0, 0.0), Vec3(hw, yl / 2.0, 0.0));
    var b :- RunSteps(k, first, RectangleSteps(hw, hh, r, xl, yl));
    Some(b.curves)
  }

  /** The fluent calls after the first segment: one tangent arc per corner, runs between them. */
  function RectangleSteps(hw: real, hh: real, r: real, xl: real, yl: real): (steps: seq<BuildStep>)
    ensures |steps| == 7
  {
    seq(7, i requires 0 <= i < 7 => RectangleStep(hw, hh, r, xl, yl, i))
  }

  /** Call `i` of the chain: the even ones aim a tangent arc at the next corner's far end. */
  function RectangleStep(hw: real, hh: real, r: real, xl: real, yl: real, i: int): BuildStep {
    if i == 0 then TangentArcTo(Vec3(hw - r, hh, 0.0))
    else if i == 1 then TangentSegmentOf(xl)
    else if i == 2 then TangentArcTo(Vec3(-hw, hh - r, 0.0))
    else if i == 3 then TangentSegmentOf(yl)
    else if i == 4 then TangentArcTo(Vec3(-(hw - r), -hh, 0.0))
    else if i == 5 then TangentSegmentOf(xl)
    else TangentArcTo(Vec3(hw, -(hh - r), 0.0))
  }

  /**
    The rounded rectangle written out: a right edge, then counter-clockwise one quarter arc per
    corner, each centred `r` inside both edges, with the straight edges between them.
  */
  function RoundedRectangle(hw: real, hh: real, r: real): seq<Curve> {
    var cx, cy := hw - r, hh - r;
    [ Segment(Vec3(hw, -cy, 0.0), Vec3(hw, cy, 0.0)),
      Arc(Vec3(hw, cy, 0.0), Vec3(cx, hh, 0.0), Vec3(cx, cy, 0.0)),
      Segment(Vec3(cx, hh, 0.0), Vec3(-cx, hh, 0.0)),
      Arc(Vec3(-cx, hh, 0.0), Vec3(-hw, cy, 0.0), Vec3(-cx, cy, 0.0)),
      Segment(Vec3(-hw, cy, 0.0), Vec3(-hw, -cy, 0.0)),
      Arc(Vec3(-hw, -cy, 0.0), Vec3(-cx, -hh, 0.0), Vec3(-cx, -cy, 0.0)),
      Segment(Vec3(-cx, -hh, 0.0), Vec3(cx, -hh, 0.0)),
      Arc(Vec3(cx, -hh, 0.0), Vec3(hw, -cy, 0.0), Vec3(cx, -cy, 0.0)) ]
  }

  /** The expected rectangular section of a given height and width. */
  function ExpectedRectangle(height: real, width: real): seq<Curve> {
    RoundedRectangle(width / 2.0, height / 2.0, CornerRadius(height, width))
  }

  /**
    A zero width makes the corner radius zero, so the first tangent arc is aimed at the point
    where the first side already ends, and the rectangle cannot be built.
  */
  lemma ZeroWidthRectangleFails(k: Kernel, height: real)
    requires height >= 0.0
    ensures LocalRectangle(k, height, 0.0).None?
  {
    var r := CornerRadius(height, 0.0);
    assert r == 0.0;
    var yl := YLength(height, 0.0);
    var first := AppendSegment(EmptyBuilder, Vec3(0.0 / 2.0, -yl / 2.0, 0.0), Vec3(0.0 / 2.0, yl / 2.0, 0.0));
    var steps := RectangleSteps(0.0 / 2.0, height / 2.0, r, XLength(height, 0.0), yl);
    assert steps[0] == TangentArcTo(ChainEnd(first));
    TangentArcToChainEnd(first);
    assert RunSteps(k, first, steps).None?;
  }

  /** The builder produces exactly the rounded rectangle for every positive height and width. */
  lemma LocalRectangleIsExpected(k: Kernel, height: real, width: real)
    requires Lawful(k) && height > 0.0 && width > 0.0
    ensures LocalRectangle(k, height, width) == Some(ExpectedRectangle(height, width))
  {
    StraightRuns(height, width);
    var yl := YLength(height, width);
    AxisNormals(k, yl);
    RectangleChainIsRounded(k, width / 2.0, height / 2.0, CornerRadius(height, width),
                            XLength(height, width), yl);
  }

  /** Unit vectors of positive multiples of the in-plane axes. */
  lemma AxisNormals(k: Kernel, s: real)
    requires Lawful(k) && s > 0.0
    ensures forall u | InPlaneAxis(u) :: Normal(k, Scale(s, u)) == u
  {
    forall u | InPlaneAxis(u)
      ensures Normal(k, Scale(s, u)) == u
    {
      NormalOfScaledUnit(k, s, u);
    }
  }

  /** The builder chain follows the rounded rectangle when the runs fit between the corners. */
  lemma RectangleChainIsRounded(k: Kernel, hw: real, hh: real, r: real, xl: real, yl: real)
    requires r > 0.0 && xl > 0.0 && yl > 0.0
    requires xl == 2.0 * (hw - r) && yl == 2.0 * (hh - r)
    requires forall u | InPlaneAxis(u) :: Normal(k, Scale(yl, u)) == u
    ensures RectangleChain(k, hw, hh, r, xl, yl) == Some(RoundedRectangle(hw, hh, r))
  {
    var bs := RectangleBuilders(hw, hh, r, yl);
    var steps := RectangleSteps(hw, hh, r, xl, yl);
    forall i | 0 <= i < |steps|
      ensures ApplyStep(k, bs[i], steps[i]) == Some(bs[i + 1])
    {
      RectangleCallFollows(k, hw, hh, r, xl, yl, i);
    }
    RunStepsFollows(k, steps, bs);
    FirstRectangleBuilder(hw, hh, r, yl);
    assert bs[7].curves == RoundedRectangle(hw, hh, r);
  }

  /** The direction in which the rectangular chain leaves curve `i`. */
  function RectangleHeading(i: int): (u: Vec3)
    ensures InPlaneAxis(u)
  {
    if i == 0 || i == 7 then UnitY
    else if i == 1 || i == 2 then MinusX
    else if i == 3 || i == 4 then MinusY
    else UnitX
  }

  /**
    The builder after each call of the rectangular chain: the first `i + 1` curves of the rounded
    rectangle, leaving along the edge last drawn.
  */
  function RectangleBuilders(hw: real, hh: real, r: real, yl: real): (bs: seq<Builder>)
    ensures |bs| == 8
  {
    var e := RoundedRectangle(hw, hh, r);
    seq(8, i requires 0 <= i < 8 => Builder(e[..i + 1], Scale(yl, RectangleHeading(i))))
  }

  lemma FirstRectangleBuilder(hw: real, hh: real, r: real, yl: real)
    requires yl == 2.0 * (hh - r)
    ensures AppendSegment(EmptyBuilder, Vec3(hw, -yl / 2.0, 0.0), Vec3(hw, yl / 2.0, 0.0))
         == RectangleBuilders(hw, hh, r, yl)[0]
  {
    var e := RoundedRectangle(hw, hh, r);
    assert [e[0]] == e[..1];
  }

  /** Each call of the rectangular chain takes one expected builder to the next. */
  lemma RectangleCallFollows(k: Kernel, hw: real, hh: real, r: real, xl: real, yl: real, i: int)
    requires r > 0.0 && xl > 0.0 && yl > 0.0
    requires xl == 2.0 * (hw - r) && yl == 2.0 * (hh - r)
    requires forall u | InPlaneAxis(u) :: Normal(k, Scale(yl, u)) == u
    requires 0 <= i < 7
    ensures ApplyStep(k, RectangleBuilders(hw, hh, r, yl)[i], RectangleSteps(hw, hh, r, xl, yl)[i])
         == Some(RectangleBuilders(hw, hh, r, yl)[i + 1])
  {
    var bs := RectangleBuilders(hw, hh, r, yl);
    var e := RoundedRectangle(hw, hh, r);
    var step := RectangleSteps(hw, hh, r, xl, yl)[i];
    var u := RectangleHeading(i);
    assert bs[i].curves + [e[i + 1]] == bs[i + 1].curves;
    if i % 2 == 0 {
      RectangleCorner(hw, hh, r, xl, yl, i, u);
      LeftTurns(i);
      TurnStep(bs[i], u, yl, r, step.point, e[i + 1], bs[i + 1]);
    } else {
      RectangleEdge(hw, hh, r, xl, yl, i);
      SegmentStep(k, bs[i], u, yl, step.length, bs[i + 1]);
    }
  }

  /** The arc `arc` is the quarter turn of radius `r` from `p` leaving along `u`, ending at `q`. */
  predicate Turn(p: Vec3, u: Vec3, r: real, q: Vec3, arc: Curve) {
    && q == Add(Add(p, Scale(r, u)), Scale(r, LeftOf(u)))
    && arc == Arc(p, q, Add(p, Scale(r, LeftOf(u))))
  }

  /**
    The corners of the rounded rectangle as a walk: after curve `i`, a quarter turn of radius `r`
    to the left ends where call `i` of the chain is aimed.
  */
  lemma RectangleCorner(hw: real, hh: real, r: real, xl: real, yl: real, i: int, u: Vec3)
    requires yl == 2.0 * (hh - r)
    requires (i, u) in {(0, UnitY), (2, MinusX), (4, MinusY), (6, UnitX)}
    ensures RectangleStep(hw, hh, r, xl, yl, i).TangentArcTo?
    ensures var e := RoundedRectangle(hw, hh, r);
      Turn(e[i].end, u, r, RectangleStep(hw, hh, r, xl, yl, i).point, e[i + 1])
  {
    var e := RoundedRectangle(hw, hh, r);
    var cx, cy := hw - r, hh - r;
    if i == 0 {
      CornerTurn(Vec3(hw, cy, 0.0), UnitY, r, Vec3(cx, hh, 0.0), Vec3(cx, cy, 0.0));
    } else if i == 2 {
      CornerTurn(Vec3(-cx, hh, 0.0), MinusX, r, Vec3(-hw, cy, 0.0), Vec3(-cx, cy, 0.0));
    } else if i == 4 {
      CornerTurn(Vec3(-hw, -cy, 0.0), MinusY, r, Vec3(-cx, -hh, 0.0), Vec3(-cx, -cy, 0.0));
    } else {
      CornerTurn(Vec3(cx, -hh, 0.0), UnitX, r, Vec3(hw, -cy, 0.0), Vec3(cx, -cy, 0.0));
    }
  }

  /** A quarter turn to the left of an axis, from its end points and centre. */
  lemma CornerTurn(p: Vec3, u: Vec3, r: real, q: Vec3, center: Vec3)
    requires InPlaneAxis(u)
    requires q == Vec3(p.x + r * (u.x - u.y), p.y + r * (u.x + u.y), p.z)
    requires center == Vec3(p.x - r * u.y, p.y + r * u.x, p.z)
    ensures Turn(p, u, r, q, Arc(p, q, center))
  {
  }

  /** The straight edges of the rounded rectangle run along the heading for the length of call `i`. */
  lemma RectangleEdge(hw: real, hh: real, r: real, xl: real, yl: real, i: int)
    requires xl == 2.0 * (hw - r) && yl == 2.0 * (hh - r)
    requires i in {1, 3, 5}
    ensures RectangleStep(hw, hh, r, xl, yl, i).TangentSegmentOf?
    ensures var e := RoundedRectangle(hw, hh, r);
      var len := RectangleStep(hw, hh, r, xl, yl, i).length;
      e[i + 1] == Segment(e[i].end, Add(e[i].end, Scale(len, RectangleHeading(i))))
  {
  }

  /** At every corner the chain turns left onto the next edge. */
  lemma LeftTurns(i: int)
    requires i in {0, 2, 4, 6}
    ensures LeftOf(RectangleHeading(i)) == RectangleHeading(i + 1)
  {
  }

  /** The rectangular section alternates segments and arcs, starting with a segment. */
  lemma RectangleKinds(hw: real, hh: real, r: real)
    ensures var e := RoundedRectangle(hw, hh, r);
      && |e| == 8
      && forall i | 0 <= i < 8 :: (e[i].Segment? <==> i % 2 == 0) && (e[i].Arc? <==> i % 2 == 1)
  {
  }

  /** The rectangular section is a closed chain: every curve starts where the one before ends. */
  lemma RectangleCloses(hw: real, hh: real, r: real)
    ensures var e := RoundedRectangle(hw, hh, r);
      forall i | 0 <= i < 8 :: e[i].end == e[(i + 1) % 8].start
  {
    var e := RoundedRectangle(hw, hh, r);
    forall i | 0 <= i < 8
      ensures e[i].end == e[(i + 1) % 8].start
    {
      if i == 7 {
        assert (i + 1) % 8 == 0;
      } else {
        assert (i + 1) % 8 == i + 1;
      }
    }
  }

  /**
    The first curve is the right edge: at x = W/2 in the local XY plane, from -YLength/2 to
    YLength/2, so its length is YLength.
  */
  lemma RectangleFirstEdge(k: Kernel, height: real, width: real)
    requires Lawful(k) && height > 0.0 && width > 0.0
    ensures var e := ExpectedRectangle(height, width); var yl := YLength(height, width);
      && e[0] == Segment(Vec3(width / 2.0, -yl / 2.0, 0.0), Vec3(width / 2.0, yl / 2.0, 0.0))
      && Distance(k, e[0].start, e[0].end) == yl
  {
    StraightRuns(height, width);
    var yl := YLength(height, width);
    var e := ExpectedRectangle(height, width);
    assert Sub(e[0].end, e[0].start) == Scale(yl, UnitY);
    NormalOfScaledUnit(k, yl, UnitY);
  }

  /**
    The four corner arcs, counter-clockwise from the top right, end on the top, left, bottom and
    right edges, `r` short of the next corner.
  */
  lemma RectangleCornerPoints(hw: real, hh: real, r: real)
    ensures var e := RoundedRectangle(hw, hh, r);
      && e[1].end == Vec3(hw - r, hh, 0.0)
      && e[3].end == Vec3(-hw, hh - r, 0.0)
      && e[5].end == Vec3(-(hw - r), -hh, 0.0)
      && e[7].end == Vec3(hw, -(hh - r), 0.0)
  {
  }

  /** Every corner arc starts and ends at distance `r` from its centre. */
  lemma RectangleArcRadius(hw: real, hh: real, r: real, i: int)
    requires i in {1, 3, 5, 7}
    ensures var a := RoundedRectangle(hw, hh, r)[i];
      && Dot(Sub(a.start, a.center), Sub(a.start, a.center)) == r * r
      && Dot(Sub(a.end, a.center), Sub(a.end, a.center)) == r * r
  {
    var a := RoundedRectangle(hw, hh, r)[i];
    AxisOffsetSquare(Sub(a.start, a.center), r);
    AxisOffsetSquare(Sub(a.end, a.center), r);
  }

  /** A vector `r` along one of the in-plane axes has squared length r². */
  lemma AxisOffsetSquare(d: Vec3, r: real)
    requires d in {Vec3(r, 0.0, 0.0), Vec3(-r, 0.0, 0.0), Vec3(0.0, r, 0.0), Vec3(0.0, -r, 0.0)}
    ensures Dot(d, d) == r * r
  {
  }

  /** GetCircularSection before the frame change, through the builder. */
  function LocalCircle(k: Kernel, radius: real, length: real): Option<seq<Curve>> {
    var center := Vec3(0.0, 0.0, length);
    var first := AppendQuarterArc(EmptyBuilder, center, Vec3(radius, 0.0, length), UnitZ);
    var b :- RunSteps(k, first, CircleSteps(radius, length));
    Some(b.curves)
  }

  /** The tangent arcs after the first quarter arc: through the far ends of the other quarters. */
  function CircleSteps(radius: real, length: real): (steps: seq<BuildStep>)
    ensures |steps| == 3
  {
    seq(3, i requires 0 <= i < 3 => TangentArcTo(CircleTarget(radius, length, i)))
  }

  /** Where tangent arc `i` of the circular chain is aimed. */
  function CircleTarget(radius: real, length: real, i: int): Vec3 {
    if i == 0 then Vec3(-radius, 0.0, length)
    else if i == 1 then Vec3(0.0, -radius, length)
    else Vec3(radius, 0.0, length)
  }

  /**
    The circle written out: four quarter arcs about the point at the transition length on the
    local Z axis, counter-clockwise from local X.
  */
  function QuarterCircles(radius: real, length: real): seq<Curve> {
    var c := Vec3(0.0, 0.0, length);
    [ Arc(Vec3(radius, 0.0, length), Vec3(0.0, radius, length), c),
      Arc(Vec3(0.0, radius, length), Vec3(-radius, 0.0, length), c),
      Arc(Vec3(-radius, 0.0, length), Vec3(0.0, -radius, length), c),
      Arc(Vec3(0.0, -radius, length), Vec3(radius, 0.0, length), c) ]
  }

  /** The builder produces exactly the four quarter circles for every positive radius. */
  lemma LocalCircleIsExpected(k: Kernel, radius: real, length: real)
    requires radius > 0.0
    ensures LocalCircle(k, radius, length) == Some(QuarterCircles(radius, length))
  {
    var e := QuarterCircles(radius, length);
    var bs := CircleBuilders(radius, length);
    var steps := CircleSteps(radius, length);
    forall i | 0 <= i < |steps|
      ensures ApplyStep(k, bs[i], steps[i]) == Some(bs[i + 1])
    {
      CircleCallFollows(k, radius, length, i);
    }
    FirstQuarterCircle(radius, length);
    RunStepsFollows(k, steps, bs);
    assert bs[3].curves == e;
  }

  /**
    The circular section: four arcs about the point at the transition length on the local Z axis,
    from (R, 0, L) through (0, R, L), (-R, 0, L) and (0, -R, L) back to (R, 0, L).
  */
  lemma CircleShape(radius: real, length: real)
    ensures var e := QuarterCircles(radius, length);
      && |e| == 4
      && e[0].start == Vec3(radius, 0.0, length)
      && e[1].end == Vec3(-radius, 0.0, length)
      && e[2].end == Vec3(0.0, -radius, length)
      && (forall i | 0 <= i < 4 :: e[i].Arc? && e[i].center == Vec3(0.0, 0.0, length))
      && (forall i | 0 <= i < 4 :: e[i].end == e[(i + 1) % 4].start)
  {
    var e := QuarterCircles(radius, length);
    forall i | 0 <= i < 4
      ensures e[i].end == e[(i + 1) % 4].start
    {
      if i == 3 {
        assert (i + 1) % 4 == 0;
      } else {
        assert (i + 1) % 4 == i + 1;
      }
    }
  }

  /** Every point that defines the circular section is at distance R from its centre. */
  lemma CircleRadius(radius: real, length: real, i: int)
    requires 0 <= i < 4
    ensures var a := QuarterCircles(radius, length)[i];
      && Dot(Sub(a.start, a.center), Sub(a.start, a.center)) == radius * radius
      && Dot(Sub(a.end, a.center), Sub(a.end, a.center)) == radius * radius
  {
    var a := QuarterCircles(radius, length)[i];
    AxisOffsetSquare(Sub(a.start, a.center), radius);
    AxisOffsetSquare(Sub(a.end, a.center), radius);
  }

  /** The direction in which the circular chain leaves arc `i`. */
  function CircleHeading(i: int): (u: Vec3)
    ensures InPlaneAxis(u)
  {
    if i == 0 then MinusX else if i == 1 then MinusY else if i == 2 then UnitX else UnitY
  }

  /** The builder after each call of the circular chain. */
  function CircleBuilders(radius: real, length: real): (bs: seq<Builder>)
    ensures |bs| == 4
  {
    var e := QuarterCircles(radius, length);
    seq(4, i requires 0 <= i < 4 => Builder(e[..i + 1], Scale(radius, CircleHeading(i))))
  }

  lemma FirstQuarterCircle(radius: real, length: real)
    ensures AppendQuarterArc(EmptyBuilder, Vec3(0.0, 0.0, length), Vec3(radius, 0.0, length), UnitZ)
         == CircleBuilders(radius, length)[0]
  {
    var e := QuarterCircles(radius, length);
    assert [e[0]] == e[..1];
  }

  /** Each tangent arc of the circular chain takes one expected builder to the next. */
  lemma CircleCallFollows(k: Kernel, radius: real, length: real, i: int)
    requires radius > 0.0 && 0 <= i < 3
    ensures ApplyStep(k, CircleBuilders(radius, length)[i], CircleSteps(radius, length)[i])
         == Some(CircleBuilders(radius, length)[i + 1])
  {
    var bs := CircleBuilders(radius, length);
    var e := QuarterCircles(radius, length);
    var u := CircleHeading(i);
    CircleTurnReady(radius, length, i);
    TurnStep(bs[i], u, radius, radius, CircleTarget(radius, length, i), e[i + 1], bs[i + 1]);
  }

  /** The facts a quarter turn needs, for tangent arc `i` of the circular chain. */
  lemma CircleTurnReady(radius: real, length: real, i: int)
    requires 0 <= i < 3
    ensures var bs := CircleBuilders(radius, length);
      var e := QuarterCircles(radius, length);
      var u := CircleHeading(i);
      && |bs[i].curves| > 0 && bs[i].heading == Scale(radius, u)
      && Turn(ChainEnd(bs[i]), u, radius, CircleTarget(radius, length, i), e[i + 1])
      && bs[i + 1] == Builder(bs[i].curves + [e[i + 1]], Scale(radius, LeftOf(u)))
  {
    CircleTurnAt(radius, length, i);
    CircleNextBuilder(radius, length, i);
  }

  lemma CircleTurnAt(radius: real, length: real, i: int)
    requires 0 <= i < 3
    ensures var bs := CircleBuilders(radius, length);
      Turn(ChainEnd(bs[i]), CircleHeading(i), radius, CircleTarget(radius, length, i),
           QuarterCircles(radius, length)[i + 1])
  {
    var bs := CircleBuilders(radius, length);
    var e := QuarterCircles(radius, length);
    CircleQuarter(radius, length, i, CircleHeading(i));
    ChainEndOfPrefix(bs[i], e, i);
  }

  lemma CircleNextBuilder(radius: real, length: real, i: int)
    requires 0 <= i < 3
    ensures var bs := CircleBuilders(radius, length);
      bs[i + 1] == Builder(bs[i].curves + [QuarterCircles(radius, length)[i + 1]],
                           Scale(radius, LeftOf(CircleHeading(i))))
  {
    var bs := CircleBuilders(radius, length);
    var e := QuarterCircles(radius, length);
    assert bs[i].curves + [e[i + 1]] == bs[i + 1].curves;
    assert i in {0, 1, 2};
    CircleLeftTurns(i);
  }

  /** Between quarter circles the chain turns left. */
  lemma CircleLeftTurns(i: int)
    requires i in {0, 1, 2}
    ensures LeftOf(CircleHeading(i)) == CircleHeading(i + 1)
  {
  }

  /** Each quarter circle after the first is a left quarter turn of the circle's radius. */
  lemma CircleQuarter(radius: real, length: real, i: int, u: Vec3)
    requires 0 <= i < 3 && u == CircleHeading(i)
    ensures var e := QuarterCircles(radius, length);
      Turn(e[i].end, u, radius, CircleTarget(radius, length, i), e[i + 1])
  {
    var e := QuarterCircles(radius, length);
    var c := Vec3(0.0, 0.0, length);
    var p, q := e[i].end, CircleTarget(radius, length, i);
    assert p.z == length && e[i + 1] == Arc(p, q, c);
    if i == 0 {
      CircleCorner(p, MinusX, radius, q, c);
    } else if i == 1 {
      CircleCorner(p, MinusY, radius, q, c);
    } else {
      CircleCorner(p, UnitX, radius, q, c);
    }
  }

  /** A quarter turn of the circle, from its end points and centre. */
  lemma CircleCorner(p: Vec3, u: Vec3, r: real, q: Vec3, center: Vec3)
    requires (u, p, q) in {(MinusX, Vec3(0.0, r, p.z), Vec3(-r, 0.0, p.z)),
                           (MinusY, Vec3(-r, 0.0, p.z), Vec3(0.0, -r, p.z)),
                           (UnitX, Vec3(0.0, -r, p.z), Vec3(r, 0.0, p.z))}
    requires center == Vec3(0.0, 0.0, p.z)
    ensures Turn(p, u, r, q, Arc(p, q, center))
  {
    CornerTurn(p, u, r, q, center);
  }

  /** One tangent segment along an axis, stated with the expected builder. */
  lemma SegmentStep(k: Kernel, b: Builder, u: Vec3, s: real, len: real, next: Builder)
    requires |b.curves| > 0 && b.heading == Scale(s, u) && Normal(k, b.heading) == u
    requires next == Builder(b.curves + [Segment(ChainEnd(b), Add(ChainEnd(b), Scale(len, u)))], b.heading)
    ensures AppendTangentSegment(k, b, len) == Some(next)
  {
  }

  /** One quarter turn of a section, stated with the expected arc and builder. */
  lemma TurnStep(b: Builder, u: Vec3, s: real, r: real, q: Vec3, arc: Curve, next: Builder)
    requires |b.curves| > 0 && InPlaneAxis(u) && s > 0.0 && r > 0.0
    requires b.heading == Scale(s, u)
    requires q == Add(Add(ChainEnd(b), Scale(r, u)), Scale(r, LeftOf(u)))
    requires arc == Arc(ChainEnd(b), q, Add(ChainEnd(b), Scale(r, LeftOf(u))))
    requires next == Builder(b.curves + [arc], Scale(s, LeftOf(u)))
    ensures AppendTangentArc(b, q) == Some(next)
  {
    QuarterTurn(b, u, s, r);
  }
}

=== FILE: transition_section_manipulation.dfy ===
/**
  ComplexTransitionSectionPluginFeatures.TransitionSectionManipulationFeature: three value boxes
  on the feature's toolbar showing the selected section's radius, width and height, each writing
  its own attribute to every selected component when it changes; and the two manipulation
  contexts attached to each component.
*/
module TransitionSectionManipulation {
  import opened Wrappers
  import opened Geometry
  import opened Host
  import opened TransitionSectionPlugin
  import opened DataFetcher
  import opened TransitionSectionCreation
  import RectangleContext
  import CircleContext

  /** The toolbar's value boxes. */
  datatype Box = RadiusBox | WidthBox | HeightBox

  /** The attribute each box writes. */
  function BoxKey(box: Box): (key: string)
    ensures box.RadiusBox? ==> key == "CircleRadius"
    ensures box.WidthBox? ==> key == "RectangleWidth"
    ensures box.HeightBox? ==> key == "RectangleHeight"
  {
    match box
    case RadiusBox => CircleRadiusKey
    case WidthBox => RectangleWidthKey
    case HeightBox => RectangleHeightKey
  }

  /** What a box shows. */
  function Shown(b: Boxes, box: Box): real {
    match box
    case RadiusBox => b.radius
    case WidthBox => b.width
    case HeightBox => b.height
  }

  /** One value read as GetCurrentValues reads it: the default unless Select and GetAttribute both succeed. */
  function CurrentValue(c: Component, key: string, default: real): (v: real)
    ensures c.selectable && key in c.numbers ==> v == c.numbers[key]
    ensures !c.selectable || key !in c.numbers ==> v == default
  {
    if c.selectable && key in c.numbers then c.numbers[key] else default
  }

  /**
    GetCurrentValues: the boxes show the component's radius, width and height, each falling back
    to its own default (1000, 3000, 6000) on its own.
  */
  function CurrentValues(c: Component): (b: Boxes)
    ensures b.radius == CurrentValue(c, "CircleRadius", 1000.0)
    ensures b.width == CurrentValue(c, "RectangleWidth", 3000.0)
    ensures b.height == CurrentValue(c, "RectangleHeight", 6000.0)
  {
    Boxes(CurrentValue(c, CircleRadiusKey, DefaultCircleRadius),
          CurrentValue(c, RectangleWidthKey, DefaultRectangleWidth),
          CurrentValue(c, RectangleHeightKey, DefaultRectangleHeight))
  }

  /** Refresh: the values of the first selected component; First throws when there is none. */
  function Refresh(components: seq<Component>): (r: Option<Boxes>)
    ensures r.None? <==> components == []
    ensures r.Some? ==> r.value == CurrentValues(components[0])
  {
    if |components| == 0 then None else Some(CurrentValues(components[0]))
  }

  /**
    The value a box's handler hands over, `box?.Value ?? 0.0`. `reading` is what `box?.Value`
    gives: None when the box reference is null, and otherwise the box's value, which is a plain
    number and always present. So 0.0 stands in only for a null box.
  */
  function BoxValue(reading: Option<real>): (v: real)
    ensures reading.Some? ==> v == reading.value
    ensures reading.None? ==> v == 0.0
  {
    reading.GetOr(0.0)
  }

  /** ModifyComponent's guard: a component that is there, saved (its identifier is not the default 0) and selectable. */
  predicate Modifiable(c: Option<Component>) {
    c.Some? && c.value.id != 0 && c.value.selectable
  }

  /**
    ModifyComponent: a component that passes the guard gets the attribute set, then Modify,
    then the model's CommitChanges; any other is left alone with no effect.
  */
  function ModifyComponent(c: Option<Component>, key: string, value: real): (r: Outcome<Option<Component>>)
    ensures r.completed
    ensures !Modifiable(c) ==> r.state == c && r.effects == []
    ensures Modifiable(c) ==>
      && r.state.Some? && r.state.value.id == c.value.id && r.state.value.input == c.value.input
      && GetNumber(r.state.value, key, 0.0) == value
      && (forall other | other != key :: other in r.state.value.numbers <==> other in c.value.numbers)
      && (forall other | other != key && other in c.value.numbers :: r.state.value.numbers[other] == c.value.numbers[other])
      && r.effects == [SetAttribute(key, value), Modify, CommitChanges]
  {
    if !Modifiable(c) then Outcome(c, [], true)
    else Outcome(Some(SetNumber(c.value, key, value)), [SetAttribute(key, value), Modify, CommitChanges], true)
  }

  /** The effects of writing to each component in turn. */
  function Writes(components: seq<Option<Component>>, key: string, value: real): seq<Effect>
    decreases |components|
  {
    if |components| == 0 then []
    else
      var last := ModifyComponent(components[|components| - 1], key, value);
      Writes(components[..|components| - 1], key, value) + last.effects
  }

  function ModifiableCount(components: seq<Option<Component>>): nat
    decreases |components|
  {
    if |components| == 0 then 0
    else ModifiableCount(components[..|components| - 1]) + if Modifiable(components[|components| - 1]) then 1 else 0
  }

  /** Every component that passes the guard costs three effects, and no other costs any. */
  lemma {:induction false} WritesPerModifiable(components: seq<Option<Component>>, key: string, value: real)
    ensures |Writes(components, key, value)| == 3 * ModifiableCount(components)
    decreases |components|
  {
    if |components| > 0 {
      WritesPerModifiable(components[..|components| - 1], key, value);
    }
  }

  /**
    A box's StateChanged handler: ModifyComponent with the box's own key and value on every
    selected component, in order. `reading` is `box?.Value`, as for BoxValue.
  */
  method BoxChanged(components: seq<Option<Component>>, box: Box, reading: Option<real>)
    returns (r: Outcome<seq<Option<Component>>>)
    ensures r.completed && |r.state| == |components|
    ensures r.effects == Writes(components, BoxKey(box), BoxValue(reading))
    ensures forall i | 0 <= i < |components| ::
      r.state[i] == if Modifiable(components[i]) then Some(SetNumber(components[i].value, BoxKey(box), BoxValue(reading)))
                    else components[i]
  {
    var key := BoxKey(box);
    var v := BoxValue(reading);
    var updated := components;
    var effects := [];
    var i := 0;
    while i < |components|
      invariant 0 <= i <= |components|
      invariant |updated| == |components|
      invariant effects == Writes(components[..i], key, v)
      invariant forall j | 0 <= j < |components| ::
        updated[j] == if j < i && Modifiable(components[j]) then Some(SetNumber(components[j].value, key, v))
                      else components[j]
    {
      var step := ModifyComponent(components[i], key, v);
      assert components[..i + 1][..i] == components[..i];
      updated := updated[i := step.state];
      effects := effects + step.effects;
      i := i + 1;
    }
    assert components[..|components|] == components;
    return Outcome(updated, effects, true);
  }

  /**
    After a box writes a value to a component that passed the guard, reading the component's
    values back shows the value in that box and leaves the other boxes as they were.
  */
  lemma WrittenValueShows(c: Component, box: Box, value: real, other: Box)
    requires Modifiable(Some(c))
    ensures Shown(CurrentValues(SetNumber(c, BoxKey(box), value)), box) == value
    ensures other != box ==>
      Shown(CurrentValues(SetNumber(c, BoxKey(box), value)), other) == Shown(CurrentValues(c), other)
  {
  }

  /** The contexts attached to a component: a rectangle context, then a circle context. */
  datatype Context =
    | RectangleManipulation(handles: RectangleContext.Handles)
    | CircleManipulation(circle: CircleContext.State)

  /**
    What the host receives from the AttachManipulationContexts iterator: the contexts yielded,
    and whether the iteration ran to its end. A constructor that throws ends the iteration, and
    the contexts yielded before it stay attached.
  */
  datatype Attached = Attached(contexts: seq<Context>, completed: bool)

  /**
    AttachManipulationContexts: the rectangle context, then the circle context. Each constructor
    throws when its geometry cannot be read, and then no later context is created.
  */
  function Contexts(k: Kernel, c: Component): (r: Attached)
    ensures r.completed <==> RectangleContext.CreateHandles(k, c).Some? && CircleContext.Create(k, c).Some?
    ensures RectangleContext.CreateHandles(k, c).None? ==> r.contexts == []
    ensures RectangleContext.CreateHandles(k, c).Some? ==>
      && 1 <= |r.contexts| <= 2
      && r.contexts[0] == RectangleManipulation(RectangleContext.CreateHandles(k, c).value)
    ensures |r.contexts| == 2 <==> r.completed
    ensures r.completed ==> r.contexts[1] == CircleManipulation(CircleContext.Create(k, c).value)
  {
    AttachInOrder(RectangleContext.CreateHandles(k, c), CircleContext.Create(k, c))
  }

  /** The iterator's two steps, given what each constructor makes of the component. */
  function AttachInOrder(rectangle: Option<RectangleContext.Handles>, circle: Option<CircleContext.State>)
    : Attached
  {
    match rectangle
    case None => Attached([], false)
    case Some(handles) =>
      match circle
      case None => Attached([RectangleManipulation(handles)], false)
      case Some(st) => Attached([RectangleManipulation(handles), CircleManipulation(st)], true)
  }

  /** In the iterator's order, a circle context can only be second, after a rectangle context. */
  lemma CircleSecond(rectangle: Option<RectangleContext.Handles>, circle: Option<CircleContext.State>, i: int)
    requires 0 <= i < |AttachInOrder(rectangle, circle).contexts|
    requires AttachInOrder(rectangle, circle).contexts[i].CircleManipulation?
    ensures i == 1 && rectangle.Some? && circle.Some?
  {
  }

  /**
    A circle context is attached only after a rectangle context: a component whose rectangle
    cannot be rebuilt gets no context at all, whatever its circle.
  */
  lemma CircleOnlyAfterRectangle(k: Kernel, c: Component, i: int)
    requires 0 <= i < |Contexts(k, c).contexts|
    requires Contexts(k, c).contexts[i].CircleManipulation?
    ensures i == 1 && Contexts(k, c).contexts[0].RectangleManipulation?
    ensures RectangleContext.CreateHandles(k, c).Some? && CircleContext.Create(k, c).Some?
  {
    CircleSecond(RectangleContext.CreateHandles(k, c), CircleContext.Create(k, c), i);
  }

  /**
    A component whose stored width is zero (a value box writes whatever it holds) gets no
    context at all, even when its input reads and its circle could be built: the rectangle
    context's constructor throws first.
  */
  lemma ZeroWidthGetsNoContext(k: Kernel, c: Component)
    requires BaseWidth(c) == 0.0 && BaseHeight(c) >= 0.0
    ensures Contexts(k, c) == Attached([], false)
    ensures DefinitionPoints(c.input).Some? ==> CircleContext.Create(k, c).Some?
  {
    RectangleContext.ZeroWidthHasNoHandles(k, c);
  }

  /** A component with positive dimensions and a readable frame gets both contexts with their handles. */
  lemma BuildableGetsBothContexts(k: Kernel, c: Component)
    requires RectangleContext.Buildable(k, c)
    ensures var r := Contexts(k, c);
      && r.completed
      && r.contexts == [RectangleManipulation(RectangleContext.CreateHandles(k, c).value),
                        CircleManipulation(CircleContext.Create(k, c).value)]
  {
    RectangleContext.UnmovedHandlesWriteBack(k, c);
  }
}

=== FILE: transition_section_plugin.dfy ===
/**
  The transition section plugin (ComplexTransitionSectionPlugin.TransitionSectionPlugin): reads its
  data with defaults, derives the geometry from two input points, and inserts one lofted plate per
  pair of matching arcs and one triangular contour plate between neighbouring pairs.
*/
module TransitionSectionPlugin {
  import opened Wrappers
  import opened Geometry
  import opened Polycurves
  import opened Host
  import opened TransitionSectionGeometry

  const DefaultRectangleWidth := 3000.0
  const DefaultRectangleHeight := 6000.0
  const DefaultCircleRadius := 1000.0
  const DefaultSectionLength := 1000.0

  /** The attribute names of TransitionSectionPluginPropertyNames that hold numbers. */
  const RectangleWidthKey := "RectangleWidth"
  const RectangleHeightKey := "RectangleHeight"
  const CircleRadiusKey := "CircleRadius"

  /**
    TransitionSectionPluginData as stored: a field is None when it holds the host's default-value
    marker (what IsDefaultValue detects).
  */
  datatype PluginData = PluginData(
    sectionProfile: Option<string>, material: Option<string>, finish: Option<string>,
    rectangleWidth: Option<real>, rectangleHeight: Option<real>, circleRadius: Option<real>)

  /** The values the plugin works with once the defaults are filled in. */
  datatype Values = Values(style: Style, width: real, height: real, radius: real)

  /** GetDataValues: every field that holds the default marker takes its default. */
  function DataValues(d: PluginData): (v: Values)
    ensures d.sectionProfile.None? ==> v.style.profile == "PL10"
    ensures d.material.None? ==> v.style.material == "Steel_Undefined"
    ensures d.finish.None? ==> v.style.finish == "PAINT"
    ensures d.rectangleWidth.None? ==> v.width == DefaultRectangleWidth
    ensures d.rectangleHeight.None? ==> v.height == DefaultRectangleHeight
    ensures d.circleRadius.None? ==> v.radius == DefaultCircleRadius
    ensures d.sectionProfile.Some? ==> v.style.profile == d.sectionProfile.value
    ensures d.material.Some? ==> v.style.material == d.material.value
    ensures d.finish.Some? ==> v.style.finish == d.finish.value
    ensures d.rectangleWidth.Some? ==> v.width == d.rectangleWidth.value
    ensures d.rectangleHeight.Some? ==> v.height == d.rectangleHeight.value
    ensures d.circleRadius.Some? ==> v.radius == d.circleRadius.value
  {
    Values(
      Style(d.sectionProfile.GetOr("PL10"), d.material.GetOr("Steel_Undefined"), d.finish.GetOr("PAINT")),
      d.rectangleWidth.GetOr(DefaultRectangleWidth),
      d.rectangleHeight.GetOr(DefaultRectangleHeight),
      d.circleRadius.GetOr(DefaultCircleRadius))
  }

  /** Data that holds real values throughout. */
  function Stored(v: Values): PluginData {
    PluginData(Some(v.style.profile), Some(v.style.material), Some(v.style.finish),
               Some(v.width), Some(v.height), Some(v.radius))
  }

  /** Stored values are kept as they are: the defaults replace only the default marker. */
  lemma StoredValuesKept(v: Values)
    ensures DataValues(Stored(v)) == v
  {
  }

  /** Defaults are positive, so dimensions that are stored positive or not at all stay positive. */
  lemma DimensionsPositive(d: PluginData)
    requires d.rectangleWidth.None? || d.rectangleWidth.value > 0.0
    requires d.rectangleHeight.None? || d.rectangleHeight.value > 0.0
    requires d.circleRadius.None? || d.circleRadius.value > 0.0
    ensures var v := DataValues(d); v.width > 0.0 && v.height > 0.0 && v.radius > 0.0
  {
  }

  /** `OfType<Point>()`: the points of a list, in order. */
  function PointsOf(objects: seq<InputObject>): (ps: seq<Vec3>)
    ensures |ps| <= |objects|
  {
    if |objects| == 0 then []
    else if objects[0].PointObject? then [objects[0].point] + PointsOf(objects[1..])
    else PointsOf(objects[1..])
  }

  /** Arc `i` of the rectangle with curve `i` of the circle; the circle curve is null unless an arc. */
  datatype ArcPair = ArcPair(bottom: Curve, top: Option<Curve>)

  /** `rectangle.OfType<Arc>().Zip(circle.Select(c => c as Arc))`: stops at the shorter list. */
  function ArcPairs(rect: seq<Curve>, circle: seq<Curve>): (pairs: seq<ArcPair>)
    ensures |pairs| == Min(|Arcs(rect)| as real, |circle| as real) as int
    ensures forall i | 0 <= i < |pairs| ::
      && pairs[i].bottom == Arcs(rect)[i]
      && pairs[i].top == (if circle[i].Arc? then Some(circle[i]) else None)
  {
    var arcs := Arcs(rect);
    var n := if |arcs| <= |circle| then |arcs| else |circle|;
    seq(n, i requires 0 <= i < n => ArcPair(arcs[i], if circle[i].Arc? then Some(circle[i]) else None))
  }

  /**
    How many triangles are made before one fails: the triangle of a pair reads the end point of
    its top arc, and a null top throws.
  */
  function TrianglesBeforeFailure(pairs: seq<ArcPair>): (m: nat)
    ensures m <= |pairs|
    ensures forall i | 0 <= i < m :: pairs[i].top.Some?
    ensures m < |pairs| ==> pairs[m].top.None?
  {
    if |pairs| == 0 || pairs[0].top.None? then 0
    else
      var m := 1 + TrianglesBeforeFailure(pairs[1..]);
      assert forall i | 1 <= i < m :: pairs[i] == pairs[1..][i - 1];
      m
  }

  /** MakeTriangularSection: from the bottom arc's end to the next bottom arc's start to the top arc's end. */
  function TriangleContour(bottom: Curve, top: Curve, nextBottom: Curve): seq<Vec3> {
    [bottom.end, nextBottom.start, top.end]
  }

  /** The index after `i` among `n`, wrapping round to 0: `(i + 1) % n`. */
  function NextIndex(i: nat, n: nat): (j: nat)
    requires i < n
    ensures j < n && j == (i + 1) % n
  {
    if i + 1 < n then i + 1 else 0
  }

  /**
    InsertTransitionSection: a lofted plate per pair, then a triangular plate per pair joined to
    the next pair, the last one wrapping round to the first.
  */
  function SectionParts(rect: seq<Curve>, circle: seq<Curve>, style: Style): (parts: seq<Part>)
    ensures var pairs := ArcPairs(rect, circle); var m := TrianglesBeforeFailure(pairs);
      && |parts| == |pairs| + m
      && (forall i | 0 <= i < |pairs| :: parts[i] == LoftedPlate(pairs[i].bottom, pairs[i].top, style))
      && (forall i | 0 <= i < m ::
            parts[|pairs| + i] == ContourPlate(
              TriangleContour(pairs[i].bottom, pairs[i].top.value, pairs[NextIndex(i, |pairs|)].bottom), style))
  {
    var pairs := ArcPairs(rect, circle);
    var n := |pairs|;
    var m := TrianglesBeforeFailure(pairs);
    var lofted := seq(n, i requires 0 <= i < n => LoftedPlate(pairs[i].bottom, pairs[i].top, style));
    var triangles := seq(m, i requires 0 <= i < m =>
      ContourPlate(TriangleContour(pairs[i].bottom, pairs[i].top.value, pairs[NextIndex(i, n)].bottom), style));
    lofted + triangles
  }

  /** What Run does: whether it returns true, and the parts it inserts. */
  datatype RunResult = RunResult(returned: bool, inserted: seq<Part>)

  /**
    Run: fill in the data values, take the points of the first input, and build the geometry
    with the base at the first point, the transition length their distance and the normal their
    difference. Everything that throws on the way (no input, a single object, fewer than two
    points, a geometry the host cannot build) inserts nothing; the exception is caught and Run
    returns true all the same.
  */
  function Run(k: Kernel, data: PluginData, input: seq<InputDefinition>): (r: RunResult)
    ensures r.returned
    ensures (|input| == 0 || input[0].SingleInput? || |PointsOf(input[0].objects)| < 2) ==> r.inserted == []
    ensures |input| > 0 && input[0].ListInput? && |PointsOf(input[0].objects)| >= 2 ==>
      var ps := PointsOf(input[0].objects);
      var v := DataValues(data);
      var made := MakeSection(k, v.height, v.width, Distance(k, ps[0], ps[1]), v.radius, ps[0], Sub(ps[1], ps[0]));
      && (made.None? ==> r.inserted == [])
      && (made.Some? ==> r.inserted == SectionParts(made.value.rectangular, made.value.circular, v.style))
  {
    RunResult(true, RunInserts(k, data, input))
  }

  function RunInserts(k: Kernel, data: PluginData, input: seq<InputDefinition>): seq<Part> {
    if |input| == 0 || input[0].SingleInput? then []
    else
      var points := PointsOf(input[0].objects);
      if |points| < 2 then []
      else
        var v := DataValues(data);
        match MakeSection(k, v.height, v.width, Distance(k, points[0], points[1]), v.radius,
                          points[0], Sub(points[1], points[0]))
        case None => []
        case Some(s) => SectionParts(s.rectangular, s.circular, v.style)
  }

  /**
    For a well-shaped section, the plates are four lofted plates joining rectangle arc 2i+1 to
    circle arc i, and four triangles; triangle i spans the straight edge 2i+2 of the rectangle
    (it starts where that edge starts and runs to where it ends) and rises to the end of circle
    arc i.
  */
  lemma PlatesOfWellShaped(s: Section, style: Style)
    requires WellShaped(s)
    ensures var parts := SectionParts(s.rectangular, s.circular, style);
      && |parts| == 8
      && (forall i | 0 <= i < 4 ::
            && parts[i] == LoftedPlate(s.rectangular[2 * i + 1], Some(s.circular[i]), style)
            && parts[4 + i] == ContourPlate(
                 [s.rectangular[(2 * i + 2) % 8].start, s.rectangular[(2 * i + 2) % 8].end,
                  s.circular[i].end], style))
  {
    PairsOfWellShaped(s);
    var pairs := ArcPairs(s.rectangular, s.circular);
    forall i | 0 <= i < 4
      ensures pairs[NextIndex(i, 4)].bottom.start == s.rectangular[(2 * i + 2) % 8].end
    {
      TriangleSpansEdge(s, i);
    }
  }

  /** The pairs of a well-shaped section: rectangle arc 2i+1 with circle arc i, all four complete. */
  lemma PairsOfWellShaped(s: Section)
    requires WellShaped(s)
    ensures var pairs := ArcPairs(s.rectangular, s.circular);
      && |pairs| == 4
      && (forall i | 0 <= i < 4 :: pairs[i] == ArcPair(s.rectangular[2 * i + 1], Some(s.circular[i])))
      && TrianglesBeforeFailure(pairs) == 4
  {
    AlternatingChain(s.rectangular);
  }

  /** The next pair's bottom arc starts where the straight edge after pair `i` ends. */
  lemma TriangleSpansEdge(s: Section, i: int)
    requires WellShaped(s) && 0 <= i < 4
    ensures s.rectangular[2 * ((i + 1) % 4) + 1].start == s.rectangular[(2 * i + 2) % 8].end
  {
    var e := (2 * i + 2) % 8;
    WrapIndices(i);
    assert s.rectangular[e].end == s.rectangular[(e + 1) % 8].start;
  }

  /** The wrap-around indices of the four pairs and the eight curves. */
  lemma WrapIndices(i: int)
    requires 0 <= i < 4
    ensures (i + 1) % 4 == (if i == 3 then 0 else i + 1)
    ensures (2 * i + 2) % 8 == (if i == 3 then 0 else 2 * i + 2)
    ensures ((2 * i + 2) % 8 + 1) % 8 == 2 * ((i + 1) % 4) + 1
  {
    if i == 0 {
    } else if i == 1 {
    } else if i == 2 {
    } else {
    }
  }

  /**
    With two input points and dimensions stored positive or left to their defaults, Run inserts
    the full transition: four lofted and four triangular plates.
  */
  lemma RunInsertsFullTransition(k: Kernel, data: PluginData, input: seq<InputDefinition>)
    requires Lawful(k)
    requires data.rectangleWidth.None? || data.rectangleWidth.value > 0.0
    requires data.rectangleHeight.None? || data.rectangleHeight.value > 0.0
    requires data.circleRadius.None? || data.circleRadius.value > 0.0
    requires |input| > 0 && input[0].ListInput? && |PointsOf(input[0].objects)| >= 2
    ensures var parts := Run(k, data, input).inserted;
      && |parts| == 8
      && (forall i | 0 <= i < 8 :: (i < 4 ==> parts[i].LoftedPlate?) && (i >= 4 ==> parts[i].ContourPlate?))
  {
    var s := RunSection(k, data, input);
    KindsOfWellShaped(s, DataValues(data).style);
  }

  /** The section Run builds from two points and positive dimensions is well shaped, and Run inserts its parts. */
  lemma RunSection(k: Kernel, data: PluginData, input: seq<InputDefinition>) returns (s: Section)
    requires Lawful(k)
    requires data.rectangleWidth.None? || data.rectangleWidth.value > 0.0
    requires data.rectangleHeight.None? || data.rectangleHeight.value > 0.0
    requires data.circleRadius.None? || data.circleRadius.value > 0.0
    requires |input| > 0 && input[0].ListInput? && |PointsOf(input[0].objects)| >= 2
    ensures WellShaped(s)
    ensures var ps := PointsOf(input[0].objects);
      var v := DataValues(data);
      && s.height == v.height && s.width == v.width && s.radius == v.radius
      && s.length == Distance(k, ps[0], ps[1]) && s.centroid == ps[0] && s.normal == Sub(ps[1], ps[0])
    ensures RunInserts(k, data, input) == SectionParts(s.rectangular, s.circular, DataValues(data).style)
  {
    var points := PointsOf(input[0].objects);
    var v := DataValues(data);
    var len := Distance(k, points[0], points[1]);
    var made := MakeSection(k, v.height, v.width, len, v.radius, points[0], Sub(points[1], points[0]));
    assert made.Some? && WellShaped(made.value) by {
      DimensionsPositive(data);
      SectionShape(k, v.height, v.width, len, v.radius, points[0], Sub(points[1], points[0]));
    }
    s := made.value;
  }

  /** A well-shaped section gives four lofted plates followed by four triangular plates. */
  lemma KindsOfWellShaped(s: Section, style: Style)
    requires WellShaped(s)
    ensures var parts := SectionParts(s.rectangular, s.circular, style);
      && |parts| == 8
      && (forall i | 0 <= i < 8 :: (i < 4 ==> parts[i].LoftedPlate?) && (i >= 4 ==> parts[i].ContourPlate?))
  {
    PairsOfWellShaped(s);
  }
}

=== FILE: wrappers.dfy ===
/** Failure-compatible optional values, used wherever the modelled code throws or returns nothing. */
module Wrappers {

  /** `None` stands for a thrown exception or a missing value; `Some` carries the result. */
  datatype Option<+T> = None | Some(value: T) {

    predicate IsFailure() {
      None?
    }

    function PropagateFailure<U>(): Option<U>
      requires None?
    {
      None
    }

    function Extract(): T
      requires Some?
    {
      value
    }

    /** The value, or `default` when there is none (C#'s `x ?? default`). */
    function GetOr(default: T): T {
      match this
      case Some(v) => v
      case None => default
    }
  }
}
